=== FILE: README.md ===
# Hulet Fish chat and onboarding core, modelled in Dafny

Hulet Fish is a cultural-tourism platform. Tourists book experiences with Ethiopian host
families and guides, and talk to them over a booking chat. This project models the logic
behind that chat and a few client-side state machines, and proves properties about each.

- **WebSocket chat server** (`chat_handler.dfy`). Covers the connection registry, which maps each
  user to their socket, and the subscription table, which maps each conversation to its set of
  subscribed users. Also covers:
  - the authentication handshake and its close codes 4001, 4004 and 4000;
  - the frame dispatcher and the join, leave, send, typing and mark-as-read handlers;
  - the status overwrite and the one-second "delivered" timer;
  - fan-out to subscribers and the close cleanup.
- **REST routes** (`chat_routes.dfy`). Covers:
  - the paginated history with read-marking;
  - conversation creation with its one-per-booking check;
  - the send route, the translation cache and the upload filter.
- **Data layer** (`message_model.dfy`, `conversation_model.dfy`, `chat_store.dfy`). The Message and
  Conversation schemas become datatypes with their enumerations, defaults and `required`
  validation. The database becomes in-memory collections.
- **Browser chat client** (`chat_service.dfy`, `chat_interface.dfy`, `chat_widget.dfy`,
  `conversation_list.dfy`). Covers:
  - the service's reconnect counter with linear back-off, event routing and guarded senders;
  - the chat panel's list updates;
  - the floating widget's unread badge and notification queue;
  - the conversation search.
- **Sign-up form** (`signup_form.dfy`). The password-strength meter and the order of the
  submit checks.
- **Feature-request board** (`feature_requests.dfy`). Filtering, the in-place sort, voting,
  progress bars and totals.
- **Recommended-features catalogue** (`recommended_features.dfy`). The lookups, the four-phase
  roadmap and the parsing and totalling of cost ranges.
- **Welcome flow** (`welcome_flow.dfy`). The per-role step lists, the bounded step counter and
  the progress dots.

`wrappers.dfy`, `seqs.dfy` and `strings.dfy` hold shared helpers: `Option` and `Result`, an
order-keeping filter with its lemmas, and ASCII lower-casing, trimming, substring search and
`parseInt`.

Some modelling choices:

- Code that changes state in place is a class whose methods state the whole new state:
  - the chat server and the store;
  - the client service, the chat panel and the widget;
  - the sign-up form, the feature board and the welcome flow.
- Pure code is functions and lemmas. The feature board's sort is an insertion sort on an
  array. The close-cleanup and broadcast loops are methods proved against the functions
  that specify them.
- Database ids are a document's position in its collection, so new documents get fresh ids.
  Client ids are strings.
- A socket is a record of an open flag, a close code and the frames sent to it. Timers are
  explicit events: the "delivered" timer, the reconnect timer and the end of the simulated
  sign-up request.
- The message schema's status order is not enforced by the code. `updateMessageStatus`
  overwrites the status unconditionally (`backend/websocket/chat-handler.js:263`), so the
  model follows the code. It proves that "read" can fall back to "delivered"
  (`ChatHandler.ReadThenDelivered`), rather than treating the status as monotone.

## Model

| member | source | states |
|---|---|---|
| ChatHandler.Admit | backend/websocket/chat-handler.js:20-37 | Missing or empty token gives 4001. A token `jwt.verify` rejects gives 4000. A verified user id with no user gives 4004. Otherwise the verified user is admitted; each code happens exactly in its case |
| ChatHandler.ChatServer.Connect | backend/websocket/chat-handler.js:17-45 | A refused socket is closed with its code; registry, subscriptions and users are unchanged. An admitted socket replaces the user's registry entry and marks the user online |
| ChatHandler.ChatServer.ValidInjective | backend/websocket/chat-handler.js:40 | The registry keeps one socket per user, so no two users share a socket |
| ChatHandler.Joined | backend/websocket/chat-handler.js:110-117 | After a join the conversation's subscribers are the old ones plus the user, with the set created if absent |
| ChatHandler.Left | backend/websocket/chat-handler.js:120-129 | After a leave the subscribers are the old ones minus the user. An emptied entry is deleted, and an unknown conversation is left alone |
| ChatHandler.JoinIdempotent | backend/websocket/chat-handler.js:110-117 | Joining twice equals joining once |
| ChatHandler.LeaveIdempotent | backend/websocket/chat-handler.js:120-129 | Leaving twice equals leaving once |
| ChatHandler.LeaveUndoesJoin | backend/websocket/chat-handler.js:110-129 | A leave right after a first join restores the table exactly, including a missing entry |
| ChatHandler.RemovedFrom | backend/websocket/chat-handler.js:86-93 | The close loop's partial result never adds entries and never creates an empty one |
| ChatHandler.RemovedFromStep | backend/websocket/chat-handler.js:87-92 | One more visited entry does what one loop iteration does: untouched, user removed, or entry deleted when emptied |
| ChatHandler.RemoveFromAllSubscriptions | backend/websocket/chat-handler.js:86-93 | The close loop computes `Unsubscribed` |
| ChatHandler.Unsubscribed | backend/websocket/chat-handler.js:86-93 | After close, the user is in no set and other users' memberships are unchanged. The entries deleted are exactly those whose only member was the user |
| ChatHandler.UnsubscribedNonMember | backend/websocket/chat-handler.js:86-93 | A user who subscribed to nothing leaves the table unchanged |
| ChatHandler.Receivers | backend/websocket/chat-handler.js:291-293 | The sockets reached are exactly the registered sockets of the target users |
| ChatHandler.Pushed | backend/websocket/chat-handler.js:291-296 | Each open receiving socket gets the frame appended. Every other socket and every open flag is unchanged |
| ChatHandler.PushedToUser | backend/websocket/chat-handler.js:279-296 | With one socket per user, a user's socket receives the frame if and only if the user is a target and the socket is open |
| ChatHandler.PushedUnion | backend/websocket/chat-handler.js:283-287 | Sending to two disjoint socket groups in turn is sending to their union |
| ChatHandler.ReceiversUnion | backend/websocket/chat-handler.js:283-287 | The sockets of a union of users are the union of their sockets |
| ChatHandler.ReceiversDisjoint | backend/websocket/chat-handler.js:283-287 | Disjoint user groups have disjoint sockets when each user has one socket |
| ChatHandler.SendTo | backend/websocket/chat-handler.js:291-296 | `sendToUser` is a broadcast to the single user |
| ChatHandler.BroadcastStep | backend/websocket/chat-handler.js:283-287 | One loop pass sends to a subscriber only when they are not excluded |
| ChatHandler.SendToSubscribers | backend/websocket/chat-handler.js:282-287 | The broadcast loop sends the frame to exactly the non-excluded subscribers' open sockets |
| ChatHandler.PushedNone | backend/websocket/chat-handler.js:280 | A conversation with no subscribers sends nothing |
| ChatHandler.ChatServer.Broadcast | backend/websocket/chat-handler.js:279-288 | The sockets after the broadcast are those of `Pushed` to the subscribers outside `exclude` |
| ChatHandler.Payload | backend/websocket/chat-handler.js:182-197 | The `new_message` frame carries the stored id, conversation, sender, body, status and timestamp, plus the sender's name and role |
| ChatHandler.SendFieldsValidate | backend/websocket/chat-handler.js:148-157 | A socket send is stored exactly when its text is non-empty. It is stored with status sent, as an image if and only if it has attachments, otherwise as text |
| ChatHandler.ChatServer.HandleSendMessage | backend/websocket/chat-handler.js:132-207 | A non-participant or an invalid message changes nothing. Otherwise the message is stored, the last message is recorded, every other participant's counter is bumped, the subscribers (sender included) get the frame and the delivered timer is armed |
| ChatHandler.ChatServer.HandleTyping | backend/websocket/chat-handler.js:210-232 | The typing frame goes to every subscriber except the typist |
| ChatHandler.ChatServer.UpdateMessageStatus | backend/websocket/chat-handler.js:257-276 | An unknown id changes nothing. Otherwise the status is overwritten whatever it was, and only the original sender is notified |
| ChatHandler.ChatServer.HandleMarkAsRead | backend/websocket/chat-handler.js:235-254 | The message becomes read whatever its status, the sender alone is notified, and an unknown id changes nothing |
| ChatHandler.ChatServer.FireDeliveredTimer | backend/websocket/chat-handler.js:203 | The oldest armed timer sets its message to delivered unconditionally and notifies the sender |
| ChatHandler.ChatServer.HandleFrame | backend/websocket/chat-handler.js:48-79 | Join and leave change only the subscriptions. Send, typing and mark-as-read frames have the effects of their handlers for the socket's user. Unknown or unparsable frames change nothing |
| ChatHandler.ChatServer.Close | backend/websocket/chat-handler.js:82-97 | The registry entry of the socket's user is deleted whichever socket it points to. The user leaves every conversation and is marked offline |
| ChatHandler.ChatServer.constructor | backend/websocket/chat-handler.js:8-9 | Registry and subscription table start empty |
| ChatHandler.ReadThenDelivered | backend/websocket/chat-handler.js:203-263 | A message read before its timer fires falls back from read to delivered, a lower rank in the status order |
| ChatHandler.StaleCloseUnregisters | backend/websocket/chat-handler.js:40-83 | Closing a replaced socket unregisters the user although the newer socket is still open |
| MessageModel.MissingRequired | backend/models/Message.js:5-18 | The unset required paths; an empty body counts as missing |
| MessageModel.Create | backend/models/Message.js:3-57 | A document is rejected exactly when a required path is missing. Otherwise the defaults are taken: type text, status sent, not edited, no translations |
| MessageModel.Rank | backend/models/Message.js:35-39 | Positions along sending, sent, delivered, read: sending first and read last |
| MessageModel.RankInjective | backend/models/Message.js:37 | Distinct statuses have distinct positions |
| ConversationModel.NewParticipant | backend/models/Conversation.js:10-30 | A participant takes `joinedAt` and `lastSeen` from the creation time |
| ConversationModel.NewConversation | backend/models/Conversation.js:3-54 | A new conversation has no last message, an empty unread map, is active and carries the given booking |
| ConversationModel.ParticipantIds | backend/models/Conversation.js:12-16 | The participant ids, in order |
| ConversationModel.BumpUnread | backend/websocket/chat-handler.js:160-165 | The participant loop raises each non-sender's counter once per listing and leaves the sender's alone |
| ConversationModel.BumpUnreadOnce | backend/routes/chat.js:338-343 | With each participant listed once, every other participant gets exactly +1 and the sender's counter is unchanged |
| ChatStore.FindConversation | backend/routes/chat.js:315-318 | The participant query finds a conversation if and only if one with that id lists the user |
| ChatStore.FindMessage | backend/routes/chat.js:213 | `findById` finds a stored message if and only if the id exists |
| ChatStore.MessagesOf | backend/routes/chat.js:127 | Exactly the messages of the conversation, in order and each as often as stored |
| ChatStore.WithStatus | backend/websocket/chat-handler.js:263 | Only the matching message's status changes, unconditionally |
| ChatStore.ReadBy | backend/routes/chat.js:156-163 | Every message of the conversation from another sender and not yet read becomes read, and nothing else changes |
| ChatStore.ReadByIdempotent | backend/routes/chat.js:156-163 | A second read marks nothing more |
| ChatStore.ReadByEffect | backend/routes/chat.js:156-163 | After a read, the other senders' messages are read, the rest are unchanged, and only statuses change |
| ChatStore.Store.SaveMessage | backend/routes/chat.js:325-335 | A valid document is appended under a fresh id. An invalid one stores nothing and reports the missing paths |
| ChatStore.Store.SetStatus | backend/websocket/chat-handler.js:263 | The messages become `WithStatus`; the rest of the store is unchanged |
| ChatStore.Store.MarkRead | backend/routes/chat.js:156-163 | The messages become `ReadBy` |
| ChatStore.Store.SetTranslations | backend/routes/chat.js:231-232 | Only that message's translation map changes |
| ChatStore.Store.RecordMessage | backend/routes/chat.js:345-354 | Only that conversation's last message, counters and update time change |
| ChatStore.Store.SetUnread | backend/routes/chat.js:166-168 | Only that conversation's counters change |
| ChatStore.Store.AddConversation | backend/routes/chat.js:289-295 | A new conversation with its defaults is appended under a fresh id |
| ChatStore.Store.SetPresence | backend/websocket/chat-handler.js:96 | A known user's online flag and last-seen time are set; an unknown id changes nothing |
| ChatStore.Store.constructor | backend/routes/chat.js:127 | The store starts with no conversations and no messages |
| ChatRoutes.StatusCode | backend/routes/chat.js:123 | Every error maps to a 4xx or 5xx code |
| ChatRoutes.IntOr | backend/routes/chat.js:112-113 | A missing, unparsable or zero query gives the default, otherwise the parsed value, a `0x` prefix reading base 16 |
| Strings.ParseInt | backend/routes/chat.js:112-113 | `Number.parseInt` without a radix: after leading whitespace and a sign, `0x` and hexadecimal digits or decimal digits; NaN exactly when no digit follows; the magnitude is negated after `-` (see DecimalParse, HexParse) |
| ChatRoutes.Page | backend/routes/chat.js:112 | The page is never zero and is 1 without a query |
| ChatRoutes.Limit | backend/routes/chat.js:113 | The limit is never zero and is 50 without a query |
| ChatRoutes.Skip | backend/routes/chat.js:114 | `(page - 1) * limit`: the first page skips nothing, and a positive page and limit skip a non-negative count (see ThirdPageSkip, HexPageSkip) |
| ChatRoutes.HexPageSkip | backend/routes/chat.js:112-114 | `?page=0x2` is page two and skips fifty messages |
| ChatRoutes.BatchSize | backend/routes/chat.js:130 | The query always returns a positive batch |
| ChatRoutes.PaginationDefaults | backend/routes/chat.js:112-114 | Without queries: page 1, limit 50, skip 0 |
| ChatRoutes.ThirdPageSkip | backend/routes/chat.js:114 | `skip = (page - 1) * limit`: page 3 skips 100 |
| ChatRoutes.Window | backend/routes/chat.js:128-130 | Skip then limit on the newest-first list: the right length, and entries taken in order from `skip` |
| ChatRoutes.PageOf | backend/routes/chat.js:127-131 | The newest-first fetch, reversed: at most `limit` messages, exactly as many as lie before the skipped ones up to `limit` (the slice itself is PageIsSlice) |
| ChatRoutes.PageIsSlice | backend/routes/chat.js:127-174 | The returned page, newest-first reversed, is the contiguous chronological slice ending `skip` before the newest |
| ChatRoutes.HasMoreIffOlder | backend/routes/chat.js:172 | `hasMore` holds if and only if older messages exist before the page |
| ChatRoutes.Views | backend/routes/chat.js:137-153 | One formatted entry per message, carrying its sender's details |
| ChatRoutes.GetMessages | backend/routes/chat.js:109-179 | A non-participant gets 404. A negative skip or a page message whose sender is gone gets 500. Neither error changes anything. Otherwise the page is returned with its previous statuses, `hasMore` and the total, the other senders' messages become read and the reader's counter becomes 0 |
| ChatRoutes.BuildParticipants | backend/routes/chat.js:263-276 | The loop fails at the first listed id without a user. Otherwise it gives one participant per id, in order, with that user's role |
| ChatRoutes.CreateConversation | backend/routes/chat.js:242-302 | 400 without booking or array; 404 for an unknown booking; 400 when the booking already has a conversation; 404 for an unknown participant; 500 when the caller must be added but is not a user. Errors store nothing. Otherwise one active conversation is stored, with the caller appended if and only if not listed, and at most one conversation per booking is kept |
| ChatRoutes.RestFieldsValidate | backend/routes/chat.js:325-335 | A REST send is stored with status sent and type text unless given. An attachment-only send passes the route's check but fails the schema's |
| ChatRoutes.EmptySend | backend/routes/chat.js:312 | A send is accepted by the route exactly when it has a non-empty text or a non-empty attachment list |
| ChatRoutes.RestFields | backend/routes/chat.js:327-335 | The stored fields: status sent, type text unless given, attachments and reply as sent; the schema can miss only the body, exactly when the text is empty |
| ChatRoutes.SendMessage | backend/routes/chat.js:305-377 | 400 with neither text nor attachments, 404 for a non-participant, 500 when the schema rejects the message, and in each case nothing is stored. Otherwise the message is stored and recorded as the last one, and every other participant's counter is bumped. The answer is the message with its sender, or 500 when the sender is not a user |
| ChatRoutes.Translate | backend/routes/chat.js:218-232 | A cached translation is returned unchanged. Otherwise the simulated text is stored under the language, and only the translation map changes |
| ChatRoutes.TranslateStable | backend/routes/chat.js:218-232 | A second request returns the same text and stores nothing new |
| ChatRoutes.TranslateMessage | backend/routes/chat.js:204-239 | 400 without a language or with an empty one, 404 for an unknown message, otherwise the cached or stored translation; only that message changes |
| ChatRoutes.LastDot | backend/routes/chat.js:33 | The position of the last dot, or none when there is none |
| ChatRoutes.ExtName | backend/routes/chat.js:33 | The extension is a dot-led suffix holding no other dot; it is empty exactly when no dot follows the first character or the name is `..` |
| ChatRoutes.MatchesAllowed | backend/routes/chat.js:32 | The unanchored pattern: some alternative occurs in the text, so a match has at least three characters (see PlainTextNotAllowed) |
| ChatRoutes.FileFilter | backend/routes/chat.js:31-41 | The lower-cased extension and the MIME type each contain an alternative, so an accepted name has at least four characters (see PhotoAccepted, PlainTextRejected) |
| ChatRoutes.Upload | backend/routes/chat.js:182-201 | No file gives 400. A file is accepted if and only if it passes the filter and the size limit. The response type is image if and only if the MIME type starts with `image/` |
| ChatRoutes.PhotoAccepted | backend/routes/chat.js:31-37 | A `.JPG` photo passes the filter, because the extension is lower-cased |
| ChatRoutes.PlainTextNotAllowed | backend/routes/chat.js:32 | `text/plain` contains none of the pattern's alternatives |
| ChatRoutes.PlainTextRejected | backend/routes/chat.js:32-39 | A plain-text file is refused although `txt` is listed |
| ChatService.ReconnectStep | lib/chat-service.ts:98-106 | Below five attempts, one more is counted and scheduled after 1000 ms times the new count. At five, nothing happens, and the counter never passes five |
| ChatService.FailureDelaysLinear | lib/chat-service.ts:98-106 | Successive failures wait 1000·k ms for k = attempts+1 up to five, then nothing more |
| ChatService.FreshBackoff | lib/chat-service.ts:98-106 | Six failures from a fresh start schedule 1 to 5 seconds |
| ChatService.CallbackFor | lib/chat-service.ts:108-123 | Each of the four event types maps to its own callback, and only those types map |
| ChatService.HandleMessage | lib/chat-service.ts:108-123 | A registered callback of a known type is called with the event's fields. Anything else is ignored |
| ChatService.NameOf | components/chat/chat-interface.tsx:206 | The name of the first participant entry with the user's id, "You" when that name is empty or the user is not listed |
| ChatService.MetaOf | lib/chat-service.ts:140-144 | An attachment description keeps name and size, with type image if and only if the MIME type starts with `image/` |
| ChatService.MetasOf | lib/chat-service.ts:140-144 | One description per file, in order |
| ChatService.MessageFrame | lib/chat-service.ts:136-145 | The `send_message` frame carries the text and, per file in order, its name, size and whether it is an image |
| ChatService.Service.constructor | lib/chat-service.ts:64-66 | A new service connects at once; a throwing constructor counts one reconnect attempt |
| ChatService.Service.Connect | lib/chat-service.ts:68-96 | A new connecting socket replaces the old one. A throw keeps the old socket and runs one reconnect step |
| ChatService.Service.HandleReconnect | lib/chat-service.ts:98-106 | The counter and timers follow `ReconnectStep` |
| ChatService.Service.OnOpen | lib/chat-service.ts:75-78 | An open resets the attempt counter to 0 |
| ChatService.Service.OnClose | lib/chat-service.ts:80-83 | Every close, even one from a replaced socket, runs a reconnect step |
| ChatService.Service.FireReconnect | lib/chat-service.ts:101-104 | The earliest timer fires and connects again |
| ChatService.Service.SendMessage | lib/chat-service.ts:131-148 | Fails with "Chat service not connected" if and only if the socket is not open. Otherwise it writes the frame |
| ChatService.Service.SendQuietly | lib/chat-service.ts:150-193 | The frame is written if and only if the socket is open |
| ChatService.Service.SendTypingIndicator | lib/chat-service.ts:150-160 | The typing frame is written only on an open socket |
| ChatService.Service.MarkMessageAsRead | lib/chat-service.ts:162-171 | The read frame is written only on an open socket |
| ChatService.Service.JoinConversation | lib/chat-service.ts:173-182 | The join frame is written only on an open socket |
| ChatService.Service.LeaveConversation | lib/chat-service.ts:184-193 | The leave frame is written only on an open socket |
| ChatService.Service.Disconnect | lib/chat-service.ts:195-200 | The socket is dropped |
| ChatService.SendAfterDisconnect | lib/chat-service.ts:195-200 | After `disconnect`, sending fails and nothing is written |
| ChatInterface.StatusUpdated | components/chat/chat-interface.tsx:80-82 | Only the matching messages' status changes. Length, order and all other fields are kept |
| ChatInterface.StatusUpdateLastWins | components/chat/chat-interface.tsx:80-82 | Of two updates to one message the later one remains |
| ChatInterface.WithoutUser | components/chat/chat-interface.tsx:87 | Exactly the entries of other users remain |
| ChatInterface.WithoutUserOnePerUser | components/chat/chat-interface.tsx:87 | Removing a user's entries keeps at most one entry per user |
| ChatInterface.TypingUpdated | components/chat/chat-interface.tsx:86-89 | Other users' entries are kept. The user has an entry if and only if the event says typing, and that entry is the event, at the end |
| ChatInterface.TypingUpdatedOnePerUser | components/chat/chat-interface.tsx:86-89 | The typing list never holds two entries for one user |
| ChatInterface.AcceptedFiles | components/chat/chat-interface.tsx:257-270 | Exactly the files of at most 10 MB with an `image/` or `application/` type, in order and with their multiplicity |
| ChatInterface.LocalAttachment | components/chat/chat-interface.tsx:212-217 | A preview attachment has the file's name, size and object URL, and type image if and only if its MIME type starts with `image/` |
| ChatInterface.Optimistic | components/chat/chat-interface.tsx:202-218 | The optimistic message has the temp id, is `sending`, is an image if and only if files are attached, and has one attachment per file |
| ChatInterface.Panel.constructor | components/chat/chat-interface.tsx:70-91 | The panel starts empty |
| ChatInterface.Panel.Loaded | components/chat/chat-interface.tsx:65 | The loaded conversation and history are shown |
| ChatInterface.Panel.OnNewMessage | components/chat/chat-interface.tsx:70-78 | The message is appended, and a read frame is written if and only if someone else sent it and the socket is open |
| ChatInterface.Panel.OnMessageStatusUpdate | components/chat/chat-interface.tsx:80-82 | The list becomes `StatusUpdated` |
| ChatInterface.Panel.OnTypingIndicator | components/chat/chat-interface.tsx:84-91 | The user's own events are ignored; others update the list as `TypingUpdated` |
| ChatInterface.Panel.HandleFileSelect | components/chat/chat-interface.tsx:255-273 | The accepted files are appended after those already picked |
| ChatInterface.Panel.RemoveFile | components/chat/chat-interface.tsx:580 | Exactly the given position is removed; the rest keep their order |
| ChatInterface.Panel.Type | components/chat/chat-interface.tsx:594-597 | The input holds the typed text; with a conversation loaded, "typing" is sent on an open socket and the typing-stop timeout is re-armed for that conversation |
| ChatInterface.Panel.TypingStopped | components/chat/chat-interface.tsx:250-252 | The armed timeout sends "not typing" for its conversation and disarms; with none armed nothing happens |
| ChatInterface.TypingThenStop | components/chat/chat-interface.tsx:239-253 | Two keystrokes send "typing" twice and only one "not typing" follows |
| ChatInterface.Panel.HandleSendMessage | components/chat/chat-interface.tsx:194-237 | Blank text without files, or no conversation, changes nothing. Otherwise the optimistic message is appended, input and files are cleared, and the frame is sent, or the send fails on a closed socket |
| ChatInterface.AcknowledgeOthersOnly | components/chat/chat-interface.tsx:70-78 | Of an own message and another user's, only the latter is acknowledged |
| ChatWidget.WithoutNotification | components/chat/chat-widget.tsx:221-223 | Exactly the notifications with other ids remain, in order and with their multiplicity |
| ChatWidget.FirstWithId | components/chat/chat-widget.tsx:227 | The first position with that id |
| ChatWidget.FindById | components/chat/chat-widget.tsx:227 | The first conversation with that id, or none if there is none |
| ChatWidget.Subtracted | components/chat/chat-widget.tsx:240-242 | The badge drops by a positive count, stops at 0, and is unchanged otherwise |
| ChatWidget.Widget.constructor | components/chat/chat-widget.tsx:21-30 | The widget starts closed, with no badge and no notifications |
| ChatWidget.Widget.OnNewMessage | components/chat/chat-widget.tsx:34-51 | A message for the selected conversation is appended and acknowledged. Another user's message elsewhere raises the badge, and is queued if and only if the widget is closed or minimised. The user's own messages elsewhere change nothing |
| ChatWidget.Widget.ConversationsLoaded | components/chat/chat-widget.tsx:57-70 | The loaded conversation list is kept |
| ChatWidget.Widget.HandleOpenChat | components/chat/chat-widget.tsx:205-209 | Open, not minimised, and badge 0 |
| ChatWidget.Widget.HandleCloseChat | components/chat/chat-widget.tsx:211-215 | Closed, with no selection and no messages |
| ChatWidget.Widget.HandleMinimize | components/chat/chat-widget.tsx:217-219 | The minimised flag flips |
| ChatWidget.Widget.HandleBackToList | components/chat/chat-widget.tsx:245-248 | No selection and no messages |
| ChatWidget.Widget.HandleNotificationClose | components/chat/chat-widget.tsx:221-223 | The notifications become `WithoutNotification` |
| ChatWidget.Widget.HandleSelectConversation | components/chat/chat-widget.tsx:234-243 | The conversation is shown and joined, and its unread count is taken off the badge, never below 0 |
| ChatWidget.Widget.HandleNotificationReply | components/chat/chat-widget.tsx:225-232 | The message's conversation is selected if it is listed, and then the notification is dropped |
| ChatWidget.Widget.Type | components/chat/chat-widget.tsx:409 | The input holds the typed text |
| ChatWidget.Widget.HandleSendMessage | components/chat/chat-widget.tsx:250-279 | Blank text or no selection changes nothing. Otherwise a `sending` text message is appended, the input is cleared and the frame is sent |
| ChatWidget.NotifyThenReply | components/chat/chat-widget.tsx:205-232 | While closed, a message raises the badge and queues a notification. Opening clears the badge, and replying opens the conversation and empties the queue |
| ConversationList.FirstOther | components/chat/conversation-list.tsx:193 | The first position whose participant is not the user |
| ConversationList.OtherParticipant | components/chat/conversation-list.tsx:192-194 | The first participant who is not the user, or none if every participant is the user |
| ConversationList.UnreadCount | components/chat/conversation-list.tsx:196-198 | The stored count for the user, or 0 |
| ConversationList.Filtered | components/chat/conversation-list.tsx:184-190 | A conversation is kept if and only if the other participant's name or the title contains the query, ignoring case; the result is an order-keeping subsequence that keeps each kept entry's multiplicity |
| ConversationList.EmptyQueryKeepsAll | components/chat/conversation-list.tsx:184-190 | An empty query keeps every conversation, in order |
| ConversationList.QueryCaseInsensitive | components/chat/conversation-list.tsx:187-188 | Lower-casing the query changes nothing |
| ConversationList.IncludesPrefix | components/chat/conversation-list.tsx:187-188 | A string containing a query contains each prefix of it |
| ConversationList.NarrowingShrinks | components/chat/conversation-list.tsx:184-190 | Extending the query never brings a conversation back |
| SignupForm.Requirements | components/auth/signup-form.tsx:59-64 | The four flags are exactly: length at least 8; a lower and an upper letter; a digit; a character outside letters and digits |
| SignupForm.MetCount | components/auth/signup-form.tsx:59-64 | The number of flags met is at most the number of flags; it is all of them exactly when every flag is met and zero exactly when none is |
| SignupForm.CalculatePasswordStrength | components/auth/signup-form.tsx:34-41 | The strength is 25 times the number of flags met, so it lies in {0, 25, 50, 75, 100}, and it is 100 if and only if every flag is met |
| SignupForm.Band | components/auth/signup-form.tsx:45-57 | The band thresholds at 25, 50 and 75 |
| SignupForm.StrengthText | components/auth/signup-form.tsx:52-57 | The label is Weak, Fair, Good or Strong by band |
| SignupForm.StrengthColor | components/auth/signup-form.tsx:45-50 | The colour is red, orange, yellow or green by band |
| SignupForm.BandsMonotone | components/auth/signup-form.tsx:45-57 | A stronger password never shows a lower band, and the label and colour agree |
| SignupForm.LabelByCount | components/auth/signup-form.tsx:34-57 | n flags met shows the label of band n-1, or Weak |
| SignupForm.SubmitError | components/auth/signup-form.tsx:71-84 | Mismatch is reported first, then weakness, then the terms. No error occurs if and only if all three checks pass |
| SignupForm.SubmitGuards | components/auth/signup-form.tsx:71-86 | A submission that goes through has matching passwords meeting at least two flags, and an enabled button |
| SignupForm.Form.constructor | components/auth/signup-form.tsx:24-31 | An empty form with the tourist role |
| SignupForm.Form.Edit | components/auth/signup-form.tsx:24-31 | The form holds the typed data |
| SignupForm.Form.HandleSubmit | components/auth/signup-form.tsx:66-86 | The error is the first failed check, or empty. Loading starts if and only if every check passed |
| SignupForm.Form.SubmitFinished | components/auth/signup-form.tsx:106-108 | Loading stops |
| SignupForm.WeakExample | components/auth/signup-form.tsx:34-41 | "abc" has strength 0 |
| SignupForm.GoodExample | components/auth/signup-form.tsx:34-41 | "Abcdefg1" has strength 75 |
| SignupForm.SubmitOrder | components/auth/signup-form.tsx:66-86 | The three errors come in order, and a good password with the terms accepted is let through |
| FeatureRequests.Filtered | components/feature-request-system.tsx:147-156 | A feature is kept if and only if its title or description contains the query (ignoring case) and each select is "all" or names its value; order and multiplicity are kept |
| FeatureRequests.NoFilterKeepsAll | components/feature-request-system.tsx:147-156 | An empty query with every select on "all" keeps the whole list |
| FeatureRequests.CategorySelected | components/feature-request-system.tsx:151 | A category select keeps only that category |
| FeatureRequests.Rank | components/feature-request-system.tsx:166 | The priority rank runs from 1 (low) to 4 (critical) |
| FeatureRequests.UnknownKeyConstant | components/feature-request-system.tsx:168-169 | An unknown sort key compares every pair as equal |
| FeatureRequests.SortFeatures | components/feature-request-system.tsx:159-171 | The sort is a permutation into non-increasing key order, and with all keys equal nothing moves |
| FeatureRequests.Insert | components/feature-request-system.tsx:159-171 | One pass extends the sorted prefix by one and keeps the multiset |
| FeatureRequests.Swap | components/feature-request-system.tsx:159 | Two neighbours are exchanged and nothing else changes |
| FeatureRequests.OrderOfTwo | components/feature-request-system.tsx:159-171 | Two requests with different keys end up larger key first |
| FeatureRequests.SortKeys | components/feature-request-system.tsx:160-167 | "votes" orders by votes, "newest" by creation time, "priority" by rank, each descending |
| FeatureRequests.Voted | components/feature-request-system.tsx:176-182 | Only the matching requests' votes move by +1 or -1; length, order and other fields are kept, and votes may go negative |
| FeatureRequests.VoteUndone | components/feature-request-system.tsx:176-182 | A down vote undoes an up vote |
| FeatureRequests.WithId | components/feature-request-system.tsx:178-179 | The number of requests with the id is at most the list length, and zero exactly when no request has it |
| FeatureRequests.VoteMovesTotal | components/feature-request-system.tsx:176-182 | A vote moves the total by ±1 for each matching request |
| FeatureRequests.TotalVotes | components/feature-request-system.tsx:274 | The "Total Votes" sum: 0 for no requests, non-negative when no vote count is negative (see VoteMovesTotal) |
| FeatureRequests.Progress | components/feature-request-system.tsx:197-216 | Every bar is between 0 and 100 |
| FeatureRequests.ProgressAlongPipeline | components/feature-request-system.tsx:197-216 | The bar grows strictly along the pipeline, is 100 if and only if deployed, and is 0 when rejected |
| FeatureRequests.CountStatus | components/feature-request-system.tsx:256-265 | A status count is at most the list length, and zero exactly when no request has that status |
| FeatureRequests.StatsOf | components/feature-request-system.tsx:248-274 | The total is the list length and bounds in-development plus deployed |
| FeatureRequests.InDevelopmentAndDeployed | components/feature-request-system.tsx:256-265 | No request is counted both in development and deployed |
| FeatureRequests.VoteKeepsCounts | components/feature-request-system.tsx:176-182 | Voting changes no status count |
| FeatureRequests.SortedBy | components/feature-request-system.tsx:159-171 | The sorted copy is a permutation of the filtered list in key order, and is the filtered list itself under an unknown key |
| FeatureRequests.Board.constructor | components/feature-request-system.tsx:136-142 | The board opens with every filter on "all", sorted by votes |
| FeatureRequests.Board.Refresh | components/feature-request-system.tsx:146-174 | The list shown is a permutation of the filtered list in key order, in filter order for an unknown key |
| FeatureRequests.Board.SetFilters | components/feature-request-system.tsx:138-142 | The new query, selects and key are taken and the list is refreshed |
| FeatureRequests.Board.HandleVote | components/feature-request-system.tsx:176-182 | The features become `Voted`, and the list is refreshed |
| FeatureRequests.UnknownKeyKeepsOrder | components/feature-request-system.tsx:168-169 | Under an unknown key the list keeps its order |
| FeatureRequests.VoteReorders | components/feature-request-system.tsx:159-182 | Sorted by votes, an up vote lifts a request above one it was tied with |
| FeatureRequests.VotedPair | components/feature-request-system.tsx:176-182 | A vote touches only the request with the id |
| RecommendedFeatures.CatalogueWellFormed | lib/recommended-features.ts:15-161 | Every proposal's priority is in `priorityLevels` and its category in `featureCategories` |
| RecommendedFeatures.ByPriority | lib/recommended-features.ts:163-165 | Exactly the proposals with that priority, in order and with their multiplicity |
| RecommendedFeatures.ByCategory | lib/recommended-features.ts:167-169 | Exactly the proposals with that category, in order and with their multiplicity |
| RecommendedFeatures.ImplementationRoadmap | lib/recommended-features.ts:179-191 | Phase n holds exactly the proposals of the n-th level, in order and with their multiplicity |
| RecommendedFeatures.LevelsListed | lib/recommended-features.ts:161 | The four levels are exactly the entries of `priorityLevels` |
| RecommendedFeatures.ByPriorityCons | lib/recommended-features.ts:163-165 | The lookup over a list with a proposal in front |
| RecommendedFeatures.RoadmapPartition | lib/recommended-features.ts:179-191 | When every proposal has one of the four levels, the phases together are exactly as long as the list |
| RecommendedFeatures.RoadmapDisjoint | lib/recommended-features.ts:179-191 | Each proposal lies in the phase of its level and in no other |
| RecommendedFeatures.CatalogueRoadmap | lib/recommended-features.ts:179-191 | The catalogue's phases hold as many entries as the catalogue |
| RecommendedFeatures.Strip | lib/recommended-features.ts:173 | No `$` or `,` remains |
| RecommendedFeatures.StripAppend | lib/recommended-features.ts:173 | Stripping distributes over concatenation |
| RecommendedFeatures.FindFrom | lib/recommended-features.ts:173 | The first occurrence of the separator from a position, or none |
| RecommendedFeatures.Split | lib/recommended-features.ts:173 | `split` never gives an empty list |
| RecommendedFeatures.SplitJoin | lib/recommended-features.ts:173 | Joining the pieces with the separator gives back the string |
| RecommendedFeatures.SplitNone | lib/recommended-features.ts:173 | Without a separator there is a single piece |
| RecommendedFeatures.NoRangeIsNaN | lib/recommended-features.ts:173-174 | A cost without " - " averages to NaN |
| RecommendedFeatures.AddCost | lib/recommended-features.ts:175 | A sum is a number if and only if both summands are |
| RecommendedFeatures.Averages | lib/recommended-features.ts:172-176 | One average per proposal |
| RecommendedFeatures.AverageCost | lib/recommended-features.ts:173-174 | A proposal's average is a number only when its stripped cost holds the " - " separator (see RangeAverage, NoRangeIsNaN) |
| RecommendedFeatures.TotalCost | lib/recommended-features.ts:171-177 | The fold of AddCost over Averages: NaN exactly when some average is NaN (see TotalCostNaN, TotalCostAppend) |
| RecommendedFeatures.AddCostAssociative | lib/recommended-features.ts:175 | Adding costs is associative, NaN included |
| RecommendedFeatures.SumAppend | lib/recommended-features.ts:172-176 | The fold over two lists is the sum of their folds |
| RecommendedFeatures.SumNaN | lib/recommended-features.ts:172-176 | The fold is NaN if and only if some entry is |
| RecommendedFeatures.TotalCostAppend | lib/recommended-features.ts:171-177 | The total of two lists is the sum of their totals |
| RecommendedFeatures.TotalCostNaN | lib/recommended-features.ts:171-177 | The total is NaN if and only if some proposal's range does not parse |
| Strings.DecimalParse | lib/recommended-features.ts:174 | `parseInt` of a run of decimal digits is its base-10 value |
| Strings.HexParse | backend/routes/chat.js:112-113 | Without a radix, `parseInt` reads `0x10` as sixteen |
| RecommendedFeatures.SplitRange | lib/recommended-features.ts:173 | Two digit runs around " - " split into exactly those two |
| RecommendedFeatures.StripDigits | lib/recommended-features.ts:173 | Digits with thousands commas become digits |
| RecommendedFeatures.StripRange | lib/recommended-features.ts:173 | `$a - $b` strips to `a - b`, each stripped |
| RecommendedFeatures.DigitRangeAverage | lib/recommended-features.ts:173-174 | Two digit runs average to the mean of their values |
| RecommendedFeatures.RangeAverage | lib/recommended-features.ts:173-174 | A cost `$a - $b` averages the two amounts |
| RecommendedFeatures.FirstRange | lib/recommended-features.ts:171-177 | "$15,000 - $25,000" averages to 20000 |
| WelcomeFlow.Config | components/auth/welcome-flow.tsx:18-103 | Every role has steps |
| WelcomeFlow.EveryRoleThreeByFour | components/auth/welcome-flow.tsx:18-103 | Every role has three steps of four features |
| WelcomeFlow.RolesDistinct | components/auth/welcome-flow.tsx:20-101 | Different roles have different colours and titles |
| WelcomeFlow.DotOf | components/auth/welcome-flow.tsx:153-155 | A dot is active if and only if it is the current step, done if and only if before, and pending if and only if after |
| WelcomeFlow.Dots | components/auth/welcome-flow.tsx:150-157 | One dot per step |
| WelcomeFlow.DotsShape | components/auth/welcome-flow.tsx:150-157 | The row is done dots, one active dot, then pending dots |
| WelcomeFlow.ForwardLabel | components/auth/welcome-flow.tsx:211-224 | "Next" if and only if a later step exists, otherwise "Get Started" |
| WelcomeFlow.Badge | components/auth/welcome-flow.tsx:207-209 | The badge reads current+1 of len |
| WelcomeFlow.Flow.constructor | components/auth/welcome-flow.tsx:16 | The flow starts at step 0 |
| WelcomeFlow.Flow.Current | components/auth/welcome-flow.tsx:120 | The shown step is one of the role's steps |
| WelcomeFlow.Flow.NextStep | components/auth/welcome-flow.tsx:108-112 | It advances exactly when "Next" is shown, and the step stays in range |
| WelcomeFlow.Flow.PrevStep | components/auth/welcome-flow.tsx:114-118 | It goes back exactly when Previous is enabled, and the step stays in range |
| WelcomeFlow.WalkThrough | components/auth/welcome-flow.tsx:108-118 | Four Nexts stop on the last step with "Get Started" and 3 of 3; one Previous goes back |

## Left out

- I/O is not modelled: the WebSocket server setup, Express routing, middleware, multer's disk
  storage, `fs`, browser `WebSocket` and `fetch`, `localStorage`, toasts, scrolling and logging.
  Only the state they drive is kept.
- JWT checking is an abstract partial function from token to user id. Signature and expiry
  checks are not modelled.
- Mongoose and MongoDB are in-memory collections:
  - queries, `populate`, indexes and ObjectId-to-string coercion are not modelled;
  - spreading a Mongoose Map is modelled as the intended per-key update: the sender's unread
    increment in `handleSendMessage` and the reader's reset to zero in
    backend/routes/chat.js:166-168 (an object spread does not copy a Map's
    entries, so the source as written would lose the other counters);
  - database failures other than schema validation are not modelled;
  - users are never deleted, and a user listed twice in a conversation is counted twice.
- The order of messages that share a creation time is unspecified in MongoDB. The model keeps
  insertion order and assumes the clock never goes backwards.
- Timers are explicit events with no wall-clock time: the delivered timer, the typing-stop
  timeout, reconnect timers, notification auto-dismiss and the simulated sign-up delay.
- Concurrency is not modelled: handlers run one at a time.
- `JSON.parse` failures are modelled as one `Unparsable` frame. Invalid enum strings are not
  modelled, and neither is a frame that parses but lacks a field it needs: in the source a
  join without `conversationId` subscribes the user under the key `undefined`, and the other
  handlers likewise act on `undefined`.
- A socket replaced by a newer connection of the same user stays open and registered in the
  model's sessions, so its later frames are still handled for that user and its `close` still
  unregisters the user, as the source's per-connection closures do.
- Floating point and dates:
  - JavaScript numbers are exact integers and reals;
  - `createdAt` is an integer;
  - `Math.round`, `toLocaleString` and `Date` arithmetic are not modelled.
- Strings are ASCII. Full Unicode lower-casing and UTF-16 lengths are not modelled.
- ChatRoutes.BatchSize: a negative `limit` is modelled as a single batch of its absolute value.
- ChatRoutes.ExtName models `path.extname` for plain file names only. Directory separators are
  not handled.
- `GET /conversations`, the client's REST helper functions and the mock loaders are not modelled.
  They list or fetch data without logic of their own. The translate route's text is the
  simulated one the route builds.
- `URL.createObjectURL` is a function parameter.
- FeatureRequests.SortFeatures: the comparator's order between requests with equal keys is stated
  only when every key is equal, where nothing moves. In general the sort is an insertion
  sort, which is stable like the engine's.
- FeatureRequests: the `CreateFeatureForm` dialog, `getStatusIcon`, the colour tables and the
  request fields the board does not read are not modelled. Those fields include requester,
  effort, business value, complexity, dependencies and comments.
- RecommendedFeatures: the descriptive fields of proposals are not modelled. These include
  description, benefits, technical requirements, timeline and metrics.
- RecommendedFeatures.RoadmapPartition states the partition by total length together with
  RoadmapDisjoint's membership, not as a multiset equality.
- RecommendedFeatures.AverageCost: `Number.parseInt` and `/ 2` are exact. NaN is modelled as
  `None`.
- WelcomeFlow: `getRoleConfig` has no default case for an unknown role; the model's role
  type has only the three roles. The Get Started button's `console.log`, icons and JSX
  rendering are not modelled.
- SignupForm: the mock account creation in `localStorage` and the redirect are not modelled, and
  neither is the catch branch, which runs when `localStorage.setItem` throws.

=== FILE: chat_handler.dfy ===
/** The WebSocket chat server: the connection registry (`clients`), the subscription table
    (`conversationSubscriptions`), the connection handshake, the frame dispatcher, the
    per-frame handlers, broadcasting and the close cleanup.

    A socket is a record with an `open` flag, the close code it was closed with and the
    frames sent to it. `sessions` maps each accepted socket to the user its handlers were
    installed for, which stands for the closures the connection handler creates. The
    one-second "delivered" timer is a queue of armed message ids, fired as an explicit event. */
module ChatHandler {
  import opened Wrappers
  import opened Seqs
  import opened MessageModel
  import opened ConversationModel
  import opened ChatStore

  type SocketId = nat

  /** Close codes of the handshake, in the private-use range of section 7.4.2 of RFC 6455. */
  const AuthenticationRequired := 4001
  const UserNotFound := 4004
  const ConnectionError := 4000

  /** The `message` object of a `new_message` frame. */
  datatype MessagePayload = MessagePayload(
    id: Id,
    conversationId: Id,
    senderId: Id,
    senderName: string,
    senderAvatar: string,
    senderRole: Role,
    body: string,
    messageType: MessageType,
    attachments: seq<Attachment>,
    timestamp: int,
    status: MessageStatus)

  /** Frames the server sends. */
  datatype OutFrame =
    | NewMessage(message: MessagePayload)
    | MessageStatusUpdate(messageId: Id, status: MessageStatus)
    | TypingFrame(conversationId: Id, userId: Id, userName: string, isTyping: bool)

  datatype Socket = Socket(open: bool, closeCode: Option<int>, outbox: seq<OutFrame>)

  /** Frames a client sends, after `JSON.parse`; `Unparsable` is data that does not parse. */
  datatype InFrame =
    | JoinConversation(conversationId: Id)
    | LeaveConversation(conversationId: Id)
    | SendMessage(conversationId: Id, body: Option<string>, attachments: Option<seq<Attachment>>)
    | TypingIndicator(conversationId: Id, isTyping: bool)
    | MarkAsRead(messageId: Id)
    | UnknownType(kind: string)
    | Unparsable

  datatype Admission = Admitted(userId: Id) | Refused(code: int)

  /** The checks of the connection handler before a socket is registered. `verify` stands
      for `jwt.verify` followed by `decoded.user.id`; `None` is a throw, which the handler's
      catch turns into the generic connection error. A `?token=` with an empty value is
      falsy and counts as missing. */
  function Admit(token: Option<string>, verify: string -> Option<Id>, users: map<Id, User>): (a: Admission)
    ensures a.Refused? ==> a.code in {AuthenticationRequired, UserNotFound, ConnectionError}
    ensures a == Refused(AuthenticationRequired) <==> token.None? || token.value == ""
    ensures a == Refused(ConnectionError) <==> token.Some? && token.value != "" && verify(token.value).None?
    ensures a == Refused(UserNotFound) <==>
      token.Some? && token.value != "" && verify(token.value).Some? && verify(token.value).value !in users
    ensures a.Admitted? ==> token.Some? && verify(token.value) == Some(a.userId) && a.userId in users
  {
    if token.None? || token.value == "" then Refused(AuthenticationRequired)
    else match verify(token.value)
      case None => Refused(ConnectionError)
      case Some(u) => if u in users then Admitted(u) else Refused(UserNotFound)
  }

  // ----- the subscription table -----

  type Subscriptions = map<Id, set<Id>>

  /** The subscribers of `cid`; a conversation without an entry has none. */
  function Members(subs: Subscriptions, cid: Id): set<Id>
  {
    if cid in subs then subs[cid] else {}
  }

  /** The table never keeps an entry for a conversation nobody is subscribed to. */
  predicate NoEmptyEntries(subs: Subscriptions)
  {
    forall c :: c in subs ==> subs[c] != {}
  }

  /** `handleJoinConversation`: create the set if absent, then add the user. */
  function Joined(subs: Subscriptions, cid: Id, u: Id): (r: Subscriptions)
    ensures Members(r, cid) == Members(subs, cid) + {u}
    ensures forall c :: c != cid ==> Members(r, c) == Members(subs, c)
    ensures r.Keys == subs.Keys + {cid}
    ensures NoEmptyEntries(subs) ==> NoEmptyEntries(r)
  {
    subs[cid := Members(subs, cid) + {u}]
  }

  /** `handleLeaveConversation`: remove the user and drop the entry once it is empty;
      a conversation without an entry is left alone. */
  function Left(subs: Subscriptions, cid: Id, u: Id): (r: Subscriptions)
    ensures Members(r, cid) == Members(subs, cid) - {u}
    ensures forall c :: c != cid ==> Members(r, c) == Members(subs, c)
    ensures cid !in subs ==> r == subs
    ensures NoEmptyEntries(subs) ==> NoEmptyEntries(r)
    ensures cid in r <==> Members(subs, cid) - {u} != {}
  {
    if cid in subs then
      if subs[cid] - {u} == {} then subs - {cid} else subs[cid := subs[cid] - {u}]
    else subs
  }

  /** Joining twice is joining once. */
  lemma JoinIdempotent(subs: Subscriptions, cid: Id, u: Id)
    ensures Joined(Joined(subs, cid, u), cid, u) == Joined(subs, cid, u)
  {
  }

  /** Leaving twice is leaving once. */
  lemma LeaveIdempotent(subs: Subscriptions, cid: Id, u: Id)
    ensures Left(Left(subs, cid, u), cid, u) == Left(subs, cid, u)
  {
    if cid in subs && subs[cid] - {u} != {} {
      assert (subs[cid] - {u}) - {u} == subs[cid] - {u};
    }
  }

  /** Leaving right after a first join restores the table exactly, including the absence of
      an entry that the join created. */
  lemma LeaveUndoesJoin(subs: Subscriptions, cid: Id, u: Id)
    requires NoEmptyEntries(subs) && u !in Members(subs, cid)
    ensures Left(Joined(subs, cid, u), cid, u) == subs
  {
    var r := Left(Joined(subs, cid, u), cid, u);
    assert r.Keys == subs.Keys;
    forall c | c in subs ensures r[c] == subs[c] {
      assert Members(r, c) == Members(subs, c);
    }
  }

  /** The close loop's table after it has visited the entries in `visited`: in each visited
      entry the user is removed, and an entry is deleted when the removal emptied it. */
  function RemovedFrom(subs: Subscriptions, u: Id, visited: set<Id>): (r: Subscriptions)
    ensures r.Keys <= subs.Keys
    ensures NoEmptyEntries(subs) ==> NoEmptyEntries(r)
  {
    map c | c in subs && !(c in visited && u in subs[c] && subs[c] - {u} == {}) ::
      if c in visited then subs[c] - {u} else subs[c]
  }

  /** Visiting one more entry `c` does what one pass of the close loop's body does to it. */
  lemma RemovedFromStep(subs: Subscriptions, u: Id, visited: set<Id>, c: Id)
    requires c in subs && c !in visited
    ensures var r := RemovedFrom(subs, u, visited);
      && c in r && r[c] == subs[c]
      && RemovedFrom(subs, u, visited + {c}) ==
           if u !in subs[c] then r
           else if subs[c] - {u} == {} then r - {c}
           else r[c := subs[c] - {u}]
  {
    var r := RemovedFrom(subs, u, visited);
    var r' := RemovedFrom(subs, u, visited + {c});
    if u !in subs[c] {
      assert subs[c] - {u} == subs[c];
      assert r'.Keys == r.Keys;
    } else if subs[c] - {u} == {} {
      assert r'.Keys == r.Keys - {c};
    } else {
      assert r'.Keys == r.Keys;
    }
  }

  /** The close handler's loop over the subscription entries: each entry holding the user
      loses them and is deleted once empty. */
  method RemoveFromAllSubscriptions(subs: Subscriptions, u: Id) returns (r: Subscriptions)
    ensures r == Unsubscribed(subs, u)
  {
    r := subs;
    var todo := subs.Keys;
    assert r == RemovedFrom(subs, u, {});
    while todo != {}
      invariant todo <= subs.Keys
      invariant r == RemovedFrom(subs, u, subs.Keys - todo)
      decreases |todo|
    {
      var c :| c in todo;
      RemovedFromStep(subs, u, subs.Keys - todo, c);
      if u in r[c] {
        var rest := r[c] - {u};
        if rest == {} {
          r := r - {c};
        } else {
          r := r[c := rest];
        }
      }
      assert subs.Keys - (todo - {c}) == (subs.Keys - todo) + {c};
      todo := todo - {c};
    }
    assert subs.Keys - todo == subs.Keys;
  }

  /** The subscription table after `u` disconnects. */
  function Unsubscribed(subs: Subscriptions, u: Id): (r: Subscriptions)
    ensures forall c :: u !in Members(r, c)
    ensures forall c, v :: v != u ==> (v in Members(r, c) <==> v in Members(subs, c))
    ensures r.Keys <= subs.Keys
    ensures forall c :: c in subs && c !in r <==> c in subs && subs[c] == {u}
    ensures NoEmptyEntries(subs) ==> NoEmptyEntries(r)
  {
    RemovedFrom(subs, u, subs.Keys)
  }

  /** A user who never subscribed leaves the table as it was when disconnecting, as long as
      the table has no empty entry. */
  lemma UnsubscribedNonMember(subs: Subscriptions, u: Id)
    requires NoEmptyEntries(subs)
    requires forall c :: u !in Members(subs, c)
    ensures Unsubscribed(subs, u) == subs
  {
    var r := Unsubscribed(subs, u);
    forall c | c in subs ensures c in r && r[c] == subs[c] {
      assert u !in Members(subs, c);
    }
  }

  // ----- broadcasting -----

  /** The sockets registered for the users in `targets`. */
  function Receivers(clients: map<Id, SocketId>, targets: set<Id>): (r: set<SocketId>)
    ensures forall v :: v in targets && v in clients ==> clients[v] in r
    ensures forall s :: s in r ==> exists v :: v in targets && v in clients && clients[v] == s
  {
    set v | v in targets && v in clients :: clients[v]
  }

  /** Each of the `receivers` sockets that is open gets `f` appended to what it was sent. */
  function Pushed(sockets: map<SocketId, Socket>, receivers: set<SocketId>, f: OutFrame): (r: map<SocketId, Socket>)
    ensures r.Keys == sockets.Keys
    ensures forall s :: s in sockets ==> r[s].open == sockets[s].open && r[s].closeCode == sockets[s].closeCode
    ensures forall s :: s in sockets && s in receivers && sockets[s].open ==> r[s].outbox == sockets[s].outbox + [f]
    ensures forall s :: s in sockets && !(s in receivers && sockets[s].open) ==> r[s] == sockets[s]
  {
    map s | s in sockets ::
      if s in receivers && sockets[s].open then sockets[s].(outbox := sockets[s].outbox + [f]) else sockets[s]
  }

  /** Each user has a socket of their own. */
  predicate Injective(clients: map<Id, SocketId>)
  {
    forall a, b :: a in clients && b in clients && clients[a] == clients[b] ==> a == b
  }

  /** With one socket per user, a user's socket receives a broadcast to `targets` exactly
      when the user is a target and the socket is open. */
  lemma {:induction false} PushedToUser(sockets: map<SocketId, Socket>, clients: map<Id, SocketId>,
                                           targets: set<Id>, f: OutFrame, v: Id)
    requires Injective(clients)
    requires v in clients && clients[v] in sockets
    ensures Pushed(sockets, Receivers(clients, targets), f)[clients[v]].outbox ==
      if v in targets && sockets[clients[v]].open then sockets[clients[v]].outbox + [f]
      else sockets[clients[v]].outbox
  {
    var s := clients[v];
    if s in Receivers(clients, targets) {
      var w :| w in targets && w in clients && clients[w] == s;
      assert w == v;
    }
  }

  /** Sending to two disjoint groups of sockets, one after the other, is sending to their union. */
  lemma {:induction false} PushedUnion(sockets: map<SocketId, Socket>, r1: set<SocketId>, r2: set<SocketId>, f: OutFrame)
    requires r1 !! r2
    ensures Pushed(Pushed(sockets, r1, f), r2, f) == Pushed(sockets, r1 + r2, f)
  {
    var a := Pushed(Pushed(sockets, r1, f), r2, f);
    var b := Pushed(sockets, r1 + r2, f);
    assert a.Keys == b.Keys;
    forall s | s in a ensures a[s] == b[s] {
      if s in r1 {
        assert s !in r2;
      }
    }
  }

  lemma ReceiversUnion(clients: map<Id, SocketId>, t1: set<Id>, t2: set<Id>)
    ensures Receivers(clients, t1 + t2) == Receivers(clients, t1) + Receivers(clients, t2)
  {
  }

  /** With one socket per user, the sockets of two disjoint groups of users are disjoint. */
  lemma ReceiversDisjoint(clients: map<Id, SocketId>, t1: set<Id>, t2: set<Id>)
    requires Injective(clients) && t1 !! t2
    ensures Receivers(clients, t1) !! Receivers(clients, t2)
  {
    forall s | s in Receivers(clients, t1) ensures s !in Receivers(clients, t2) {
      var a :| a in t1 && a in clients && clients[a] == s;
      assert a !in t2;
    }
  }

  /** `sendToUser`: the frame goes to the user's registered socket if it is open. */
  function SendTo(sockets: map<SocketId, Socket>, clients: map<Id, SocketId>, v: Id, f: OutFrame): (r: map<SocketId, Socket>)
    ensures r == Pushed(sockets, Receivers(clients, {v}), f)
  {
    if v in clients && clients[v] in sockets && sockets[clients[v]].open then
      assert Receivers(clients, {v}) == {clients[v]};
      sockets[clients[v] := sockets[clients[v]].(outbox := sockets[clients[v]].outbox + [f])]
    else
      assert v in clients ==> Receivers(clients, {v}) == {clients[v]};
      sockets
  }

  /** One pass of the broadcast loop over a subscriber `v` not yet visited. */
  lemma BroadcastStep(sockets: map<SocketId, Socket>, clients: map<Id, SocketId>,
                      done: set<Id>, exclude: set<Id>, v: Id, f: OutFrame)
    requires Injective(clients) && v !in done
    ensures v !in exclude ==>
      SendTo(Pushed(sockets, Receivers(clients, done - exclude), f), clients, v, f)
        == Pushed(sockets, Receivers(clients, (done + {v}) - exclude), f)
    ensures v in exclude ==>
      Pushed(sockets, Receivers(clients, done - exclude), f)
        == Pushed(sockets, Receivers(clients, (done + {v}) - exclude), f)
  {
    if v !in exclude {
      ReceiversDisjoint(clients, done - exclude, {v});
      PushedUnion(sockets, Receivers(clients, done - exclude), Receivers(clients, {v}), f);
      ReceiversUnion(clients, done - exclude, {v});
      assert (done + {v}) - exclude == (done - exclude) + {v};
    } else {
      assert (done + {v}) - exclude == done - exclude;
    }
  }

  /** The loop of `broadcastToConversation` over the subscribers, each one not excluded
      being sent the frame through `sendToUser`. */
  method SendToSubscribers(sockets: map<SocketId, Socket>, clients: map<Id, SocketId>,
                           subscribers: set<Id>, exclude: set<Id>, f: OutFrame)
    returns (r: map<SocketId, Socket>)
    requires Injective(clients)
    ensures r == Pushed(sockets, Receivers(clients, subscribers - exclude), f)
  {
    r := sockets;
    var todo := subscribers;
    ghost var done: set<Id> := {};
    PushedNone(sockets, f);
    while todo != {}
      invariant todo + done == subscribers && todo !! done
      invariant r == Pushed(sockets, Receivers(clients, done - exclude), f)
      decreases |todo|
    {
      var v :| v in todo;
      BroadcastStep(sockets, clients, done, exclude, v, f);
      if v !in exclude {
        r := SendTo(r, clients, v, f);
      }
      todo := todo - {v};
      done := done + {v};
    }
  }

  lemma PushedNone(sockets: map<SocketId, Socket>, f: OutFrame)
    ensures Pushed(sockets, {}, f) == sockets
  {
  }

  /** The `new_message` frame built from a stored message and its sender. */
  function Payload(m: Message, sender: User): (p: MessagePayload)
    ensures p.id == m.id && p.conversationId == m.conversationId && p.senderId == m.senderId
    ensures p.body == m.body && p.status == m.status && p.timestamp == m.createdAt
    ensures p.senderName == sender.name && p.senderRole == sender.role
  {
    MessagePayload(m.id, m.conversationId, m.senderId, sender.name, sender.avatar, sender.role,
                   m.body, m.messageType, m.attachments, m.createdAt, m.status)
  }

  /** The fields `handleSendMessage` gives to `new Message`. */
  function SendFields(cid: Id, u: Id, body: Option<string>, attachments: Option<seq<Attachment>>): MessageFields
  {
    MessageFields(
      Some(cid), Some(u), Some(body.GetOr("")),
      Some(if attachments.Some? && |attachments.value| > 0 then Image else Text),
      attachments, Some(Sent), None)
  }

  /** A message sent over the socket is stored as sent, as an image exactly when it carries
      attachments, and only when its text is not empty. */
  lemma SendFieldsValidate(id: Id, cid: Id, u: Id, body: Option<string>, attachments: Option<seq<Attachment>>, now: int)
    ensures var r := Create(id, SendFields(cid, u, body, attachments), now);
      && (r.Ok? <==> body.Some? && body.value != "")
      && (r.Ok? ==> r.value.status == Sent && r.value.senderId == u && r.value.conversationId == cid)
      && (r.Ok? ==> (r.value.messageType == Image <==> attachments.Some? && |attachments.value| > 0))
      && (r.Ok? ==> r.value.messageType in {Image, Text})
  {
  }

  class ChatServer {
    const store: Store
    var clients: map<Id, SocketId>
    var subscriptions: Subscriptions
    var sockets: map<SocketId, Socket>
    var sessions: map<SocketId, Id>
    /** Messages whose "delivered" timer is armed, in the order the timers fire. */
    var pending: seq<Id>
    var nextSocket: SocketId

    ghost predicate Valid()
      reads this, store
    {
      && store.Valid()
      && (forall u :: u in clients ==> clients[u] in sessions && sessions[clients[u]] == u)
      && (forall s :: s in sessions ==> s in sockets && sockets[s].open && sessions[s] in store.users)
      && (forall s :: s in sockets ==> s < nextSocket)
      && NoEmptyEntries(subscriptions)
      && (forall i :: 0 <= i < |pending| ==> pending[i] < |store.messages|)
    }

    lemma ValidInjective()
      requires Valid()
      ensures Injective(clients)
    {
    }

    constructor (store: Store)
      requires store.Valid()
      ensures Valid() && this.store == store
      ensures clients == map[] && subscriptions == map[] && sockets == map[] && sessions == map[] && pending == []
    {
      this.store := store;
      clients := map[];
      subscriptions := map[];
      sockets := map[];
      sessions := map[];
      pending := [];
      nextSocket := 0;
    }

    /** A new connection: refused sockets are closed with their code and leave the registry,
        the subscriptions and the store alone; an admitted socket replaces any earlier
        socket of the same user and marks the user online. */
    method Connect(token: Option<string>, verify: string -> Option<Id>, now: int) returns (sid: SocketId, a: Admission)
      requires Valid()
      modifies this, store
      ensures Valid()
      ensures sid !in old(sockets)
      ensures a == Admit(token, verify, old(store.users))
      ensures subscriptions == old(subscriptions) && pending == old(pending)
      ensures store.conversations == old(store.conversations) && store.messages == old(store.messages)
      ensures a.Refused? ==> && sockets == old(sockets)[sid := Socket(false, Some(a.code), [])]
                             && clients == old(clients) && sessions == old(sessions)
                             && store.users == old(store.users)
      ensures a.Admitted? ==> && sockets == old(sockets)[sid := Socket(true, None, [])]
                              && clients == old(clients)[a.userId := sid]
                              && sessions == old(sessions)[sid := a.userId]
                              && store.users == old(store.users)[a.userId :=
                                   old(store.users)[a.userId].(isOnline := true, lastSeen := now)]
    {
      sid := nextSocket;
      nextSocket := nextSocket + 1;
      a := Admit(token, verify, store.users);
      if a.Refused? {
        sockets := sockets[sid := Socket(false, Some(a.code), [])];
      } else {
        sockets := sockets[sid := Socket(true, None, [])];
        clients := clients[a.userId := sid];
        sessions := sessions[sid := a.userId];
        store.SetPresence(a.userId, true, now);
      }
    }

    /** `broadcastToConversation`: every subscriber of `cid` outside `exclude` is sent `f`;
        a conversation without subscribers sends nothing. */
    method Broadcast(cid: Id, f: OutFrame, exclude: set<Id>)
      requires Valid()
      modifies this`sockets
      ensures Valid()
      ensures sockets == Pushed(old(sockets), Receivers(clients, Members(subscriptions, cid) - exclude), f)
    {
      if cid !in subscriptions {
        PushedNone(sockets, f);
        return;
      }
      ValidInjective();
      sockets := SendToSubscribers(sockets, clients, subscriptions[cid], exclude, f);
    }

    /** The close handler: the registry entry of the socket's user is deleted whichever socket
        it points to, the user leaves every conversation and is marked offline. */
    method Close(sid: SocketId, now: int)
      requires Valid() && sid in sessions
      modifies this, store
      ensures Valid()
      ensures clients == old(clients) - {old(sessions)[sid]}
      ensures subscriptions == Unsubscribed(old(subscriptions), old(sessions)[sid])
      ensures sockets == old(sockets)[sid := old(sockets)[sid].(open := false)]
      ensures sessions == old(sessions) - {sid}
      ensures pending == old(pending)
      ensures store.conversations == old(store.conversations) && store.messages == old(store.messages)
      ensures store.users == old(store.users)[old(sessions)[sid] :=
                old(store.users)[old(sessions)[sid]].(isOnline := false, lastSeen := now)]
    {
      var u := sessions[sid];
      clients := clients - {u};
      subscriptions := RemoveFromAllSubscriptions(subscriptions, u);
      store.SetPresence(u, false, now);
      sockets := sockets[sid := sockets[sid].(open := false)];
      sessions := sessions - {sid};
    }

    /** `handleSendMessage`: a non-participant or a message that fails validation changes
        nothing. Otherwise the message is stored as sent, the conversation records it and
        bumps every other participant's unread counter, the subscribers (sender included)
        receive it, and its "delivered" timer is armed. */
    method HandleSendMessage(u: Id, cid: Id, body: Option<string>, attachments: Option<seq<Attachment>>, now: int)
      requires Valid() && u in store.users
      modifies this`sockets, this`pending, store
      ensures Valid()
      ensures store.users == old(store.users)
      ensures var created := Create(|old(store.messages)|, SendFields(cid, u, body, attachments), now);
        if FindConversation(old(store.conversations), cid, u).None? || created.Err? then
          && store.messages == old(store.messages) && store.conversations == old(store.conversations)
          && sockets == old(sockets) && pending == old(pending)
        else
          var mid := |old(store.messages)|;
          var was := old(store.conversations)[cid];
          && store.messages == old(store.messages) + [created.value]
          && |store.conversations| == |old(store.conversations)|
          && (forall i :: 0 <= i < |store.conversations| && i != cid ==> store.conversations[i] == old(store.conversations)[i])
          && store.conversations[cid] == was.(lastMessage := Some(mid), updatedAt := now,
                                               unreadCount := store.conversations[cid].unreadCount)
          && Bumped(was.unreadCount, ParticipantIds(was.participants), u, store.conversations[cid].unreadCount)
          && sockets == Pushed(old(sockets), Receivers(clients, Members(subscriptions, cid)),
                                  NewMessage(Payload(created.value, store.users[u])))
          && pending == old(pending) + [mid]
    {
      var conv := FindConversation(store.conversations, cid, u);
      if conv.None? {
        return;
      }
      var saved := store.SaveMessage(SendFields(cid, u, body, attachments), now);
      if saved.Err? {
        return;
      }
      var mid := saved.value;
      var unread := BumpUnread(conv.value.unreadCount, ParticipantIds(conv.value.participants), u);
      store.RecordMessage(cid, mid, unread, now);
      var frame := NewMessage(Payload(store.messages[mid], store.users[u]));
      Broadcast(cid, frame, {});
      assert Members(subscriptions, cid) - {} == Members(subscriptions, cid);
      pending := pending + [mid];
    }

    /** `handleTypingIndicator`: the subscribers other than the typist are told who types. */
    method HandleTyping(u: Id, cid: Id, isTyping: bool)
      requires Valid() && u in store.users
      modifies this`sockets
      ensures Valid()
      ensures sockets == Pushed(old(sockets), Receivers(clients, Members(subscriptions, cid) - {u}),
                                   TypingFrame(cid, u, store.users[u].name, isTyping))
    {
      Broadcast(cid, TypingFrame(cid, u, store.users[u].name, isTyping), {u});
    }

    /** `updateMessageStatus`: an unknown id changes nothing; otherwise the status is
        overwritten whatever it was, and the original sender is notified. */
    method UpdateMessageStatus(mid: Id, status: MessageStatus)
      requires Valid()
      modifies this`sockets, store
      ensures Valid()
      ensures store.users == old(store.users) && store.conversations == old(store.conversations)
      ensures mid >= |old(store.messages)| ==> store.messages == old(store.messages) && sockets == old(sockets)
      ensures mid < |old(store.messages)| ==>
        && store.messages == WithStatus(old(store.messages), mid, status)
        && sockets == Pushed(old(sockets), Receivers(clients, {old(store.messages)[mid].senderId}),
                                MessageStatusUpdate(mid, status))
    {
      var m := FindMessage(store.messages, mid);
      if m.None? {
        return;
      }
      store.SetStatus(mid, status);
      sockets := SendTo(sockets, clients, m.value.senderId, MessageStatusUpdate(mid, status));
    }

    /** `handleMarkAsRead`: any connected user may mark any message read. */
    method HandleMarkAsRead(u: Id, mid: Id)
      requires Valid()
      modifies this`sockets, store
      ensures Valid()
      ensures store.users == old(store.users) && store.conversations == old(store.conversations)
      ensures mid >= |old(store.messages)| ==> store.messages == old(store.messages) && sockets == old(sockets)
      ensures mid < |old(store.messages)| ==>
        && store.messages == WithStatus(old(store.messages), mid, Read)
        && sockets == Pushed(old(sockets), Receivers(clients, {old(store.messages)[mid].senderId}),
                                MessageStatusUpdate(mid, Read))
    {
      UpdateMessageStatus(mid, Read);
    }

    /** The oldest armed "delivered" timer fires. */
    method FireDeliveredTimer()
      requires Valid() && pending != []
      modifies this`sockets, this`pending, store
      ensures Valid()
      ensures pending == old(pending)[1..]
      ensures store.users == old(store.users) && store.conversations == old(store.conversations)
      ensures store.messages == WithStatus(old(store.messages), old(pending)[0], Delivered)
      ensures sockets == Pushed(old(sockets), Receivers(clients, {old(store.messages)[old(pending)[0]].senderId}),
                                   MessageStatusUpdate(old(pending)[0], Delivered))
    {
      var mid := pending[0];
      pending := pending[1..];
      UpdateMessageStatus(mid, Delivered);
    }

    /** The `message` handler's switch. Unknown types and unparsable data only log. */
    method HandleFrame(sid: SocketId, frame: InFrame, now: int)
      requires Valid() && sid in sessions
      modifies this`subscriptions, this`sockets, this`pending, store
      ensures Valid()
      ensures store.users == old(store.users)
      ensures frame.JoinConversation? ==>
        subscriptions == Joined(old(subscriptions), frame.conversationId, sessions[sid])
      ensures frame.LeaveConversation? ==>
        subscriptions == Left(old(subscriptions), frame.conversationId, sessions[sid])
      ensures !(frame.JoinConversation? || frame.LeaveConversation?) ==> subscriptions == old(subscriptions)
      ensures frame.JoinConversation? || frame.LeaveConversation? || frame.UnknownType? || frame.Unparsable? ==>
        && sockets == old(sockets) && pending == old(pending)
        && store.messages == old(store.messages) && store.conversations == old(store.conversations)
      ensures frame.SendMessage? ==> var u := sessions[sid]; var cid := frame.conversationId;
        var created := Create(|old(store.messages)|, SendFields(cid, u, frame.body, frame.attachments), now);
        if FindConversation(old(store.conversations), cid, u).None? || created.Err? then
          && store.messages == old(store.messages) && store.conversations == old(store.conversations)
          && sockets == old(sockets) && pending == old(pending)
        else
          var mid := |old(store.messages)|;
          var was := old(store.conversations)[cid];
          && store.messages == old(store.messages) + [created.value]
          && |store.conversations| == |old(store.conversations)|
          && (forall i :: 0 <= i < |store.conversations| && i != cid ==> store.conversations[i] == old(store.conversations)[i])
          && store.conversations[cid] == was.(lastMessage := Some(mid), updatedAt := now,
                                               unreadCount := store.conversations[cid].unreadCount)
          && Bumped(was.unreadCount, ParticipantIds(was.participants), u, store.conversations[cid].unreadCount)
          && sockets == Pushed(old(sockets), Receivers(clients, Members(subscriptions, cid)),
                                  NewMessage(Payload(created.value, store.users[u])))
          && pending == old(pending) + [mid]
      ensures frame.TypingIndicator? ==> var u := sessions[sid];
        && store.messages == old(store.messages) && store.conversations == old(store.conversations)
        && pending == old(pending)
        && sockets == Pushed(old(sockets), Receivers(clients, Members(subscriptions, frame.conversationId) - {u}),
                                TypingFrame(frame.conversationId, u, store.users[u].name, frame.isTyping))
      ensures frame.MarkAsRead? ==> var mid := frame.messageId;
        && store.conversations == old(store.conversations) && pending == old(pending)
        && (mid >= |old(store.messages)| ==> store.messages == old(store.messages) && sockets == old(sockets))
        && (mid < |old(store.messages)| ==>
              && store.messages == WithStatus(old(store.messages), mid, Read)
              && sockets == Pushed(old(sockets), Receivers(clients, {old(store.messages)[mid].senderId}),
                                      MessageStatusUpdate(mid, Read)))
    {
      var u := sessions[sid];
      match frame
      case JoinConversation(cid) =>
        subscriptions := Joined(subscriptions, cid, u);
      case LeaveConversation(cid) =>
        subscriptions := Left(subscriptions, cid, u);
      case SendMessage(cid, body, attachments) =>
        HandleSendMessage(u, cid, body, attachments, now);
      case TypingIndicator(cid, isTyping) =>
        HandleTyping(u, cid, isTyping);
      case MarkAsRead(mid) =>
        HandleMarkAsRead(u, mid);
      case UnknownType(_) =>
      case Unparsable =>
    }
  }

  /** A tourist's message is read by the host before its "delivered" timer fires; the timer
      then overwrites "read" with "delivered". */
  method ReadThenDelivered() returns (afterRead: MessageStatus, afterTimer: MessageStatus)
    ensures afterRead == Read && afterTimer == Delivered
    ensures Rank(afterTimer) < Rank(afterRead)
  {
    var store := new Store(map[1 := User("Tourist", "", Tourist, false, 0), 2 := User("Host", "", Host, false, 0)], {7});
    var cid := store.AddConversation(7, [NewParticipant(1, Tourist, 0), NewParticipant(2, Host, 0)], 0);
    var server := new ChatServer(store);
    assert ParticipantIds(store.conversations[cid].participants)[0] == 1;
    server.HandleSendMessage(1, cid, Some("hello"), None, 1);
    server.HandleMarkAsRead(2, 0);
    afterRead := store.messages[0].status;
    server.FireDeliveredTimer();
    afterTimer := store.messages[0].status;
  }

  /** A user connects twice; when the first socket closes, the registry entry is deleted
      although it points to the second socket, which stays open but unreachable. */
  method StaleCloseUnregisters() returns (registered: bool, newerOpen: bool)
    ensures !registered && newerOpen
  {
    var store := new Store(map[1 := User("Tourist", "", Tourist, false, 0)], {});
    var server := new ChatServer(store);
    var verify := (t: string) => if t == "token" then Some(1) else None;
    var first, a1 := server.Connect(Some("token"), verify, 0);
    var second, a2 := server.Connect(Some("token"), verify, 1);
    server.Close(first, 2);
    registered := 1 in server.clients;
    newerOpen := server.sockets[second].open;
  }
}

=== FILE: chat_interface.dfy ===
/** The booking chat panel: its message list, the users shown as typing, the files picked
    for the next message and the text being typed, updated by the service's callbacks and
    by the user's actions. */
module ChatInterface {
  import opened Wrappers
  import opened Seqs
  import opened Strings
  import opened MessageModel
  import opened ConversationModel
  import opened ChatService

  // ----- list updates -----

  /** `onMessageStatusUpdate`: the messages with the given id take the new status. */
  function StatusUpdated(ms: seq<ClientMessage>, id: ClientId, status: MessageStatus): (r: seq<ClientMessage>)
    ensures |r| == |ms|
    ensures forall k :: 0 <= k < |ms| ==> r[k].(status := ms[k].status) == ms[k]
    ensures forall k :: 0 <= k < |ms| ==> r[k].status == if ms[k].id == id then status else ms[k].status
  {
    seq(|ms|, k requires 0 <= k < |ms| => if ms[k].id == id then ms[k].(status := status) else ms[k])
  }

  /** Of two updates for the same message, the later one is what remains. */
  lemma StatusUpdateLastWins(ms: seq<ClientMessage>, id: ClientId, a: MessageStatus, b: MessageStatus)
    ensures StatusUpdated(StatusUpdated(ms, id, a), id, b) == StatusUpdated(ms, id, b)
  {
  }

  /** At most one typing entry per user. */
  predicate OnePerUser(ts: seq<TypingIndicator>)
  {
    forall i, j :: 0 <= i < j < |ts| ==> ts[i].userId != ts[j].userId
  }

  function WithoutUser(ts: seq<TypingIndicator>, u: ClientId): (r: seq<TypingIndicator>)
    ensures forall x :: x in r <==> x in ts && x.userId != u
  {
    Filter(ts, (x: TypingIndicator) => x.userId != u)
  }

  /** Dropping entries keeps at most one entry per user. */
  lemma {:induction false} WithoutUserOnePerUser(ts: seq<TypingIndicator>, u: ClientId)
    requires OnePerUser(ts)
    ensures OnePerUser(WithoutUser(ts, u))
    decreases |ts|
  {
    if ts != [] {
      WithoutUserOnePerUser(ts[1..], u);
      assert OnePerUser(ts[1..]);
      var p := (x: TypingIndicator) => x.userId != u;
      assert Filter(ts, p) == (if p(ts[0]) then [ts[0]] else []) + Filter(ts[1..], p);
      forall x | x in Filter(ts[1..], p) ensures x.userId != ts[0].userId {
        var k :| 0 <= k < |ts[1..]| && ts[1..][k] == x;
        assert ts[k + 1] == x;
      }
    }
  }

  /** The typing update for an event from another user: that user's entry is replaced by
      the event when it says typing, and removed when it says stopped. */
  function TypingUpdated(ts: seq<TypingIndicator>, t: TypingIndicator): (r: seq<TypingIndicator>)
    ensures forall x: TypingIndicator :: x.userId != t.userId ==> (x in r <==> x in ts)
    ensures (exists k :: 0 <= k < |r| && r[k].userId == t.userId) <==> t.isTyping
    ensures t.isTyping ==> r[|r| - 1] == t
  {
    var rest := WithoutUser(ts, t.userId);
    assert forall k :: 0 <= k < |rest| ==> rest[k] in rest;
    if t.isTyping then
      var r := rest + [t];
      assert forall x :: x in r <==> x in rest || x == t;
      r
    else rest
  }

  /** The typing list never holds two entries for one user. */
  lemma TypingUpdatedOnePerUser(ts: seq<TypingIndicator>, t: TypingIndicator)
    requires OnePerUser(ts)
    ensures OnePerUser(TypingUpdated(ts, t))
  {
    WithoutUserOnePerUser(ts, t.userId);
  }

  // ----- file selection -----

  const MaxAttachmentSize: int := 10 * 1024 * 1024

  /** `handleFileSelect`'s test: at most 10 MB, and an image or application type. */
  predicate AcceptedFile(f: LocalFile)
  {
    f.size <= MaxAttachmentSize && (StartsWith(f.mimetype, "image/") || StartsWith(f.mimetype, "application/"))
  }

  /** The picked files that are kept, in the order they were picked. */
  function AcceptedFiles(files: seq<LocalFile>): (r: seq<LocalFile>)
    ensures forall f :: f in r <==> f in files && AcceptedFile(f)
    ensures IsSubsequence(r, files)
    ensures forall f :: Occurrences(r, f) == if AcceptedFile(f) then Occurrences(files, f) else 0
  {
    FilterCounts(files, AcceptedFile);
    Filter(files, AcceptedFile)
  }

  // ----- sending -----

  /** The attachment shown for a picked file before upload, under its object URL. */
  function LocalAttachment(f: LocalFile, objectUrl: LocalFile -> string): (a: Attachment)
    ensures a.name == f.name && a.size == f.size && a.url == objectUrl(f)
    ensures a.kind == ImageAttachment <==> StartsWith(f.mimetype, "image/")
  {
    Attachment(objectUrl(f), if StartsWith(f.mimetype, "image/") then ImageAttachment else FileAttachment, f.name, f.size)
  }

  /** The optimistic message shown at once for a send. */
  function Optimistic(c: ClientConversation, me: ClientId, role: Role, text: string, files: seq<LocalFile>,
                      tempId: ClientId, now: int, objectUrl: LocalFile -> string): (m: ClientMessage)
    ensures m.id == tempId && m.conversationId == c.id && m.senderId == me && m.senderRole == role
    ensures m.message == text && m.timestamp == now && m.status == Sending
    ensures m.messageType == (if files != [] then Image else Text)
    ensures m.attachments.Some? && |m.attachments.value| == |files|
    ensures forall k :: 0 <= k < |files| ==> m.attachments.value[k] == LocalAttachment(files[k], objectUrl)
  {
    ClientMessage(tempId, c.id, me, NameOf(c.participants, me), role, text,
                  if files != [] then Image else Text,
                  Some(seq(|files|, k requires 0 <= k < |files| => LocalAttachment(files[k], objectUrl))),
                  now, Sending)
  }

  /** Nothing to send: blank text and no files. */
  predicate NothingToSend(text: string, files: seq<LocalFile>)
  {
    Trim(text) == "" && files == []
  }

  class Panel {
    const service: Service
    const currentUserId: ClientId
    const currentUserRole: Role
    var conversation: Option<ClientConversation>
    var messages: seq<ClientMessage>
    var newMessage: string
    var typingUsers: seq<TypingIndicator>
    var selectedFiles: seq<LocalFile>
    /** The conversation the armed typing-stop timeout will report on, if one is armed. */
    var typingStop: Option<ClientId>

    ghost predicate Valid()
      reads this
    {
      OnePerUser(typingUsers)
    }

    constructor (service: Service, currentUserId: ClientId, currentUserRole: Role)
      ensures Valid()
      ensures this.service == service && this.currentUserId == currentUserId && this.currentUserRole == currentUserRole
      ensures conversation.None? && messages == [] && newMessage == "" && typingUsers == [] && selectedFiles == []
      ensures typingStop.None?
    {
      this.service := service;
      this.currentUserId := currentUserId;
      this.currentUserRole := currentUserRole;
      conversation := None;
      messages := [];
      newMessage := "";
      typingUsers := [];
      selectedFiles := [];
      typingStop := None;
    }

    /** The loaded conversation and its history. */
    method Loaded(c: ClientConversation, history: seq<ClientMessage>)
      modifies this`conversation, this`messages
      ensures conversation == Some(c) && messages == history
    {
      conversation := Some(c);
      messages := history;
    }

    /** `onNewMessage`: appended, and acknowledged as read unless it is the user's own. */
    method OnNewMessage(m: ClientMessage)
      modifies this`messages, service`sent
      ensures messages == old(messages) + [m]
      ensures service.sent == if m.senderId != currentUserId && service.IsOpen()
                              then old(service.sent) + [MarkAsReadFrame(m.id)] else old(service.sent)
    {
      messages := messages + [m];
      if m.senderId != currentUserId {
        service.MarkMessageAsRead(m.id);
      }
    }

    method OnMessageStatusUpdate(id: ClientId, status: MessageStatus)
      modifies this`messages
      ensures messages == StatusUpdated(old(messages), id, status)
    {
      messages := StatusUpdated(messages, id, status);
    }

    /** `onTypingIndicator`: the user's own events are ignored. */
    method OnTypingIndicator(t: TypingIndicator)
      requires Valid()
      modifies this`typingUsers
      ensures Valid()
      ensures typingUsers == if t.userId == currentUserId then old(typingUsers) else TypingUpdated(old(typingUsers), t)
    {
      if t.userId != currentUserId {
        TypingUpdatedOnePerUser(typingUsers, t);
        typingUsers := TypingUpdated(typingUsers, t);
      }
    }

    method HandleFileSelect(files: seq<LocalFile>)
      modifies this`selectedFiles
      ensures selectedFiles == old(selectedFiles) + AcceptedFiles(files)
    {
      selectedFiles := selectedFiles + AcceptedFiles(files);
    }

    /** The remove button of the `index`-th picked file. */
    method RemoveFile(index: nat)
      modifies this`selectedFiles
      ensures selectedFiles == RemoveAt(old(selectedFiles), index)
    {
      selectedFiles := RemoveAt(selectedFiles, index);
    }

    /** The input's change handler: the text is kept, then `handleTyping` runs. Without a
        conversation that is all; otherwise "typing" is sent and the one-second typing-stop
        timeout is re-armed for this conversation, replacing any earlier one. */
    method Type(text: string)
      modifies this`newMessage, this`typingStop, service`sent
      ensures newMessage == text
      ensures conversation.None? ==> typingStop == old(typingStop) && service.sent == old(service.sent)
      ensures conversation.Some? ==>
        && typingStop == Some(conversation.value.id)
        && service.sent == if service.IsOpen() then old(service.sent) + [TypingIndicatorFrame(conversation.value.id, true)]
                           else old(service.sent)
    {
      newMessage := text;
      if conversation.Some? {
        service.SendTypingIndicator(conversation.value.id, true);
        typingStop := Some(conversation.value.id);
      }
    }

    /** The typing-stop timeout fires: "not typing" is sent for the conversation it was armed
        for, and no timeout remains armed. Without an armed timeout nothing happens. */
    method TypingStopped()
      modifies this`typingStop, service`sent
      ensures typingStop.None?
      ensures old(typingStop).None? ==> service.sent == old(service.sent)
      ensures old(typingStop).Some? ==>
        service.sent == if service.IsOpen() then old(service.sent) + [TypingIndicatorFrame(old(typingStop).value, false)]
                        else old(service.sent)
    {
      if typingStop.Some? {
        service.SendTypingIndicator(typingStop.value, false);
        typingStop := None;
      }
    }

    /** `handleSendMessage`: nothing happens for blank text without files or without a
        conversation. Otherwise the optimistic message is shown, the input and the files are
        cleared, and the text is sent with the files' descriptions; `failed` reports the
        error a closed socket raises, after which the optimistic message stays. */
    method HandleSendMessage(tempId: ClientId, now: int, objectUrl: LocalFile -> string) returns (failed: bool)
      modifies this`messages, this`newMessage, this`selectedFiles, service`sent
      ensures NothingToSend(old(newMessage), old(selectedFiles)) || conversation.None? ==>
        && !failed && messages == old(messages) && newMessage == old(newMessage)
        && selectedFiles == old(selectedFiles) && service.sent == old(service.sent)
      ensures !NothingToSend(old(newMessage), old(selectedFiles)) && conversation.Some? ==>
        && messages == old(messages) + [Optimistic(conversation.value, currentUserId, currentUserRole,
                                                   old(newMessage), old(selectedFiles), tempId, now, objectUrl)]
        && newMessage == "" && selectedFiles == []
        && failed == !service.IsOpen()
        && service.sent == if failed then old(service.sent)
                           else old(service.sent) + [MessageFrame(conversation.value.id, old(newMessage), Some(old(selectedFiles)))]
    {
      failed := false;
      if NothingToSend(newMessage, selectedFiles) || conversation.None? {
        return;
      }
      var c := conversation.value;
      var text := newMessage;
      var files := selectedFiles;
      messages := messages + [Optimistic(c, currentUserId, currentUserRole, text, files, tempId, now, objectUrl)];
      newMessage := "";
      selectedFiles := [];
      var err := service.SendMessage(c.id, text, Some(files));
      failed := err.Some?;
    }
  }

  /** Two keystrokes each send "typing"; the second re-arms the timeout, so only one "not
      typing" follows when it fires. */
  method TypingThenStop() returns (frames: seq<ClientFrame>)
    ensures frames == [TypingIndicatorFrame("c1", true), TypingIndicatorFrame("c1", true),
                       TypingIndicatorFrame("c1", false)]
  {
    var s := new Service(false);
    s.OnOpen(true);
    var p := new Panel(s, "me", Tourist);
    var c := ClientConversation("c1", "b1", [ClientParticipant("me", "Me", Tourist, true)], map[], true, "Coffee");
    p.Loaded(c, []);
    p.Type("h");
    p.Type("hi");
    p.TypingStopped();
    p.TypingStopped();
    frames := s.sent;
  }

  /** Only another user's message is acknowledged as read. */
  method AcknowledgeOthersOnly() returns (frames: seq<ClientFrame>, shown: nat)
    ensures frames == [MarkAsReadFrame("m2")] && shown == 2
  {
    var s := new Service(false);
    s.OnOpen(true);
    var p := new Panel(s, "me", Tourist);
    p.OnNewMessage(ClientMessage("m1", "c", "me", "Me", Tourist, "hi", Text, None, 1, Sent));
    p.OnNewMessage(ClientMessage("m2", "c", "host", "Host", Host, "hello", Text, None, 2, Sent));
    frames := s.sent;
    shown := |p.messages|;
  }
}

=== FILE: chat_routes.dfy ===
/** The REST chat routes as operations over the same store: the paginated message history
    with read-marking, conversation creation, sending a message, the translation cache and
    the upload filter. Every route answers with a result or one of three error statuses. */
module ChatRoutes {
  import opened Wrappers
  import opened Seqs
  import opened Strings
  import opened MessageModel
  import opened ConversationModel
  import opened ChatStore

  datatype HttpError = BadRequest | NotFound | ServerError

  function StatusCode(e: HttpError): (code: int)
    ensures 400 <= code < 600
  {
    match e
    case BadRequest => 400
    case NotFound => 404
    case ServerError => 500
  }

  // ----- GET /conversations/:id/messages -----

  /** `Number.parseInt(q) || d`: a missing, unparsable or zero query gives the default; a
      `0x` prefix is read in base 16. */
  function IntOr(q: Option<string>, d: int): (n: int)
    ensures ParseInt(q.GetOr("")) in {None, Some(0)} ==> n == d
    ensures ParseInt(q.GetOr("")).Some? && ParseInt(q.GetOr("")).value != 0 ==> n == ParseInt(q.GetOr("")).value
  {
    match ParseInt(q.GetOr(""))
    case None => d
    case Some(k) => if k == 0 then d else k
  }

  /** `parseInt(req.query.page) || 1`: never zero, and 1 without a query. */
  function Page(pageQ: Option<string>): (p: int)
    ensures p != 0
    ensures pageQ.None? ==> p == 1
  {
    IntOr(pageQ, 1)
  }

  /** `parseInt(req.query.limit) || 50`: never zero, and 50 without a query. */
  function Limit(limitQ: Option<string>): (l: int)
    ensures l != 0
    ensures limitQ.None? ==> l == 50
  {
    IntOr(limitQ, 50)
  }

  /** `(page - 1) * limit`: the first page skips nothing, and a positive page and limit never
      skip a negative number of messages. */
  function Skip(pageQ: Option<string>, limitQ: Option<string>): (n: int)
    ensures Page(pageQ) == 1 ==> n == 0
    ensures Page(pageQ) >= 1 && Limit(limitQ) >= 1 ==> n >= 0
  {
    var p, l := Page(pageQ), Limit(limitQ);
    ProductSign(p - 1, l);
    (p - 1) * l
  }

  lemma ProductSign(a: int, b: int)
    ensures a == 0 ==> a * b == 0
    ensures a >= 0 && b >= 0 ==> a * b >= 0
  {
  }

  /** The number of documents the query returns at most: a negative limit asks for a single
      batch of that many documents. */
  function BatchSize(limitQ: Option<string>): (n: nat)
    ensures n > 0
  {
    var l := Limit(limitQ);
    if l < 0 then -l else l
  }

  /** Without page and limit queries the first 50 messages are asked for. */
  lemma PaginationDefaults()
    ensures Page(None) == 1 && Limit(None) == 50 && Skip(None, None) == 0
  {
    assert TrimStart("") == "";
  }

  /** The third page of the default size skips the hundred newest messages. */
  lemma ThirdPageSkip()
    ensures Skip(Some("3"), None) == 100
  {
    ParseThree();
    assert Page(Some("3")) == 3;
    PaginationDefaults();
  }

  /** `Number.parseInt("3")` is 3. */
  lemma ParseThree()
    ensures ParseInt("3") == Some(3)
  {
    var s := "3";
    assert IsDigit(s[0]) && !IsWhitespace(s[0]) && s[0] != '-' && s[0] != '+';
    assert TrimStart(s) == s && SkipSign(s) == s;
    DecimalMagnitude(s);
    assert DigitsValue(s[..0]) == 0;
  }

  /** `?page=0x2` is read in base 16: the second page, skipping the fifty newest messages. */
  lemma HexPageSkip()
    ensures Page(Some("0x2")) == 2 && Skip(Some("0x2"), None) == 50
  {
    var s := "0x2";
    assert !IsWhitespace(s[0]) && s[0] != '-' && s[0] != '+';
    assert TrimStart(s) == s && SkipSign(s) == s && HexPrefixed(s);
    assert s[2..] == "2";
    assert HexPrefix(s[2..][1..]) == [];
    assert HexPrefix(s[2..]) == "2";
    assert HexValue("2"[..0]) == 0;
    assert ParseInt(s) == Some(2);
    PaginationDefaults();
  }

  /** `.skip(skip).limit(limit)` on the newest-first list. */
  function Window(newest: seq<Message>, skip: nat, limit: nat): (w: seq<Message>)
    ensures |w| == if skip >= |newest| then 0 else if limit < |newest| - skip then limit else |newest| - skip
    ensures forall k :: 0 <= k < |w| ==> w[k] == newest[skip + k]
  {
    if skip >= |newest| then []
    else if limit < |newest| - skip then newest[skip..skip + limit]
    else newest[skip..]
  }

  /** The page the route returns: fetched newest first, then reversed. */
  function PageOf(ms: seq<Message>, skip: nat, limit: nat): (p: seq<Message>)
    ensures |p| <= limit
    ensures |p| == if skip >= |ms| then 0 else if limit < |ms| - skip then limit else |ms| - skip
  {
    Reverse(Window(Reverse(ms), skip, limit))
  }

  /** The returned page is the contiguous run of the conversation's messages, oldest first,
      that ends `skip` messages before the newest and holds at most `limit` of them. */
  lemma {:induction false} PageIsSlice(ms: seq<Message>, skip: nat, limit: nat)
    ensures var hi := if skip >= |ms| then 0 else |ms| - skip;
            var lo := if hi >= limit then hi - limit else 0;
            PageOf(ms, skip, limit) == ms[lo..hi]
  {
    var hi := if skip >= |ms| then 0 else |ms| - skip;
    var lo := if hi >= limit then hi - limit else 0;
    var w := Window(Reverse(ms), skip, limit);
    var p := Reverse(w);
    assert |w| == hi - lo;
    assert |p| == hi - lo;
    forall k | 0 <= k < hi - lo ensures p[k] == ms[lo + k] {
      ReverseAt(w, k);
      ReverseAt(ms, skip + (|w| - 1 - k));
    }
    assert p == ms[lo..hi];
  }

  /** `hasMore` holds exactly when older messages exist before the returned page. */
  lemma {:induction false} HasMoreIffOlder(ms: seq<Message>, skip: nat, limit: nat)
    ensures var hi := if skip >= |ms| then 0 else |ms| - skip;
            var lo := if hi >= limit then hi - limit else 0;
            (skip + |PageOf(ms, skip, limit)| < |ms|) <==> lo > 0
  {
    PageIsSlice(ms, skip, limit);
  }

  /** A formatted message: the stored document with its sender's name, avatar and role. */
  datatype MessageView = MessageView(message: Message, sender: User)

  datatype MessagePage = MessagePage(messages: seq<MessageView>, hasMore: bool, total: nat)

  predicate SendersKnown(ms: seq<Message>, users: map<Id, User>)
  {
    forall m :: m in ms ==> m.senderId in users
  }

  function Views(ms: seq<Message>, users: map<Id, User>): (vs: seq<MessageView>)
    requires SendersKnown(ms, users)
    ensures |vs| == |ms|
    ensures forall k :: 0 <= k < |ms| ==> vs[k].message == ms[k] && vs[k].sender == users[ms[k].senderId]
  {
    seq(|ms|, k requires 0 <= k < |ms| => MessageView(ms[k], users[ms[k].senderId]))
  }

  /** The message history of conversation `cid` as read by `reader`. A non-participant gets
      404 and a negative skip or a message whose sender is gone gets 500, changing nothing.
      Otherwise the page is answered with the statuses it had before, then every message of
      the conversation from someone else becomes read and the reader's counter drops to 0. */
  method GetMessages(store: Store, reader: Id, cid: Id, pageQ: Option<string>, limitQ: Option<string>)
    returns (r: Result<MessagePage, HttpError>)
    requires store.Valid()
    modifies store
    ensures store.Valid()
    ensures store.users == old(store.users) && store.bookings == old(store.bookings)
    ensures var conv := FindConversation(old(store.conversations), cid, reader);
            var skip := Skip(pageQ, limitQ);
            var ms := MessagesOf(old(store.messages), cid);
      if conv.None? then
        r == Err(NotFound) && store.messages == old(store.messages) && store.conversations == old(store.conversations)
      else if skip < 0 || !SendersKnown(PageOf(ms, skip, BatchSize(limitQ)), old(store.users)) then
        r == Err(ServerError) && store.messages == old(store.messages) && store.conversations == old(store.conversations)
      else
        var page := PageOf(ms, skip, BatchSize(limitQ));
        && r == Ok(MessagePage(Views(page, old(store.users)), skip + |page| < |ms|, |ms|))
        && store.messages == ReadBy(old(store.messages), cid, reader)
        && store.conversations == old(store.conversations)[cid :=
             old(store.conversations)[cid].(unreadCount := old(store.conversations)[cid].unreadCount[reader := 0])]
  {
    var skip := Skip(pageQ, limitQ);
    var conv := FindConversation(store.conversations, cid, reader);
    if conv.None? {
      return Err(NotFound);
    }
    if skip < 0 {
      return Err(ServerError);
    }
    var ms := MessagesOf(store.messages, cid);
    var page := PageOf(ms, skip, BatchSize(limitQ));
    if !SendersKnown(page, store.users) {
      return Err(ServerError);
    }
    var views := Views(page, store.users);
    store.MarkRead(cid, reader);
    store.SetUnread(cid, conv.value.unreadCount[reader := 0]);
    r := Ok(MessagePage(views, skip + |page| < |ms|, |ms|));
  }

  // ----- POST /conversations -----

  /** Some stored conversation belongs to booking `b`. */
  predicate HasConversationFor(cs: seq<Conversation>, b: Id)
  {
    exists i :: 0 <= i < |cs| && cs[i].bookingId == b
  }

  /** No two conversations share a booking. The schema's index does not enforce it. */
  predicate OnePerBooking(cs: seq<Conversation>)
  {
    forall i, j :: 0 <= i < j < |cs| ==> cs[i].bookingId != cs[j].bookingId
  }

  /** The loop that looks every listed participant up and records their role; it stops at
      the first id without a user. */
  method BuildParticipants(users: map<Id, User>, ids: seq<Id>, now: int) returns (r: Result<seq<Participant>, Id>)
    ensures r.Err? <==> exists i :: 0 <= i < |ids| && ids[i] !in users
    ensures r.Err? ==> exists i :: 0 <= i < |ids| && ids[i] == r.error && r.error !in users
                                   && forall j :: 0 <= j < i ==> ids[j] in users
    ensures r.Ok? ==> |r.value| == |ids|
    ensures r.Ok? ==> forall i :: 0 <= i < |ids| ==> r.value[i] == NewParticipant(ids[i], users[ids[i]].role, now)
  {
    var ps: seq<Participant> := [];
    var i := 0;
    while i < |ids|
      invariant 0 <= i <= |ids|
      invariant forall j :: 0 <= j < i ==> ids[j] in users
      invariant |ps| == i
      invariant forall j :: 0 <= j < i ==> ps[j] == NewParticipant(ids[j], users[ids[j]].role, now)
    {
      if ids[i] !in users {
        return Err(ids[i]);
      }
      ps := ps + [NewParticipant(ids[i], users[ids[i]].role, now)];
      i := i + 1;
    }
    return Ok(ps);
  }

  /** Creating the conversation of a booking. 400 without a booking id or a participant array,
      404 for an unknown booking, 400 when the booking already has a conversation, 404 when a
      listed participant is not a user, 500 when the caller must be added but is not a user.
      Otherwise one active conversation is stored, listing the participants in order followed
      by the caller when the caller was not listed. */
  method CreateConversation(store: Store, caller: Id, bookingId: Option<Id>, participantIds: Option<seq<Id>>, now: int)
    returns (r: Result<Id, HttpError>)
    requires store.Valid()
    modifies store
    ensures store.Valid()
    ensures store.users == old(store.users) && store.bookings == old(store.bookings) && store.messages == old(store.messages)
    ensures bookingId.None? || participantIds.None? ==> r == Err(BadRequest)
    ensures bookingId.Some? && participantIds.Some? && bookingId.value !in store.bookings ==> r == Err(NotFound)
    ensures (bookingId.Some? && participantIds.Some? && bookingId.value in store.bookings
             && HasConversationFor(old(store.conversations), bookingId.value)) ==> r == Err(BadRequest)
    ensures (bookingId.Some? && participantIds.Some? && bookingId.value in store.bookings
             && !HasConversationFor(old(store.conversations), bookingId.value)
             && (exists i :: 0 <= i < |participantIds.value| && participantIds.value[i] !in store.users))
            ==> r == Err(NotFound)
    ensures (bookingId.Some? && participantIds.Some? && bookingId.value in store.bookings
             && !HasConversationFor(old(store.conversations), bookingId.value)
             && (forall i :: 0 <= i < |participantIds.value| ==> participantIds.value[i] in store.users)
             && caller !in participantIds.value && caller !in store.users) ==> r == Err(ServerError)
    ensures r.Err? ==> store.conversations == old(store.conversations)
    ensures r.Ok? <==> && bookingId.Some? && participantIds.Some? && bookingId.value in store.bookings
                       && !HasConversationFor(old(store.conversations), bookingId.value)
                       && (forall i :: 0 <= i < |participantIds.value| ==> participantIds.value[i] in store.users)
                       && (caller in participantIds.value || caller in store.users)
    ensures r.Ok? ==> var ids := participantIds.value;
      && r.value == |old(store.conversations)|
      && |store.conversations| == |old(store.conversations)| + 1
      && store.conversations[..r.value] == old(store.conversations)
      && var c := store.conversations[r.value];
      && c == NewConversation(r.value, bookingId.value, c.participants, now)
      && |c.participants| == |ids| + (if caller in ids then 0 else 1)
      && (forall i :: 0 <= i < |ids| ==> c.participants[i] == NewParticipant(ids[i], store.users[ids[i]].role, now))
      && (caller !in ids ==> c.participants[|ids|] == NewParticipant(caller, store.users[caller].role, now))
      && IsParticipant(c, caller)
    ensures OnePerBooking(old(store.conversations)) ==> OnePerBooking(store.conversations)
  {
    if bookingId.None? || participantIds.None? {
      return Err(BadRequest);
    }
    var b := bookingId.value;
    var ids := participantIds.value;
    if b !in store.bookings {
      return Err(NotFound);
    }
    if HasConversationFor(store.conversations, b) {
      return Err(BadRequest);
    }
    var built := BuildParticipants(store.users, ids, now);
    if built.Err? {
      return Err(NotFound);
    }
    var participants := built.value;
    if caller !in ids {
      if caller !in store.users {
        return Err(ServerError);
      }
      participants := participants + [NewParticipant(caller, store.users[caller].role, now)];
    }
    var id := store.AddConversation(b, participants, now);
    ghost var c := store.conversations[id];
    if caller in ids {
      var k :| 0 <= k < |ids| && ids[k] == caller;
      assert ParticipantIds(c.participants)[k] == caller;
    } else {
      assert ParticipantIds(c.participants)[|ids|] == caller;
    }
    r := Ok(id);
  }

  // ----- POST /conversations/:id/messages -----

  /** The fields the route gives to `new Message`. */
  function RestFields(cid: Id, caller: Id, body: Option<string>, messageType: Option<MessageType>,
                      attachments: Option<seq<Attachment>>, replyTo: Option<Id>): (f: MessageFields)
    ensures MissingRequired(f) == if body.GetOr("") == "" then {BodyField} else {}
    ensures f.status == Some(Sent) && (messageType.None? ==> f.messageType == Some(Text))
    ensures f.attachments == attachments && f.replyTo == replyTo
  {
    MessageFields(Some(cid), Some(caller), Some(body.GetOr("")), Some(messageType.GetOr(Text)),
                  attachments, Some(Sent), replyTo)
  }

  /** Neither a text nor a non-empty attachment list. */
  predicate EmptySend(body: Option<string>, attachments: Option<seq<Attachment>>): (b: bool)
    ensures !b <==> (body.Some? && |body.value| > 0) || (attachments.Some? && |attachments.value| > 0)
  {
    (body.None? || body.value == "") && (attachments.None? || attachments.value == [])
  }

  /** A request the route lets through is stored with status sent and type text unless given;
      an attachment-only request passes the route's own check and fails the schema's. */
  lemma RestFieldsValidate(id: Id, cid: Id, caller: Id, body: Option<string>, messageType: Option<MessageType>,
                           attachments: Option<seq<Attachment>>, replyTo: Option<Id>, now: int)
    ensures var r := Create(id, RestFields(cid, caller, body, messageType, attachments, replyTo), now);
      && (r.Ok? <==> body.Some? && body.value != "")
      && (r.Ok? ==> r.value.status == Sent && r.value.messageType == messageType.GetOr(Text))
      && (r.Ok? ==> r.value.senderId == caller && r.value.conversationId == cid && r.value.replyTo == replyTo)
      && (!EmptySend(body, attachments) && r.Err? ==> attachments.Some? && attachments.value != [])
  {
  }

  /** Sending through the REST route. 400 for a request with neither text nor attachments,
      404 for a non-participant, 500 when the schema rejects the message; then the message is
      stored, the conversation records it and bumps every other participant's counter, and
      the answer is 201 with the sender's details, or 500 when the sender is not a user. */
  method SendMessage(store: Store, caller: Id, cid: Id, body: Option<string>, messageType: Option<MessageType>,
                     attachments: Option<seq<Attachment>>, replyTo: Option<Id>, now: int)
    returns (r: Result<MessageView, HttpError>)
    requires store.Valid()
    modifies store
    ensures store.Valid()
    ensures store.users == old(store.users) && store.bookings == old(store.bookings)
    ensures EmptySend(body, attachments) ==> r == Err(BadRequest)
    ensures !EmptySend(body, attachments) && FindConversation(old(store.conversations), cid, caller).None? ==> r == Err(NotFound)
    ensures !EmptySend(body, attachments) && FindConversation(old(store.conversations), cid, caller).Some?
            && Create(|old(store.messages)|, RestFields(cid, caller, body, messageType, attachments, replyTo), now).Err?
            ==> r == Err(ServerError)
    ensures var created := Create(|old(store.messages)|, RestFields(cid, caller, body, messageType, attachments, replyTo), now);
      if EmptySend(body, attachments) || FindConversation(old(store.conversations), cid, caller).None? || created.Err? then
        r.Err? && store.messages == old(store.messages) && store.conversations == old(store.conversations)
      else
        var mid := |old(store.messages)|;
        var was := old(store.conversations)[cid];
        && r == (if caller in store.users then Ok(MessageView(created.value, store.users[caller])) else Err(ServerError))
        && store.messages == old(store.messages) + [created.value]
        && |store.conversations| == |old(store.conversations)|
        && (forall i :: 0 <= i < |store.conversations| && i != cid ==> store.conversations[i] == old(store.conversations)[i])
        && store.conversations[cid] == was.(lastMessage := Some(mid), updatedAt := now,
                                             unreadCount := store.conversations[cid].unreadCount)
        && Bumped(was.unreadCount, ParticipantIds(was.participants), caller, store.conversations[cid].unreadCount)
  {
    if EmptySend(body, attachments) {
      return Err(BadRequest);
    }
    var conv := FindConversation(store.conversations, cid, caller);
    if conv.None? {
      return Err(NotFound);
    }
    var saved := store.SaveMessage(RestFields(cid, caller, body, messageType, attachments, replyTo), now);
    if saved.Err? {
      return Err(ServerError);
    }
    var mid := saved.value;
    var unread := BumpUnread(conv.value.unreadCount, ParticipantIds(conv.value.participants), caller);
    store.RecordMessage(cid, mid, unread, now);
    if caller !in store.users {
      return Err(ServerError);
    }
    r := Ok(MessageView(store.messages[mid], store.users[caller]));
  }

  // ----- POST /messages/:id/translate -----

  /** The simulated translation. */
  function TranslationText(lang: string, body: string): string
  {
    "[Translated to " + lang + "] " + body
  }

  /** A translation is cached when the map holds a non-empty text for the language. */
  predicate Cached(m: Message, lang: string)
  {
    lang in m.translatedMessage && m.translatedMessage[lang] != ""
  }

  /** The text answered for `lang` and the message as saved afterwards. */
  function Translate(m: Message, lang: string): (r: (string, Message))
    ensures Cached(m, lang) ==> r == (m.translatedMessage[lang], m)
    ensures !Cached(m, lang) ==> r.1 == m.(translatedMessage := m.translatedMessage[lang := r.0])
    ensures Cached(r.1, lang) && r.1.translatedMessage[lang] == r.0
    ensures r.1.(translatedMessage := m.translatedMessage) == m
  {
    if Cached(m, lang) then (m.translatedMessage[lang], m)
    else
      var text := TranslationText(lang, m.body);
      (text, m.(translatedMessage := m.translatedMessage[lang := text]))
  }

  /** A second request for the same language answers the same text and saves nothing new. */
  lemma TranslateStable(m: Message, lang: string)
    ensures Translate(Translate(m, lang).1, lang) == Translate(m, lang)
  {
  }

  /** The translate route: 400 without a target language, 404 for an unknown message,
      otherwise the cached or freshly stored translation. */
  method TranslateMessage(store: Store, mid: Id, target: Option<string>) returns (r: Result<string, HttpError>)
    requires store.Valid()
    modifies store
    ensures store.Valid()
    ensures store.users == old(store.users) && store.bookings == old(store.bookings)
    ensures store.conversations == old(store.conversations)
    ensures target.None? || target.value == "" ==> r == Err(BadRequest) && store.messages == old(store.messages)
    ensures target.Some? && target.value != "" && mid >= |old(store.messages)| ==>
      r == Err(NotFound) && store.messages == old(store.messages)
    ensures target.Some? && target.value != "" && mid < |old(store.messages)| ==>
      var t := Translate(old(store.messages)[mid], target.value);
      r == Ok(t.0) && store.messages == old(store.messages)[mid := t.1]
  {
    if target.None? || target.value == "" {
      return Err(BadRequest);
    }
    var found := FindMessage(store.messages, mid);
    if found.None? {
      return Err(NotFound);
    }
    var t := Translate(found.value, target.value);
    if !Cached(found.value, target.value) {
      store.SetTranslations(mid, t.1.translatedMessage);
    }
    r := Ok(t.0);
  }

  // ----- POST /upload -----

  const MaxFileSize: int := 10 * 1024 * 1024

  /** The alternatives of `/jpeg|jpg|png|gif|pdf|doc|docx|txt/`. */
  const AllowedTypes: seq<string> := ["jpeg", "jpg", "png", "gif", "pdf", "doc", "docx", "txt"]

  /** `allowedTypes.test(s)`: the pattern is not anchored, so any occurrence matches. */
  predicate MatchesAllowed(s: string): (b: bool)
    ensures b ==> |s| >= 3
  {
    AlternativesLength(s);
    exists k :: 0 <= k < |AllowedTypes| && Includes(s, AllowedTypes[k])
  }

  /** Every alternative of the pattern has at least three characters. */
  lemma AlternativesLength(s: string)
    ensures forall k :: 0 <= k < |AllowedTypes| && Includes(s, AllowedTypes[k]) ==> |s| >= 3
  {
    forall k | 0 <= k < |AllowedTypes| && Includes(s, AllowedTypes[k]) ensures |s| >= 3 {
      IncludesLength(s, AllowedTypes[k]);
    }
  }

  /** The position of the last dot in `s`. */
  function LastDot(s: string): (r: Option<nat>)
    ensures r.Some? ==> r.value < |s| && s[r.value] == '.'
    ensures r.Some? ==> forall k :: r.value < k < |s| ==> s[k] != '.'
    ensures r.None? <==> '.' !in s
  {
    if s == [] then None
    else if s[|s| - 1] == '.' then Some(|s| - 1)
    else LastDot(s[..|s| - 1])
  }

  /** `path.extname(name)` for a plain file name: from the last dot to the end, or empty
      when there is no dot, the last dot starts the name, or the name is `..` (which Node
      treats as a directory reference, although the last dot does not start it). */
  function ExtName(name: string): (e: string)
    ensures e == [] || (e[0] == '.' && 0 < |name| - |e| && e == name[|name| - |e|..])
    ensures forall k :: 1 <= k < |e| ==> e[k] != '.'
    ensures e == [] <==> name == ".." || forall k :: 0 < k < |name| ==> name[k] != '.'
  {
    match LastDot(name)
    case None => []
    case Some(i) => if i == 0 || name == ".." then [] else name[i..]
  }

  datatype UploadedFile = UploadedFile(originalName: string, mimetype: string, size: int)

  datatype UploadResponse = UploadResponse(url: string, kind: AttachmentType, name: string, size: int)

  /** multer's `fileFilter`: both the lower-cased extension and the MIME type must match. */
  predicate FileFilter(f: UploadedFile): (b: bool)
    ensures b ==> |f.originalName| >= 4 && |f.mimetype| >= 3
  {
    MatchesAllowed(Lower(ExtName(f.originalName))) && MatchesAllowed(f.mimetype)
  }

  /** The upload route. 400 when the request holds no file; a file the filter rejects or one
      over 10 MB is refused by multer with an error the default handler answers with 500.
      `storedName` is the generated name the file is stored under; `baseUrl` is `BASE_URL`. */
  function Upload(file: Option<UploadedFile>, baseUrl: Option<string>, storedName: string): (r: Result<UploadResponse, HttpError>)
    ensures file.None? ==> r == Err(BadRequest)
    ensures file.Some? ==> (r.Ok? <==> FileFilter(file.value) && file.value.size <= MaxFileSize)
    ensures file.Some? && r.Err? ==> r.error == ServerError
    ensures r.Ok? ==> && r.value.name == file.value.originalName && r.value.size == file.value.size
                      && (r.value.kind == ImageAttachment <==> StartsWith(file.value.mimetype, "image/"))
  {
    match file
    case None => Err(BadRequest)
    case Some(f) =>
      if !FileFilter(f) || f.size > MaxFileSize then Err(ServerError)
      else
        var base := if baseUrl.None? || baseUrl.value == "" then "http://localhost:5000" else baseUrl.value;
        Ok(UploadResponse(base + "/uploads/" + storedName,
                          if StartsWith(f.mimetype, "image/") then ImageAttachment else FileAttachment,
                          f.originalName, f.size))
  }

  /** A string that lacks some character of `sub` does not include `sub`. */
  lemma {:induction false} MissingCharExcludes(s: string, sub: string, j: nat)
    requires j < |sub| && sub[j] !in s
    ensures !Includes(s, sub)
  {
    IncludesAt(s, sub);
    forall i | 0 <= i <= |s| - |sub| ensures !OccursAt(s, sub, i) {
      assert s[i..i + |sub|][j] == s[i + j];
    }
  }

  /** `photo.JPG` has the extension `.JPG`. */
  lemma JpgExtension()
    ensures ExtName("photo.JPG") == ".JPG"
  {
    var name := "photo.JPG";
    assert LastDot(name) == Some(5) by {
      assert name[..8][..7][..6] == "photo.";
    }
    assert name != "..";
  }

  /** A JPEG photo passes the filter, whatever the case of its extension. */
  lemma PhotoAccepted()
    ensures FileFilter(UploadedFile("photo.JPG", "image/jpeg", 1000))
  {
    JpgExtension();
    JpgLower();
    JpegTypesMatch();
  }

  lemma JpgLower()
    ensures Lower(".JPG") == ".jpg"
  {
    var l := Lower(".JPG");
    assert |l| == 4 && l[0] == '.' && l[1] == 'j' && l[2] == 'p' && l[3] == 'g';
  }

  /** Both the lower-cased extension and the MIME type of a JPEG photo match the pattern. */
  lemma JpegTypesMatch()
    ensures MatchesAllowed(".jpg") && MatchesAllowed("image/jpeg")
  {
    IncludesAt(".jpg", "jpg");
    assert OccursAt(".jpg", "jpg", 1);
    IncludesAt("image/jpeg", "jpeg");
    assert OccursAt("image/jpeg", "jpeg", 6);
    assert Includes(".jpg", AllowedTypes[1]);
    assert Includes("image/jpeg", AllowedTypes[0]);
  }

  /** A string shorter than `sub` does not include it. */
  lemma {:induction false} ShortExcludes(s: string, sub: string)
    requires |s| < |sub|
    ensures !Includes(s, sub)
    decreases |s|
  {
    if s != [] {
      ShortExcludes(s[1..], sub);
    }
  }

  /** "txt" does not occur in `text/plain`. */
  lemma {:induction false} TxtNotInPlainText()
    ensures !Includes("text/plain", "txt")
  {
    var s := "text/plain";
    ShortExcludes(s[8..], "txt");
    assert s[7..][1..] == s[8..];
    assert !Includes(s[7..], "txt") by { assert s[7..][..3][0] == 'a'; }
    assert s[6..][1..] == s[7..];
    assert !Includes(s[6..], "txt") by { assert s[6..][..3][0] == 'l'; }
    assert s[5..][1..] == s[6..];
    assert !Includes(s[5..], "txt") by { assert s[5..][..3][0] == 'p'; }
    assert s[4..][1..] == s[5..];
    assert !Includes(s[4..], "txt") by { assert s[4..][..3][0] == '/'; }
    assert s[3..][1..] == s[4..];
    assert !Includes(s[3..], "txt") by { assert s[3..][..3][1] == '/'; }
    assert s[2..][1..] == s[3..];
    assert !Includes(s[2..], "txt") by { assert s[2..][..3][0] == 'x'; }
    assert s[1..][1..] == s[2..];
    assert !Includes(s[1..], "txt") by { assert s[1..][..3][0] == 'e'; }
    assert s[0..][1..] == s[1..];
    assert !Includes(s, "txt") by { assert s[..3][1] == 'e'; }
  }

  /** `text/plain` matches none of the alternatives. */
  lemma PlainTextNotAllowed()
    ensures !MatchesAllowed("text/plain")
  {
    var s := "text/plain";
    forall k | 0 <= k < |AllowedTypes| ensures !Includes(s, AllowedTypes[k]) {
      if k == 7 {
        TxtNotInPlainText();
      } else if k == 2 {
        assert 'g' !in s;
        MissingCharExcludes(s, AllowedTypes[k], 2);
      } else if k == 4 {
        assert 'd' !in s;
        MissingCharExcludes(s, AllowedTypes[k], 1);
      } else {
        assert AllowedTypes[k][0] in "jgd";
        assert AllowedTypes[k][0] !in s;
        MissingCharExcludes(s, AllowedTypes[k], 0);
      }
    }
  }

  /** A plain-text file is refused although "txt" is listed: its MIME type `text/plain`
      contains none of the alternatives. */
  lemma PlainTextRejected(name: string)
    ensures !FileFilter(UploadedFile(name, "text/plain", 100))
  {
    PlainTextNotAllowed();
  }
}

=== FILE: chat_service.dfy ===
/** The browser side of the chat connection: the records the client exchanges with the
    server, the reconnect counter with its linear back-off, the routing of server events to
    the registered callbacks, and the frames the client writes, each behind an open-socket
    guard. Client ids are strings. */
module ChatService {
  import opened Wrappers
  import opened Strings
  import opened MessageModel
  import opened ConversationModel

  type ClientId = string

  /** `ChatMessage` as the client holds it. */
  datatype ClientMessage = ClientMessage(
    id: ClientId,
    conversationId: ClientId,
    senderId: ClientId,
    senderName: string,
    senderRole: Role,
    message: string,
    messageType: MessageType,
    attachments: Option<seq<Attachment>>,
    timestamp: int,
    status: MessageStatus)

  datatype ClientParticipant = ClientParticipant(id: ClientId, name: string, role: Role, isOnline: bool)

  /** `Conversation` as the client holds it; `experienceTitle` comes from its booking details. */
  datatype ClientConversation = ClientConversation(
    id: ClientId,
    bookingId: ClientId,
    participants: seq<ClientParticipant>,
    unreadCount: map<ClientId, int>,
    isActive: bool,
    experienceTitle: string)

  datatype TypingIndicator = TypingIndicator(conversationId: ClientId, userId: ClientId, userName: string, isTyping: bool)

  /** A browser `File`: its name, byte size and MIME type. */
  datatype LocalFile = LocalFile(name: string, size: int, mimetype: string)

  /** The description of an attachment the client puts in a `send_message` frame. */
  datatype AttachmentMeta = AttachmentMeta(name: string, size: int, kind: AttachmentType)

  /** The frames the client writes to the socket. */
  datatype ClientFrame =
    | SendMessageFrame(conversationId: ClientId, message: string, attachments: Option<seq<AttachmentMeta>>)
    | TypingIndicatorFrame(conversationId: ClientId, isTyping: bool)
    | MarkAsReadFrame(messageId: ClientId)
    | JoinConversationFrame(conversationId: ClientId)
    | LeaveConversationFrame(conversationId: ClientId)

  /** The `readyState` of a browser socket. */
  datatype ReadyState = Connecting | Open | Closing | Closed

  const MaxReconnectAttempts: nat := 5
  const ReconnectDelay: nat := 1000

  // ----- reconnect back-off -----

  /** `handleReconnect` on the counter: below the maximum it counts one more attempt and
      schedules it after `ReconnectDelay` times the new count; at the maximum it does nothing. */
  function ReconnectStep(attempts: nat): (r: (nat, Option<nat>))
    ensures attempts < MaxReconnectAttempts ==> r.0 == attempts + 1 && r.1 == Some(ReconnectDelay * r.0)
    ensures attempts >= MaxReconnectAttempts ==> r == (attempts, None)
    ensures attempts <= MaxReconnectAttempts ==> r.0 <= MaxReconnectAttempts
  {
    if attempts < MaxReconnectAttempts then (attempts + 1, Some(ReconnectDelay * (attempts + 1)))
    else (attempts, None)
  }

  /** The delays scheduled by `n` closes in a row, with no successful open in between,
      starting from `attempts` earlier attempts. */
  function FailureDelays(attempts: nat, n: nat): seq<nat>
    decreases n
  {
    if n == 0 then []
    else
      var (next, delay) := ReconnectStep(attempts);
      (if delay.Some? then [delay.value] else []) + FailureDelays(next, n - 1)
  }

  function Min(a: int, b: int): int { if a <= b then a else b }

  /** After the attempts already made, each further failure waits one more second than the
      last, until five attempts have been made; then nothing more is scheduled. */
  lemma {:induction false} FailureDelaysLinear(attempts: nat, n: nat)
    requires attempts <= MaxReconnectAttempts
    ensures var d := FailureDelays(attempts, n);
      && |d| == Min(n, MaxReconnectAttempts - attempts)
      && forall k :: 0 <= k < |d| ==> d[k] == ReconnectDelay * (attempts + k + 1)
    decreases n
  {
    if n > 0 {
      var (next, delay) := ReconnectStep(attempts);
      FailureDelaysLinear(next, n - 1);
      if attempts < MaxReconnectAttempts {
        var d := FailureDelays(attempts, n);
        assert d == [delay.value] + FailureDelays(next, n - 1);
        forall k | 0 <= k < |d| ensures d[k] == ReconnectDelay * (attempts + k + 1) {
          if k > 0 {
            assert d[k] == FailureDelays(next, n - 1)[k - 1];
          }
        }
      }
    }
  }

  /** From a fresh connection, six failures in a row schedule waits of 1 to 5 seconds. */
  lemma FreshBackoff()
    ensures FailureDelays(0, 6) == [1000, 2000, 3000, 4000, 5000]
  {
    FailureDelaysLinear(0, 6);
  }

  // ----- server events -----

  /** A parsed server frame: its `type` and the fields the handlers read. */
  datatype ServerEvent = ServerEvent(
    kind: string,
    message: Option<ClientMessage>,
    messageId: Option<ClientId>,
    status: Option<MessageStatus>,
    typing: Option<TypingIndicator>,
    userId: Option<ClientId>,
    isOnline: Option<bool>)

  datatype CallbackKind = NewMessageCallback | StatusUpdateCallback | TypingCallback | OnlineStatusCallback

  /** A callback invocation with its arguments. */
  datatype Call =
    | NewMessageCall(message: Option<ClientMessage>)
    | StatusUpdateCall(messageId: Option<ClientId>, status: Option<MessageStatus>)
    | TypingCall(typing: Option<TypingIndicator>)
    | OnlineStatusCall(userId: Option<ClientId>, isOnline: Option<bool>)

  /** The callback an event type is routed to, if any. */
  function CallbackFor(kind: string): (c: Option<CallbackKind>)
    ensures c == Some(NewMessageCallback) <==> kind == "new_message"
    ensures c == Some(StatusUpdateCallback) <==> kind == "message_status_update"
    ensures c == Some(TypingCallback) <==> kind == "typing_indicator"
    ensures c == Some(OnlineStatusCallback) <==> kind == "user_online_status"
  {
    if kind == "new_message" then Some(NewMessageCallback)
    else if kind == "message_status_update" then Some(StatusUpdateCallback)
    else if kind == "typing_indicator" then Some(TypingCallback)
    else if kind == "user_online_status" then Some(OnlineStatusCallback)
    else None
  }

  function KindOf(c: Call): CallbackKind
  {
    match c
    case NewMessageCall(_) => NewMessageCallback
    case StatusUpdateCall(_, _) => StatusUpdateCallback
    case TypingCall(_) => TypingCallback
    case OnlineStatusCall(_, _) => OnlineStatusCallback
  }

  /** `handleMessage`: the four known event types reach their callback, when one is
      registered, with the event's own fields; any other type is ignored. */
  function HandleMessage(e: ServerEvent, registered: set<CallbackKind>): (r: Option<Call>)
    ensures r.Some? <==> CallbackFor(e.kind).Some? && CallbackFor(e.kind).value in registered
    ensures r.Some? ==> KindOf(r.value) == CallbackFor(e.kind).value
    ensures r == Some(NewMessageCall(e.message)) || r == Some(StatusUpdateCall(e.messageId, e.status))
            || r == Some(TypingCall(e.typing)) || r == Some(OnlineStatusCall(e.userId, e.isOnline)) || r == None
  {
    match CallbackFor(e.kind)
    case None => None
    case Some(k) =>
      if k !in registered then None
      else
        match k
        case NewMessageCallback => Some(NewMessageCall(e.message))
        case StatusUpdateCallback => Some(StatusUpdateCall(e.messageId, e.status))
        case TypingCallback => Some(TypingCall(e.typing))
        case OnlineStatusCallback => Some(OnlineStatusCall(e.userId, e.isOnline))
  }

  /** `participants.find(p => p.id === u)?.name || "You"`. */
  function NameOf(ps: seq<ClientParticipant>, u: ClientId): (name: string)
    ensures name == "You" || exists k :: 0 <= k < |ps| && ps[k].id == u && ps[k].name == name
    ensures (forall k :: 0 <= k < |ps| ==> ps[k].id != u) ==> name == "You"
    ensures forall k :: 0 <= k < |ps| && ps[k].id == u && (forall j :: 0 <= j < k ==> ps[j].id != u) ==>
      name == (if ps[k].name == "" then "You" else ps[k].name)
  {
    if ps == [] then "You"
    else if ps[0].id == u then (if ps[0].name == "" then "You" else ps[0].name)
    else NameOf(ps[1..], u)
  }

  // ----- outgoing frames -----

  /** The description of one selected file. */
  function MetaOf(f: LocalFile): (m: AttachmentMeta)
    ensures m.name == f.name && m.size == f.size
    ensures m.kind == ImageAttachment <==> StartsWith(f.mimetype, "image/")
  {
    AttachmentMeta(f.name, f.size, if StartsWith(f.mimetype, "image/") then ImageAttachment else FileAttachment)
  }

  function MetasOf(files: seq<LocalFile>): (ms: seq<AttachmentMeta>)
    ensures |ms| == |files|
    ensures forall k :: 0 <= k < |files| ==> ms[k] == MetaOf(files[k])
  {
    seq(|files|, k requires 0 <= k < |files| => MetaOf(files[k]))
  }

  /** The `send_message` frame: the text as typed and one description per selected file. */
  function MessageFrame(conversationId: ClientId, message: string, files: Option<seq<LocalFile>>): (f: ClientFrame)
    ensures f.SendMessageFrame? && f.conversationId == conversationId && f.message == message
    ensures f.attachments.None? <==> files.None?
    ensures files.Some? ==> |f.attachments.value| == |files.value|
    ensures files.Some? ==> forall k :: 0 <= k < |files.value| ==>
      && f.attachments.value[k].name == files.value[k].name
      && f.attachments.value[k].size == files.value[k].size
      && (f.attachments.value[k].kind == ImageAttachment <==> StartsWith(files.value[k].mimetype, "image/"))
  {
    SendMessageFrame(conversationId, message, if files.None? then None else Some(MetasOf(files.value)))
  }

  /** The service object: its current socket (`None` for `null`), the attempt counter,
      the pending reconnect timers by delay, and the frames written so far. */
  class Service {
    var ws: Option<ReadyState>
    var reconnectAttempts: nat
    var scheduled: seq<nat>
    var sent: seq<ClientFrame>

    ghost predicate Valid()
      reads this
    {
      reconnectAttempts <= MaxReconnectAttempts
    }

    predicate IsOpen()
      reads this
    {
      ws == Some(Open)
    }

    /** `new ChatService()` connects at once; `fails` says whether `new WebSocket` throws. */
    constructor (fails: bool)
      ensures Valid()
      ensures sent == []
      ensures fails ==> ws.None? && reconnectAttempts == 1 && scheduled == [ReconnectDelay]
      ensures !fails ==> ws == Some(Connecting) && reconnectAttempts == 0 && scheduled == []
    {
      ws := None;
      reconnectAttempts := 0;
      scheduled := [];
      sent := [];
      new;
      Connect(fails);
    }

    /** `connect`: a new socket in the connecting state replaces the old one; when the
        constructor throws, the old one stays and a reconnect is attempted. */
    method Connect(fails: bool)
      requires Valid()
      modifies this
      ensures Valid()
      ensures sent == old(sent)
      ensures !fails ==> ws == Some(Connecting) && reconnectAttempts == old(reconnectAttempts) && scheduled == old(scheduled)
      ensures fails ==> ws == old(ws)
      ensures fails ==> var (n, d) := ReconnectStep(old(reconnectAttempts));
        reconnectAttempts == n && scheduled == old(scheduled) + (if d.Some? then [d.value] else [])
    {
      if fails {
        HandleReconnect();
      } else {
        ws := Some(Connecting);
      }
    }

    /** `handleReconnect`. */
    method HandleReconnect()
      requires Valid()
      modifies this`reconnectAttempts, this`scheduled
      ensures Valid()
      ensures var (n, d) := ReconnectStep(old(reconnectAttempts));
        reconnectAttempts == n && scheduled == old(scheduled) + (if d.Some? then [d.value] else [])
    {
      var (n, d) := ReconnectStep(reconnectAttempts);
      reconnectAttempts := n;
      if d.Some? {
        scheduled := scheduled + [d.value];
      }
    }

    /** The `open` event; `current` says whether it comes from the socket in `ws`. */
    method OnOpen(current: bool)
      requires Valid()
      modifies this
      ensures Valid()
      ensures reconnectAttempts == 0
      ensures scheduled == old(scheduled) && sent == old(sent)
      ensures ws == if current && old(ws).Some? then Some(Open) else old(ws)
    {
      if current && ws.Some? {
        ws := Some(Open);
      }
      reconnectAttempts := 0;
    }

    /** The `close` event: the handler asks for a reconnect whichever socket closed. */
    method OnClose(current: bool)
      requires Valid()
      modifies this
      ensures Valid()
      ensures sent == old(sent)
      ensures ws == if current && old(ws).Some? then Some(Closed) else old(ws)
      ensures var (n, d) := ReconnectStep(old(reconnectAttempts));
        reconnectAttempts == n && scheduled == old(scheduled) + (if d.Some? then [d.value] else [])
    {
      if current && ws.Some? {
        ws := Some(Closed);
      }
      HandleReconnect();
    }

    /** The earliest pending reconnect timer fires and connects again. */
    method FireReconnect(fails: bool)
      requires Valid() && scheduled != []
      modifies this
      ensures Valid()
      ensures sent == old(sent)
      ensures !fails ==> ws == Some(Connecting) && reconnectAttempts == old(reconnectAttempts) && scheduled == old(scheduled)[1..]
      ensures fails ==> ws == old(ws)
      ensures fails ==> var (n, d) := ReconnectStep(old(reconnectAttempts));
        reconnectAttempts == n && scheduled == old(scheduled)[1..] + (if d.Some? then [d.value] else [])
    {
      scheduled := scheduled[1..];
      Connect(fails);
    }

    /** `sendMessage`: throws "Chat service not connected" unless the socket is open. */
    method SendMessage(conversationId: ClientId, message: string, files: Option<seq<LocalFile>>) returns (err: Option<string>)
      modifies this`sent
      ensures err.Some? <==> !IsOpen()
      ensures err.Some? ==> err.value == "Chat service not connected" && sent == old(sent)
      ensures err.None? ==> sent == old(sent) + [MessageFrame(conversationId, message, files)]
    {
      if !IsOpen() {
        return Some("Chat service not connected");
      }
      sent := sent + [MessageFrame(conversationId, message, files)];
      return None;
    }

    /** The four quiet senders: write the frame when the socket is open, else do nothing. */
    method SendQuietly(f: ClientFrame)
      modifies this`sent
      ensures sent == if IsOpen() then old(sent) + [f] else old(sent)
    {
      if IsOpen() {
        sent := sent + [f];
      }
    }

    method SendTypingIndicator(conversationId: ClientId, isTyping: bool)
      modifies this`sent
      ensures sent == if IsOpen() then old(sent) + [TypingIndicatorFrame(conversationId, isTyping)] else old(sent)
    {
      SendQuietly(TypingIndicatorFrame(conversationId, isTyping));
    }

    method MarkMessageAsRead(messageId: ClientId)
      modifies this`sent
      ensures sent == if IsOpen() then old(sent) + [MarkAsReadFrame(messageId)] else old(sent)
    {
      SendQuietly(MarkAsReadFrame(messageId));
    }

    method JoinConversation(conversationId: ClientId)
      modifies this`sent
      ensures sent == if IsOpen() then old(sent) + [JoinConversationFrame(conversationId)] else old(sent)
    {
      SendQuietly(JoinConversationFrame(conversationId));
    }

    method LeaveConversation(conversationId: ClientId)
      modifies this`sent
      ensures sent == if IsOpen() then old(sent) + [LeaveConversationFrame(conversationId)] else old(sent)
    {
      SendQuietly(LeaveConversationFrame(conversationId));
    }

    /** `disconnect`: the socket is closed and dropped. Its `close` event still arrives later
        and, through `OnClose(false)`, still schedules a reconnect. */
    method Disconnect()
      modifies this`ws
      ensures ws.None?
    {
      ws := None;
    }
  }

  /** After `disconnect`, every sender is silent and `sendMessage` fails. */
  method SendAfterDisconnect() returns (err: Option<string>, written: nat)
    ensures err == Some("Chat service not connected") && written == 0
  {
    var s := new Service(false);
    s.OnOpen(true);
    s.Disconnect();
    s.MarkMessageAsRead("m1");
    s.JoinConversation("c1");
    err := s.SendMessage("c1", "hello", None);
    written := |s.sent|;
  }
}

=== FILE: chat_store.dfy ===
/** The database the chat backend talks to, as in-memory collections: users, bookings,
    conversations and messages. Documents are kept in insertion order and a document's
    id is its position, so a new document always receives a fresh id. */
module ChatStore {
  import opened Wrappers
  import opened Seqs
  import opened MessageModel
  import opened ConversationModel

  /** The fields of a user document the chat code reads or writes. */
  datatype User = User(name: string, avatar: string, role: Role, isOnline: bool, lastSeen: int)

  /** Every stored message sits at the index of its id and passed schema validation. */
  predicate MessagesIndexed(ms: seq<Message>)
  {
    forall i :: 0 <= i < |ms| ==> ms[i].id == i && ms[i].body != ""
  }

  predicate ConversationsIndexed(cs: seq<Conversation>)
  {
    forall i :: 0 <= i < |cs| ==> cs[i].id == i
  }

  /** `Conversation.findOne({ _id: cid, "participants.userId": u })`. */
  function FindConversation(cs: seq<Conversation>, cid: Id, u: Id): (r: Option<Conversation>)
    requires ConversationsIndexed(cs)
    ensures r.Some? <==> exists i :: 0 <= i < |cs| && cs[i].id == cid && IsParticipant(cs[i], u)
    ensures r.Some? ==> r.value in cs && r.value.id == cid && IsParticipant(r.value, u)
  {
    if cid < |cs| && IsParticipant(cs[cid], u) then Some(cs[cid]) else None
  }

  /** `Message.findById(id)`. */
  function FindMessage(ms: seq<Message>, id: Id): (r: Option<Message>)
    requires MessagesIndexed(ms)
    ensures r.Some? <==> exists i :: 0 <= i < |ms| && ms[i].id == id
    ensures r.Some? ==> r.value in ms && r.value.id == id
  {
    if id < |ms| then Some(ms[id]) else None
  }

  /** The messages of conversation `cid`, oldest first. */
  function MessagesOf(ms: seq<Message>, cid: Id): (r: seq<Message>)
    ensures forall m :: m in r <==> m in ms && m.conversationId == cid
    ensures IsSubsequence(r, ms)
    ensures forall m :: Occurrences(r, m) == if m.conversationId == cid then Occurrences(ms, m) else 0
  {
    var keep := (m: Message) => m.conversationId == cid;
    FilterCounts(ms, keep);
    Filter(ms, keep)
  }

  /** `Message.updateOne({ _id: id }, { status })`: an unconditional overwrite. */
  function WithStatus(ms: seq<Message>, id: Id, s: MessageStatus): (r: seq<Message>)
    ensures |r| == |ms|
    ensures forall i :: 0 <= i < |ms| && ms[i].id == id ==> r[i] == ms[i].(status := s)
    ensures forall i :: 0 <= i < |ms| && ms[i].id != id ==> r[i] == ms[i]
  {
    seq(|ms|, i requires 0 <= i < |ms| => if ms[i].id == id then ms[i].(status := s) else ms[i])
  }

  /** The `updateMany` a read of conversation `cid` by `reader` performs: every message of
      the conversation sent by someone else and not yet read becomes read. */
  function ReadBy(ms: seq<Message>, cid: Id, reader: Id): (r: seq<Message>)
    ensures |r| == |ms|
    ensures forall i :: 0 <= i < |ms| ==>
      r[i] == (if ms[i].conversationId == cid && ms[i].senderId != reader && ms[i].status != Read
               then ms[i].(status := Read) else ms[i])
  {
    seq(|ms|, i requires 0 <= i < |ms| =>
      if ms[i].conversationId == cid && ms[i].senderId != reader && ms[i].status != Read
      then ms[i].(status := Read) else ms[i])
  }

  /** Reading a conversation twice in a row marks nothing the second time. */
  lemma ReadByIdempotent(ms: seq<Message>, cid: Id, reader: Id)
    ensures ReadBy(ReadBy(ms, cid, reader), cid, reader) == ReadBy(ms, cid, reader)
  {
  }

  /** After a read, every message of the conversation from another sender is read, and only
      statuses changed. */
  lemma ReadByEffect(ms: seq<Message>, cid: Id, reader: Id, i: int)
    requires 0 <= i < |ms|
    ensures ms[i].conversationId == cid && ms[i].senderId != reader ==> ReadBy(ms, cid, reader)[i].status == Read
    ensures !(ms[i].conversationId == cid && ms[i].senderId != reader) ==> ReadBy(ms, cid, reader)[i] == ms[i]
    ensures ReadBy(ms, cid, reader)[i] == ms[i].(status := ReadBy(ms, cid, reader)[i].status)
  {
  }

  class Store {
    var users: map<Id, User>
    var bookings: set<Id>
    var conversations: seq<Conversation>
    var messages: seq<Message>

    ghost predicate Valid()
      reads this
    {
      ConversationsIndexed(conversations) && MessagesIndexed(messages)
    }

    constructor (users: map<Id, User>, bookings: set<Id>)
      ensures Valid()
      ensures this.users == users && this.bookings == bookings
      ensures conversations == [] && messages == []
    {
      this.users := users;
      this.bookings := bookings;
      conversations := [];
      messages := [];
    }

    /** `new Message(fields).save()`: the document is stored under a fresh id when it
        validates; a validation error stores nothing. */
    method SaveMessage(f: MessageFields, now: int) returns (r: Result<Id, set<RequiredField>>)
      requires Valid()
      modifies this
      ensures Valid()
      ensures users == old(users) && bookings == old(bookings) && conversations == old(conversations)
      ensures r.Err? <==> Create(|old(messages)|, f, now).Err?
      ensures r.Err? ==> messages == old(messages) && r.error == MissingRequired(f)
      ensures r.Ok? ==> r.value == |old(messages)| && messages == old(messages) + [Create(r.value, f, now).value]
    {
      var created := Create(|messages|, f, now);
      if created.Err? {
        r := Err(created.error);
      } else {
        r := Ok(|messages|);
        messages := messages + [created.value];
      }
    }

    /** `Message.updateOne({ _id: id }, { status })`. */
    method SetStatus(id: Id, s: MessageStatus)
      requires Valid()
      modifies this
      ensures Valid()
      ensures users == old(users) && bookings == old(bookings) && conversations == old(conversations)
      ensures messages == WithStatus(old(messages), id, s)
    {
      messages := WithStatus(messages, id, s);
    }

    /** The read-marking `updateMany` of the message history route. */
    method MarkRead(cid: Id, reader: Id)
      requires Valid()
      modifies this
      ensures Valid()
      ensures users == old(users) && bookings == old(bookings) && conversations == old(conversations)
      ensures messages == ReadBy(old(messages), cid, reader)
    {
      messages := ReadBy(messages, cid, reader);
    }

    /** `message.translatedMessage = ...; message.save()`. */
    method SetTranslations(id: Id, translations: map<string, string>)
      requires Valid() && id < |messages|
      modifies this
      ensures Valid()
      ensures users == old(users) && bookings == old(bookings) && conversations == old(conversations)
      ensures messages == old(messages)[id := old(messages)[id].(translatedMessage := translations)]
    {
      messages := messages[id := messages[id].(translatedMessage := translations)];
    }

    /** `Conversation.updateOne({ _id: cid }, { $set: { lastMessage, unreadCount, updatedAt } })`. */
    method RecordMessage(cid: Id, last: Id, unread: map<Id, int>, now: int)
      requires Valid() && cid < |conversations|
      modifies this
      ensures Valid()
      ensures users == old(users) && bookings == old(bookings) && messages == old(messages)
      ensures conversations == old(conversations)[cid :=
        old(conversations)[cid].(lastMessage := Some(last), unreadCount := unread, updatedAt := now)]
    {
      conversations := conversations[cid :=
        conversations[cid].(lastMessage := Some(last), unreadCount := unread, updatedAt := now)];
    }

    /** `Conversation.updateOne({ _id: cid }, { $set: { unreadCount } })`. */
    method SetUnread(cid: Id, unread: map<Id, int>)
      requires Valid() && cid < |conversations|
      modifies this
      ensures Valid()
      ensures users == old(users) && bookings == old(bookings) && messages == old(messages)
      ensures conversations == old(conversations)[cid := old(conversations)[cid].(unreadCount := unread)]
    {
      conversations := conversations[cid := conversations[cid].(unreadCount := unread)];
    }

    /** `new Conversation({ bookingId, participants, isActive: true }).save()`. */
    method AddConversation(bookingId: Id, participants: seq<Participant>, now: int) returns (id: Id)
      requires Valid()
      modifies this
      ensures Valid()
      ensures users == old(users) && bookings == old(bookings) && messages == old(messages)
      ensures id == |old(conversations)|
      ensures conversations == old(conversations) + [NewConversation(id, bookingId, participants, now)]
    {
      id := |conversations|;
      conversations := conversations + [NewConversation(id, bookingId, participants, now)];
    }

    /** `User.findByIdAndUpdate(u, { isOnline, lastSeen })`; an unknown id updates nothing. */
    method SetPresence(u: Id, online: bool, now: int)
      requires Valid()
      modifies this
      ensures Valid()
      ensures bookings == old(bookings) && conversations == old(conversations) && messages == old(messages)
      ensures u in old(users) ==> users == old(users)[u := old(users)[u].(isOnline := online, lastSeen := now)]
      ensures u !in old(users) ==> users == old(users)
    {
      if u in users {
        users := users[u := users[u].(isOnline := online, lastSeen := now)];
      }
    }
  }
}

=== FILE: chat_widget.dfy ===
/** The floating chat widget: open and minimised flags, the selected conversation and its
    messages, the global unread badge and the queue of notifications shown while the widget
    is out of sight. */
module ChatWidget {
  import opened Wrappers
  import opened Seqs
  import opened Strings
  import opened MessageModel
  import opened ConversationModel
  import opened ChatService
  import opened ConversationList

  /** `notifications.filter(n => n.id !== id)`. */
  function WithoutNotification(ns: seq<ClientMessage>, id: ClientId): (r: seq<ClientMessage>)
    ensures forall m :: m in r <==> m in ns && m.id != id
    ensures IsSubsequence(r, ns)
    ensures forall m :: Occurrences(r, m) == if m.id != id then Occurrences(ns, m) else 0
  {
    var keep := (m: ClientMessage) => m.id != id;
    FilterCounts(ns, keep);
    Filter(ns, keep)
  }

  /** The position of the first conversation with the given id, or `|cs|` when there is none. */
  function FirstWithId(cs: seq<ClientConversation>, id: ClientId): (k: nat)
    ensures k <= |cs|
    ensures forall j :: 0 <= j < k ==> cs[j].id != id
    ensures k < |cs| ==> cs[k].id == id
  {
    if cs == [] || cs[0].id == id then 0 else 1 + FirstWithId(cs[1..], id)
  }

  /** `conversations.find(c => c.id === id)`. */
  function FindById(cs: seq<ClientConversation>, id: ClientId): (r: Option<ClientConversation>)
    ensures r.None? <==> forall k :: 0 <= k < |cs| ==> cs[k].id != id
    ensures r.Some? ==> r.value.id == id && r.value == cs[FirstWithId(cs, id)]
  {
    var k := FirstWithId(cs, id);
    if k < |cs| then Some(cs[k]) else None
  }

  /** The badge after a conversation holding `n` unread messages is opened. */
  function Subtracted(badge: int, n: int): (r: int)
    ensures badge >= 0 ==> r >= 0
    ensures n > 0 && n <= badge ==> r == badge - n
    ensures n > 0 && n > badge ==> r == 0
    ensures n <= 0 ==> r == badge
  {
    if n > 0 then (if badge - n > 0 then badge - n else 0) else badge
  }

  class Widget {
    const service: Service
    const currentUserId: ClientId
    const currentUserRole: Role
    var isOpen: bool
    var isMinimized: bool
    var selected: Option<ClientConversation>
    var messages: seq<ClientMessage>
    var newMessage: string
    var unreadCount: int
    var notifications: seq<ClientMessage>
    var conversations: seq<ClientConversation>

    ghost predicate Valid()
      reads this
    {
      unreadCount >= 0
    }

    constructor (service: Service, currentUserId: ClientId, currentUserRole: Role)
      ensures Valid()
      ensures this.service == service && this.currentUserId == currentUserId && this.currentUserRole == currentUserRole
      ensures !isOpen && !isMinimized && selected.None? && messages == [] && newMessage == ""
      ensures unreadCount == 0 && notifications == [] && conversations == []
    {
      this.service := service;
      this.currentUserId := currentUserId;
      this.currentUserRole := currentUserRole;
      isOpen := false;
      isMinimized := false;
      selected := None;
      messages := [];
      newMessage := "";
      unreadCount := 0;
      notifications := [];
      conversations := [];
    }

    /** `onNewMessage`. A message of the selected conversation is shown and acknowledged. Any
        other message from someone else raises the badge, and is queued as a notification
        when the widget is closed or minimised. The user's own messages elsewhere change
        nothing. */
    method OnNewMessage(m: ClientMessage)
      requires Valid()
      modifies this`messages, this`unreadCount, this`notifications, service`sent
      ensures Valid()
      ensures selected.Some? && m.conversationId == selected.value.id ==>
        && messages == old(messages) + [m] && unreadCount == old(unreadCount) && notifications == old(notifications)
        && service.sent == if service.IsOpen() then old(service.sent) + [MarkAsReadFrame(m.id)] else old(service.sent)
      ensures !(selected.Some? && m.conversationId == selected.value.id) ==>
        && messages == old(messages) && service.sent == old(service.sent)
        && unreadCount == old(unreadCount) + (if m.senderId != currentUserId then 1 else 0)
        && notifications == old(notifications) + (if m.senderId != currentUserId && (!isOpen || isMinimized) then [m] else [])
    {
      if selected.Some? && m.conversationId == selected.value.id {
        messages := messages + [m];
        service.MarkMessageAsRead(m.id);
      } else if m.senderId != currentUserId {
        unreadCount := unreadCount + 1;
        if !isOpen || isMinimized {
          notifications := notifications + [m];
        }
      }
    }

    /** The list of conversations once loaded. */
    method ConversationsLoaded(cs: seq<ClientConversation>)
      modifies this`conversations
      ensures conversations == cs
    {
      conversations := cs;
    }

    method HandleOpenChat()
      requires Valid()
      modifies this`isOpen, this`isMinimized, this`unreadCount
      ensures Valid()
      ensures isOpen && !isMinimized && unreadCount == 0
    {
      isOpen := true;
      isMinimized := false;
      unreadCount := 0;
    }

    method HandleCloseChat()
      modifies this`isOpen, this`selected, this`messages
      ensures !isOpen && selected.None? && messages == []
    {
      isOpen := false;
      selected := None;
      messages := [];
    }

    method HandleMinimize()
      modifies this`isMinimized
      ensures isMinimized == !old(isMinimized)
    {
      isMinimized := !isMinimized;
    }

    method HandleBackToList()
      modifies this`selected, this`messages
      ensures selected.None? && messages == []
    {
      selected := None;
      messages := [];
    }

    method HandleNotificationClose(id: ClientId)
      modifies this`notifications
      ensures notifications == WithoutNotification(old(notifications), id)
    {
      notifications := WithoutNotification(notifications, id);
    }

    /** `handleSelectConversation`: the conversation and its `history` are shown, the
        conversation is joined, and its unread count for the user is taken off the badge,
        which stops at 0. */
    method HandleSelectConversation(c: ClientConversation, history: seq<ClientMessage>)
      requires Valid()
      modifies this`selected, this`messages, this`unreadCount, service`sent
      ensures Valid()
      ensures selected == Some(c) && messages == history
      ensures unreadCount == Subtracted(old(unreadCount), UnreadCount(c, currentUserId))
      ensures service.sent == if service.IsOpen() then old(service.sent) + [JoinConversationFrame(c.id)] else old(service.sent)
    {
      selected := Some(c);
      messages := history;
      service.JoinConversation(c.id);
      if currentUserId in c.unreadCount && c.unreadCount[currentUserId] > 0 {
        var n := c.unreadCount[currentUserId];
        unreadCount := if unreadCount - n > 0 then unreadCount - n else 0;
      }
    }

    /** `handleNotificationReply`: opens the message's conversation when it is in the list,
        then drops the notification. */
    method HandleNotificationReply(m: ClientMessage, history: seq<ClientMessage>)
      requires Valid()
      modifies this`selected, this`messages, this`unreadCount, this`notifications, service`sent
      ensures Valid()
      ensures notifications == WithoutNotification(old(notifications), m.id)
      ensures var c := FindById(conversations, m.conversationId);
        if c.Some? then
          && selected == c && messages == history
          && unreadCount == Subtracted(old(unreadCount), UnreadCount(c.value, currentUserId))
          && service.sent == if service.IsOpen() then old(service.sent) + [JoinConversationFrame(c.value.id)] else old(service.sent)
        else
          selected == old(selected) && messages == old(messages) && unreadCount == old(unreadCount)
          && service.sent == old(service.sent)
    {
      var c := FindById(conversations, m.conversationId);
      if c.Some? {
        HandleSelectConversation(c.value, history);
      }
      notifications := WithoutNotification(notifications, m.id);
    }

    method Type(text: string)
      modifies this`newMessage
      ensures newMessage == text
    {
      newMessage := text;
    }

    /** `handleSendMessage`: nothing for blank text or without a selection; otherwise a text
        message in the sending state is shown, the input is cleared and the text is sent.
        A closed socket makes the send fail, which is only logged. */
    method HandleSendMessage(tempId: ClientId, now: int)
      modifies this`messages, this`newMessage, service`sent
      ensures Trim(old(newMessage)) == "" || selected.None? ==>
        messages == old(messages) && newMessage == old(newMessage) && service.sent == old(service.sent)
      ensures Trim(old(newMessage)) != "" && selected.Some? ==>
        && messages == old(messages) + [ClientMessage(tempId, selected.value.id, currentUserId,
                                                       NameOf(selected.value.participants, currentUserId),
                                                       currentUserRole, old(newMessage), Text, None, now, Sending)]
        && newMessage == ""
        && service.sent == if service.IsOpen()
                           then old(service.sent) + [MessageFrame(selected.value.id, old(newMessage), None)]
                           else old(service.sent)
    {
      if Trim(newMessage) == "" || selected.None? {
        return;
      }
      var c := selected.value;
      var text := newMessage;
      messages := messages + [ClientMessage(tempId, c.id, currentUserId, NameOf(c.participants, currentUserId),
                                            currentUserRole, text, Text, None, now, Sending)];
      newMessage := "";
      var _ := service.SendMessage(c.id, text, None);
    }
  }

  /** Dismissing the only queued notification leaves none. */
  lemma OnlyNotificationDismissed(m: ClientMessage)
    ensures WithoutNotification([m], m.id) == []
  {
    var r := WithoutNotification([m], m.id);
    assert forall x :: x !in r;
  }

  /** While the widget is closed, a message in another conversation raises the badge and
      queues a notification; opening the widget clears the badge, and replying opens the
      conversation and drops the notification. */
  method NotifyThenReply() returns (badgeBefore: int, queued: nat, badgeAfter: int, shown: bool, left: nat)
    ensures badgeBefore == 1 && queued == 1 && badgeAfter == 0 && shown && left == 0
  {
    var s := new Service(false);
    var w := new Widget(s, "me", Tourist);
    var c := ClientConversation("c1", "b1", [ClientParticipant("me", "Me", Tourist, true)], map["me" := 1], true, "Coffee");
    w.ConversationsLoaded([c]);
    var m := ClientMessage("m1", "c1", "host", "Host", Host, "hello", Text, None, 5, Sent);
    w.OnNewMessage(m);
    assert w.notifications == [m];
    badgeBefore := w.unreadCount;
    queued := |w.notifications|;
    w.HandleOpenChat();
    assert FindById([c], "c1") == Some(c);
    OnlyNotificationDismissed(m);
    w.HandleNotificationReply(m, [m]);
    badgeAfter := w.unreadCount;
    shown := w.selected == Some(c);
    left := |w.notifications|;
  }
}

=== FILE: conversation_list.dfy ===
/** The conversation sidebar: the search over conversations, the "other participant" shown
    for each one and its unread badge. */
module ConversationList {
  import opened Wrappers
  import opened Seqs
  import opened Strings
  import opened ChatService

  /** The position of the first participant who is not `me`, or `|ps|` when there is none. */
  function FirstOther(ps: seq<ClientParticipant>, me: ClientId): (k: nat)
    ensures k <= |ps|
    ensures forall j :: 0 <= j < k ==> ps[j].id == me
    ensures k < |ps| ==> ps[k].id != me
  {
    if ps == [] || ps[0].id != me then 0 else 1 + FirstOther(ps[1..], me)
  }

  /** `participants.find(p => p.id !== me)`: the first participant who is not the user. */
  function OtherParticipant(c: ClientConversation, me: ClientId): (r: Option<ClientParticipant>)
    ensures r.None? <==> forall k :: 0 <= k < |c.participants| ==> c.participants[k].id == me
    ensures r.Some? ==> r.value.id != me && r.value == c.participants[FirstOther(c.participants, me)]
  {
    var k := FirstOther(c.participants, me);
    if k < |c.participants| then Some(c.participants[k]) else None
  }

  /** `unreadCount[me] || 0`. */
  function UnreadCount(c: ClientConversation, me: ClientId): (n: int)
    ensures me !in c.unreadCount ==> n == 0
    ensures me in c.unreadCount ==> n == c.unreadCount[me]
  {
    if me in c.unreadCount then c.unreadCount[me] else 0
  }

  /** The search test: the other participant's name or the experience title contains the
      query, ignoring case. */
  predicate MatchesQuery(c: ClientConversation, me: ClientId, query: string)
  {
    var other := OtherParticipant(c, me);
    (other.Some? && Includes(Lower(other.value.name), Lower(query)))
    || Includes(Lower(c.experienceTitle), Lower(query))
  }

  /** `filteredConversations`. */
  function Filtered(cs: seq<ClientConversation>, me: ClientId, query: string): (r: seq<ClientConversation>)
    ensures forall c :: c in r <==> c in cs && MatchesQuery(c, me, query)
    ensures IsSubsequence(r, cs)
    ensures forall c :: Occurrences(r, c) == if MatchesQuery(c, me, query) then Occurrences(cs, c) else 0
  {
    var keep := (c: ClientConversation) => MatchesQuery(c, me, query);
    FilterCounts(cs, keep);
    Filter(cs, keep)
  }

  /** An empty search box shows every conversation, in order. */
  lemma EmptyQueryKeepsAll(cs: seq<ClientConversation>, me: ClientId)
    ensures Filtered(cs, me, "") == cs
  {
    forall k | 0 <= k < |cs| ensures MatchesQuery(cs[k], me, "") {
      IncludesEmpty(Lower(cs[k].experienceTitle));
    }
    FilterAll(cs, (c: ClientConversation) => MatchesQuery(c, me, ""));
  }

  /** The search ignores the case of the query. */
  lemma QueryCaseInsensitive(cs: seq<ClientConversation>, me: ClientId, query: string)
    ensures Filtered(cs, me, Lower(query)) == Filtered(cs, me, query)
  {
    LowerIdempotent(query);
    FilterCongruent(cs, (c: ClientConversation) => MatchesQuery(c, me, Lower(query)),
                        (c: ClientConversation) => MatchesQuery(c, me, query));
  }

  /** Narrowing the search never brings back a conversation: whatever matches a longer
      query also matches its prefix. */
  lemma {:induction false} IncludesPrefix(s: string, q: string, n: nat)
    requires n <= |q| && Includes(s, q)
    ensures Includes(s, q[..n])
  {
    IncludesAt(s, q);
    IncludesAt(s, q[..n]);
    var i :| OccursAt(s, q, i);
    assert s[i..i + n] == s[i..i + |q|][..n];
    assert OccursAt(s, q[..n], i);
  }

  lemma NarrowingShrinks(cs: seq<ClientConversation>, me: ClientId, query: string, n: nat)
    requires n <= |query|
    ensures forall c :: c in Filtered(cs, me, query) ==> c in Filtered(cs, me, query[..n])
  {
    assert Lower(query[..n]) == Lower(query)[..n];
    forall c | c in Filtered(cs, me, query) ensures MatchesQuery(c, me, query[..n]) {
      var other := OtherParticipant(c, me);
      if other.Some? && Includes(Lower(other.value.name), Lower(query)) {
        IncludesPrefix(Lower(other.value.name), Lower(query), n);
      } else {
        IncludesPrefix(Lower(c.experienceTitle), Lower(query), n);
      }
    }
  }
}

=== FILE: conversation_model.dfy ===
/** The Conversation schema: participants with their roles, the per-user unread
    counters and the defaults a new conversation takes. */
module ConversationModel {
  import opened Wrappers
  import opened Seqs
  import opened MessageModel

  datatype Role = Tourist | Host | Admin

  datatype Participant = Participant(userId: Id, role: Role, joinedAt: int, lastSeen: int)

  /** A stored conversation document. `bookingId` is indexed but not unique. */
  datatype Conversation = Conversation(
    id: Id,
    bookingId: Id,
    participants: seq<Participant>,
    lastMessage: Option<Id>,
    unreadCount: map<Id, int>,
    isActive: bool,
    createdAt: int,
    updatedAt: int)

  /** A participant entry whose `joinedAt` and `lastSeen` take their `Date.now` defaults. */
  function NewParticipant(userId: Id, role: Role, now: int): (p: Participant)
    ensures p.userId == userId && p.role == role
    ensures p.joinedAt == now && p.lastSeen == now
  {
    Participant(userId, role, now, now)
  }

  /** A new conversation: no last message, an empty unread map, active. */
  function NewConversation(id: Id, bookingId: Id, participants: seq<Participant>, now: int): (c: Conversation)
    ensures c.id == id && c.bookingId == bookingId && c.participants == participants
    ensures c.lastMessage.None? && c.unreadCount == map[] && c.isActive
    ensures c.createdAt == now && c.updatedAt == now
  {
    Conversation(id, bookingId, participants, None, map[], true, now, now)
  }

  function ParticipantIds(ps: seq<Participant>): (ids: seq<Id>)
    ensures |ids| == |ps|
    ensures forall i :: 0 <= i < |ps| ==> ids[i] == ps[i].userId
  {
    seq(|ps|, i requires 0 <= i < |ps| => ps[i].userId)
  }

  /** The query `"participants.userId": u` matches the conversation. */
  predicate IsParticipant(c: Conversation, u: Id)
  {
    u in ParticipantIds(c.participants)
  }

  /** `unreadCount[u] || 0`. */
  function UnreadOf(counts: map<Id, int>, u: Id): int
  {
    if u in counts then counts[u] else 0
  }

  /** The ids in `ids` other than `sender`. */
  function Others(ids: seq<Id>, sender: Id): set<Id>
  {
    set p | p in ids && p != sender
  }

  /** `r` is `counts` after a message from `sender` to the participant list `ids`: a
      counter for each participant other than the sender, raised by the number of times that
      participant is listed, and the sender's counter as it was. */
  ghost predicate Bumped(counts: map<Id, int>, ids: seq<Id>, sender: Id, r: map<Id, int>)
  {
    && r.Keys == counts.Keys + Others(ids, sender)
    && (forall u :: u != sender ==> UnreadOf(r, u) == UnreadOf(counts, u) + Occurrences(ids, u))
    && UnreadOf(r, sender) == UnreadOf(counts, sender)
  }

  /** The `forEach` over the participants on a send: every participant entry whose id is
      not the sender's adds one to that user's counter. A user listed twice gets two. */
  method BumpUnread(counts: map<Id, int>, ids: seq<Id>, sender: Id) returns (r: map<Id, int>)
    ensures Bumped(counts, ids, sender, r)
  {
    r := counts;
    var i := 0;
    while i < |ids|
      invariant 0 <= i <= |ids|
      invariant r.Keys == counts.Keys + Others(ids[..i], sender)
      invariant forall u :: u != sender ==> UnreadOf(r, u) == UnreadOf(counts, u) + Occurrences(ids[..i], u)
      invariant UnreadOf(r, sender) == UnreadOf(counts, sender)
    {
      var p := ids[i];
      assert ids[..i + 1] == ids[..i] + [p];
      forall u ensures Occurrences(ids[..i + 1], u) == Occurrences(ids[..i], u) + Occurrences([p], u) {
        OccurrencesAppend(ids[..i], [p], u);
      }
      if p != sender {
        r := r[p := UnreadOf(r, p) + 1];
      }
      i := i + 1;
    }
    assert ids[..i] == ids;
  }

  /** With every participant listed once, a send adds exactly one to each other participant
      and leaves the sender's counter as it was. */
  lemma BumpUnreadOnce(counts: map<Id, int>, ids: seq<Id>, sender: Id, r: map<Id, int>, u: Id)
    requires NoDuplicates(ids) && Bumped(counts, ids, sender, r)
    ensures UnreadOf(r, u) == UnreadOf(counts, u) + (if u != sender && u in ids then 1 else 0)
  {
    OccurrencesOfDistinct(ids, u);
  }
}

=== FILE: feature_requests.dfy ===
/** The feature-request board: the search and the category, priority and status filters, the
    sort by votes, age or priority, voting, the progress bar of each status and the totals
    shown above the list. */
module FeatureRequests {
  import opened Seqs
  import opened Strings

  datatype FeatureCategory =
    | UserExperience | PaymentSystem | Communication | Analytics | Mobile
    | AiMl | Security | Integration | Performance | Accessibility

  datatype Priority = Critical | High | Medium | Low

  datatype FeatureStatus = Requested | UnderReview | Approved | InDevelopment | Testing | Deployed | Rejected

  function CategoryName(c: FeatureCategory): string
  {
    match c
    case UserExperience => "user-experience"
    case PaymentSystem => "payment-system"
    case Communication => "communication"
    case Analytics => "analytics"
    case Mobile => "mobile"
    case AiMl => "ai-ml"
    case Security => "security"
    case Integration => "integration"
    case Performance => "performance"
    case Accessibility => "accessibility"
  }

  function PriorityName(p: Priority): string
  {
    match p
    case Critical => "critical"
    case High => "high"
    case Medium => "medium"
    case Low => "low"
  }

  function StatusName(s: FeatureStatus): string
  {
    match s
    case Requested => "requested"
    case UnderReview => "under-review"
    case Approved => "approved"
    case InDevelopment => "in-development"
    case Testing => "testing"
    case Deployed => "deployed"
    case Rejected => "rejected"
  }

  /** A feature request, with the fields the board reads; `createdAt` is in milliseconds. */
  datatype Feature = Feature(id: string, title: string, description: string, category: FeatureCategory,
                             priority: Priority, status: FeatureStatus, votes: int, createdAt: int)

  // ----- filtering -----

  /** The search test: the title or the description contains the query, ignoring case. */
  predicate MatchesSearch(f: Feature, query: string)
  {
    Includes(Lower(f.title), Lower(query)) || Includes(Lower(f.description), Lower(query))
  }

  /** A select box: "all" lets everything through, any other value only its own name. */
  predicate Selects(selected: string, name: string)
  {
    selected == "all" || name == selected
  }

  predicate Matches(f: Feature, query: string, category: string, priority: string, status: string)
  {
    && MatchesSearch(f, query)
    && Selects(category, CategoryName(f.category))
    && Selects(priority, PriorityName(f.priority))
    && Selects(status, StatusName(f.status))
  }

  /** The first half of the board's effect: the features that pass every filter, in order. */
  function Filtered(fs: seq<Feature>, query: string, category: string, priority: string, status: string): (r: seq<Feature>)
    ensures forall f :: f in r <==> f in fs && Matches(f, query, category, priority, status)
    ensures IsSubsequence(r, fs)
    ensures forall f :: Occurrences(r, f) == if Matches(f, query, category, priority, status) then Occurrences(fs, f) else 0
  {
    var keep := (f: Feature) => Matches(f, query, category, priority, status);
    FilterCounts(fs, keep);
    Filter(fs, keep)
  }

  /** With an empty search and every select on "all", the whole list is shown in order. */
  lemma NoFilterKeepsAll(fs: seq<Feature>)
    ensures Filtered(fs, "", "all", "all", "all") == fs
  {
    forall k | 0 <= k < |fs| ensures Matches(fs[k], "", "all", "all", "all") {
      IncludesEmpty(Lower(fs[k].title));
    }
    FilterAll(fs, (f: Feature) => Matches(f, "", "all", "all", "all"));
  }

  /** A select set to a category keeps only features whose category has that name. */
  lemma CategorySelected(fs: seq<Feature>, query: string, c: FeatureCategory, priority: string, status: string)
    ensures forall f :: f in Filtered(fs, query, CategoryName(c), priority, status) ==>
      CategoryName(f.category) == CategoryName(c) && f in fs
  {
  }

  // ----- sorting -----

  /** `priorityOrder`. */
  function Rank(p: Priority): (r: int)
    ensures 1 <= r <= 4
    ensures r == 4 <==> p == Critical
    ensures r == 1 <==> p == Low
  {
    match p
    case Critical => 4
    case High => 3
    case Medium => 2
    case Low => 1
  }

  /** The quantity the comparator subtracts for a sort key; any other key compares every pair
      as equal. */
  function Key(sortBy: string, f: Feature): int
  {
    if sortBy == "votes" then f.votes
    else if sortBy == "newest" then f.createdAt
    else if sortBy == "priority" then Rank(f.priority)
    else 0
  }

  predicate KnownKey(sortBy: string)
  {
    sortBy == "votes" || sortBy == "newest" || sortBy == "priority"
  }

  /** Largest key first. */
  predicate SortedDesc(s: seq<Feature>, sortBy: string)
  {
    forall i, j :: 0 <= i < j < |s| ==> Key(sortBy, s[i]) >= Key(sortBy, s[j])
  }

  /** Under an unknown sort key every pair of requests compares equal. */
  lemma UnknownKeyConstant(sortBy: string)
    requires !KnownKey(sortBy)
    ensures forall f :: Key(sortBy, f) == 0
  {
  }

  /** `filtered.sort(...)` with a comparator that subtracts keys: a stable insertion sort,
      largest key first. Each element is swapped left past the smaller keys before it, never
      past an equal one, so when every key is the same nothing moves. */
  method SortFeatures(a: array<Feature>, key: Feature -> int)
    modifies a
    ensures forall p, q :: 0 <= p < q < a.Length ==> key(a[p]) >= key(a[q])
    ensures multiset(a[..]) == multiset(old(a[..]))
    ensures (forall f :: key(f) == 0) ==> a[..] == old(a[..])
  {
    var i := 0;
    while i < a.Length
      invariant 0 <= i <= a.Length
      invariant forall p, q :: 0 <= p < q < i ==> key(a[p]) >= key(a[q])
      invariant multiset(a[..]) == multiset(old(a[..]))
      invariant (forall f :: key(f) == 0) ==> a[..] == old(a[..])
    {
      Insert(a, i, key);
      i := i + 1;
    }
  }

  /** One pass of the sort: the element at `i` moves left into the sorted prefix before it. */
  method Insert(a: array<Feature>, i: nat, key: Feature -> int)
    requires i < a.Length
    requires forall p, q :: 0 <= p < q < i ==> key(a[p]) >= key(a[q])
    modifies a
    ensures forall p, q :: 0 <= p < q <= i ==> key(a[p]) >= key(a[q])
    ensures multiset(a[..]) == multiset(old(a[..]))
    ensures (forall f :: key(f) == 0) ==> a[..] == old(a[..])
  {
    var j := i;
    while j > 0 && key(a[j - 1]) < key(a[j])
      invariant 0 <= j <= i
      invariant forall p, q :: 0 <= p < q <= i && p != j && q != j ==> key(a[p]) >= key(a[q])
      invariant forall q :: j < q <= i ==> key(a[j]) > key(a[q])
      invariant multiset(a[..]) == multiset(old(a[..]))
      invariant (forall f :: key(f) == 0) ==> a[..] == old(a[..])
    {
      Swap(a, j);
      j := j - 1;
    }
  }

  /** Exchanges two neighbours. */
  method Swap(a: array<Feature>, j: nat)
    requires 0 < j < a.Length
    modifies a
    ensures a[j - 1] == old(a[j]) && a[j] == old(a[j - 1])
    ensures forall k :: 0 <= k < a.Length && k != j - 1 && k != j ==> a[k] == old(a[k])
    ensures multiset(a[..]) == multiset(old(a[..]))
  {
    a[j - 1], a[j] := a[j], a[j - 1];
  }

  /** Two requests with different keys end up in key order whatever order they came in. */
  lemma OrderOfTwo(s: seq<Feature>, x: Feature, y: Feature, sortBy: string)
    requires multiset(s) == multiset([x, y])
    requires SortedDesc(s, sortBy)
    requires Key(sortBy, x) < Key(sortBy, y)
    ensures s == [y, x]
  {
    assert |s| == |multiset(s)| == 2;
    assert s[0] in multiset(s) && s[1] in multiset(s);
    assert s == [s[0], s[1]];
    if s[0] == x {
      assert false;
    }
    assert s[0] == y;
    assert multiset([s[1]]) == multiset(s) - multiset([y]) == multiset([x]);
    assert s[1] in multiset([x]);
  }

  /** What each known key orders by. */
  lemma SortKeys(s: seq<Feature>)
    ensures SortedDesc(s, "votes") ==> forall i, j :: 0 <= i < j < |s| ==> s[i].votes >= s[j].votes
    ensures SortedDesc(s, "newest") ==> forall i, j :: 0 <= i < j < |s| ==> s[i].createdAt >= s[j].createdAt
    ensures SortedDesc(s, "priority") ==> forall i, j :: 0 <= i < j < |s| ==> Rank(s[i].priority) >= Rank(s[j].priority)
  {
  }

  // ----- voting -----

  function Delta(up: bool): int { if up then 1 else -1 }

  /** One request after a vote for `id`. */
  function Bump(f: Feature, id: string, up: bool): Feature
  {
    if f.id == id then f.(votes := f.votes + Delta(up)) else f
  }

  /** `handleVote`: the features with the given id gain or lose one vote; votes may go below 0. */
  function Voted(fs: seq<Feature>, id: string, up: bool): (r: seq<Feature>)
    ensures |r| == |fs|
    ensures forall k :: 0 <= k < |fs| ==> r[k].(votes := fs[k].votes) == fs[k]
    ensures forall k :: 0 <= k < |fs| ==> r[k].votes == fs[k].votes + (if fs[k].id == id then Delta(up) else 0)
  {
    if fs == [] then [] else [Bump(fs[0], id, up)] + Voted(fs[1..], id, up)
  }

  /** A down vote undoes an up vote. */
  lemma VoteUndone(fs: seq<Feature>, id: string)
    ensures Voted(Voted(fs, id, true), id, false) == fs
  {
  }

  /** The number of features with the given id. */
  function WithId(fs: seq<Feature>, id: string): (n: nat)
    ensures n <= |fs|
    ensures n == 0 <==> forall k :: 0 <= k < |fs| ==> fs[k].id != id
  {
    if fs == [] then 0 else (if fs[0].id == id then 1 else 0) + WithId(fs[1..], id)
  }

  /** The sum of all votes: the "Total Votes" card. */
  function TotalVotes(fs: seq<Feature>): (n: int)
    ensures fs == [] ==> n == 0
    ensures (forall k :: 0 <= k < |fs| ==> fs[k].votes >= 0) ==> n >= 0
  {
    if fs == [] then 0 else fs[0].votes + TotalVotes(fs[1..])
  }

  /** A vote moves the total by one for each feature carrying the id. */
  lemma {:induction false} VoteMovesTotal(fs: seq<Feature>, id: string, up: bool)
    ensures TotalVotes(Voted(fs, id, up)) == TotalVotes(fs) + Delta(up) * WithId(fs, id)
  {
    if fs != [] {
      VoteMovesTotal(fs[1..], id, up);
      var r := Voted(fs, id, up);
      assert r == [Bump(fs[0], id, up)] + Voted(fs[1..], id, up);
      assert r[1..] == Voted(fs[1..], id, up);
      assert TotalVotes(r) == r[0].votes + TotalVotes(r[1..]);
      assert WithId(fs, id) == (if fs[0].id == id then 1 else 0) + WithId(fs[1..], id);
    }
  }

  // ----- progress and totals -----

  /** `getProgressPercentage`: the bar of a status name; rejected and unknown names show 0. */
  function Progress(status: string): (r: int)
    ensures 0 <= r <= 100
  {
    if status == "requested" then 10
    else if status == "under-review" then 25
    else if status == "approved" then 40
    else if status == "in-development" then 70
    else if status == "testing" then 90
    else if status == "deployed" then 100
    else 0
  }

  /** The position of a status on the way to deployment. */
  function Stage(s: FeatureStatus): nat
  {
    match s
    case Requested => 0
    case UnderReview => 1
    case Approved => 2
    case InDevelopment => 3
    case Testing => 4
    case Deployed => 5
    case Rejected => 0
  }

  /** Along the way to deployment the bar only grows, is full exactly when deployed, and a
      rejected request shows an empty bar. */
  lemma ProgressAlongPipeline(a: FeatureStatus, b: FeatureStatus)
    requires a != Rejected && b != Rejected && Stage(a) < Stage(b)
    ensures 0 < Progress(StatusName(a)) < Progress(StatusName(b))
    ensures Progress(StatusName(b)) == 100 <==> b == Deployed
    ensures Progress(StatusName(Rejected)) == 0
  {
  }

  /** The number of features in the given status. */
  function CountStatus(fs: seq<Feature>, s: FeatureStatus): (n: nat)
    ensures n <= |fs|
    ensures n == 0 <==> forall k :: 0 <= k < |fs| ==> fs[k].status != s
  {
    var r := Filter(fs, (f: Feature) => f.status == s);
    assert r != [] ==> r[0] in r;
    |r|
  }

  datatype Stats = Stats(total: nat, inDevelopment: nat, deployed: nat, votes: int)

  /** The four cards above the list. */
  function StatsOf(fs: seq<Feature>): (r: Stats)
    ensures r.inDevelopment + r.deployed <= r.total == |fs|
  {
    InDevelopmentAndDeployed(fs);
    Stats(|fs|, CountStatus(fs, InDevelopment), CountStatus(fs, Deployed), TotalVotes(fs))
  }

  /** A feature is never counted both in development and deployed. */
  lemma {:induction false} InDevelopmentAndDeployed(fs: seq<Feature>)
    ensures CountStatus(fs, InDevelopment) + CountStatus(fs, Deployed) <= |fs|
  {
    if fs != [] {
      InDevelopmentAndDeployed(fs[1..]);
      var p := (f: Feature) => f.status == InDevelopment;
      var q := (f: Feature) => f.status == Deployed;
      assert Filter(fs, p) == (if p(fs[0]) then [fs[0]] else []) + Filter(fs[1..], p);
      assert Filter(fs, q) == (if q(fs[0]) then [fs[0]] else []) + Filter(fs[1..], q);
    }
  }

  /** Voting changes only the vote total among the cards. */
  lemma VoteKeepsCounts(fs: seq<Feature>, id: string, up: bool, s: FeatureStatus)
    ensures CountStatus(Voted(fs, id, up), s) == CountStatus(fs, s)
  {
    var r := Voted(fs, id, up);
    FilterCongruentStatus(fs, r, s);
  }

  lemma {:induction false} FilterCongruentStatus(fs: seq<Feature>, r: seq<Feature>, s: FeatureStatus)
    requires |r| == |fs| && forall k :: 0 <= k < |fs| ==> r[k].status == fs[k].status
    ensures |Filter(r, (f: Feature) => f.status == s)| == |Filter(fs, (f: Feature) => f.status == s)|
  {
    if fs != [] {
      FilterCongruentStatus(fs[1..], r[1..], s);
    }
  }

  /** The filtered list copied into a fresh array and sorted there by the key `sortBy` names. */
  method SortedBy(f: seq<Feature>, sortBy: string) returns (r: seq<Feature>)
    ensures multiset(r) == multiset(f)
    ensures SortedDesc(r, sortBy)
    ensures !KnownKey(sortBy) ==> r == f
  {
    var a := new Feature[|f|](k requires 0 <= k < |f| => f[k]);
    assert a[..] == f;
    SortFeatures(a, g => Key(sortBy, g));
    if !KnownKey(sortBy) {
      UnknownKeyConstant(sortBy);
    }
    r := a[..];
  }

  // ----- the board -----

  class Board {
    var features: seq<Feature>
    var filteredFeatures: seq<Feature>
    var searchQuery: string
    var selectedCategory: string
    var selectedPriority: string
    var selectedStatus: string
    var sortBy: string

    /** The list shown is the filtered list, reordered by the sort key. */
    ghost predicate Valid()
      reads this
    {
      var f := Filtered(features, searchQuery, selectedCategory, selectedPriority, selectedStatus);
      && multiset(filteredFeatures) == multiset(f)
      && SortedDesc(filteredFeatures, sortBy)
      && (!KnownKey(sortBy) ==> filteredFeatures == f)
    }

    /** The board opens on the given requests, every filter on "all", sorted by votes. */
    constructor (initial: seq<Feature>)
      ensures Valid()
      ensures features == initial && searchQuery == "" && sortBy == "votes"
      ensures selectedCategory == "all" && selectedPriority == "all" && selectedStatus == "all"
    {
      features := initial;
      searchQuery := "";
      selectedCategory := "all";
      selectedPriority := "all";
      selectedStatus := "all";
      sortBy := "votes";
      var f := Filtered(initial, "", "all", "all", "all");
      var sorted := SortedBy(f, "votes");
      filteredFeatures := sorted;
    }

    /** The effect run whenever the features, the search, a filter or the sort key change. */
    method Refresh()
      modifies this`filteredFeatures
      ensures Valid()
    {
      var f := Filtered(features, searchQuery, selectedCategory, selectedPriority, selectedStatus);
      filteredFeatures := SortedBy(f, sortBy);
    }

    method SetFilters(query: string, category: string, priority: string, status: string, key: string)
      modifies this`searchQuery, this`selectedCategory, this`selectedPriority, this`selectedStatus, this`sortBy,
               this`filteredFeatures
      ensures Valid()
      ensures searchQuery == query && selectedCategory == category && selectedPriority == priority
      ensures selectedStatus == status && sortBy == key
    {
      searchQuery := query;
      selectedCategory := category;
      selectedPriority := priority;
      selectedStatus := status;
      sortBy := key;
      Refresh();
    }

    /** `handleVote`, followed by the effect it triggers. */
    method HandleVote(id: string, up: bool)
      modifies this`features, this`filteredFeatures
      ensures Valid()
      ensures features == Voted(old(features), id, up)
    {
      features := Voted(features, id, up);
      Refresh();
    }
  }

  /** Under an unknown sort key the list keeps its order. */
  method UnknownKeyKeepsOrder() returns (shown: seq<string>)
    ensures shown == ["a", "b"]
  {
    var x := Feature("a", "Chat", "", Communication, High, Requested, 1, 0);
    var y := Feature("b", "", "", Mobile, Low, Requested, 2, 1);
    NoFilterKeepsAll([x, y]);
    var board := new Board([x, y]);
    board.SetFilters("", "all", "all", "all", "other");
    shown := [board.filteredFeatures[0].id, board.filteredFeatures[1].id];
  }

  /** Sorted by votes, an up vote lifts a request above one it was tied with. */
  method VoteReorders(x: Feature, y: Feature) returns (shown: seq<string>)
    requires x.id != y.id && x.votes == y.votes
    ensures shown == [y.id, x.id]
  {
    var board := new Board([x, y]);
    board.HandleVote(y.id, true);
    var y' := y.(votes := y.votes + 1);
    VotedPair(x, y, y.id);
    NoFilterKeepsAll([x, y']);
    var list := board.filteredFeatures;
    assert multiset(list) == multiset([x, y']);
    assert SortedDesc(list, "votes");
    OrderOfTwo(list, x, y', "votes");
    shown := [list[0].id, list[1].id];
  }

  lemma VotedPair(x: Feature, y: Feature, id: string)
    requires x.id != id && y.id == id
    ensures Voted([x, y], id, true) == [x, y.(votes := y.votes + 1)]
  {
    assert [x, y][1..] == [y];
  }
}

=== FILE: message_model.dfy ===
/** The Message schema: its enumerations, its defaults and the `required` validation
    that `save()` runs before anything is stored. */
module MessageModel {
  import opened Wrappers

  /** Object ids of users, bookings, conversations and messages. */
  type Id = nat

  datatype MessageStatus = Sending | Sent | Delivered | Read

  datatype MessageType = Text | Image | File | Location | BookingUpdate | System

  datatype AttachmentType = ImageAttachment | FileAttachment

  datatype Attachment = Attachment(url: string, kind: AttachmentType, name: string, size: int)

  /** A stored message document; `createdAt`/`updatedAt` are the schema's timestamps. */
  datatype Message = Message(
    id: Id,
    conversationId: Id,
    senderId: Id,
    body: string,
    messageType: MessageType,
    attachments: seq<Attachment>,
    status: MessageStatus,
    translatedMessage: map<string, string>,
    isEdited: bool,
    editedAt: Option<int>,
    replyTo: Option<Id>,
    createdAt: int,
    updatedAt: int)

  /** What a caller hands to `new Message({...})`; `None` is a path left undefined. */
  datatype MessageFields = MessageFields(
    conversationId: Option<Id>,
    senderId: Option<Id>,
    body: Option<string>,
    messageType: Option<MessageType>,
    attachments: Option<seq<Attachment>>,
    status: Option<MessageStatus>,
    replyTo: Option<Id>)

  datatype RequiredField = ConversationIdField | SenderIdField | BodyField

  /** The required paths that are unset. A required String also fails on the empty string. */
  function MissingRequired(f: MessageFields): (missing: set<RequiredField>)
    ensures ConversationIdField in missing <==> f.conversationId.None?
    ensures SenderIdField in missing <==> f.senderId.None?
    ensures BodyField in missing <==> (f.body.None? || f.body.value == "")
  {
    (if f.conversationId.None? then {ConversationIdField} else {})
    + (if f.senderId.None? then {SenderIdField} else {})
    + (if f.body.None? || f.body.value == "" then {BodyField} else {})
  }

  /** `new Message(fields)` followed by the validation of `save()`: the schema defaults fill
      the unset paths, and a document with a missing required path is rejected. */
  function Create(id: Id, f: MessageFields, now: int): (r: Result<Message, set<RequiredField>>)
    ensures r.Err? <==> MissingRequired(f) != {}
    ensures r.Err? ==> r.error == MissingRequired(f)
    ensures r.Ok? ==> r.value.id == id && r.value.createdAt == now && r.value.updatedAt == now
    ensures r.Ok? ==> r.value.body != "" && Some(r.value.body) == f.body
    ensures r.Ok? ==> Some(r.value.conversationId) == f.conversationId && Some(r.value.senderId) == f.senderId
    ensures r.Ok? ==> r.value.status == f.status.GetOr(Sent)
    ensures r.Ok? ==> r.value.messageType == f.messageType.GetOr(Text)
    ensures r.Ok? ==> r.value.attachments == f.attachments.GetOr([])
    ensures r.Ok? ==> !r.value.isEdited && r.value.translatedMessage == map[] && r.value.editedAt.None?
    ensures r.Ok? ==> r.value.replyTo == f.replyTo
  {
    var missing := MissingRequired(f);
    if missing != {} then Err(missing)
    else Ok(Message(
      id, f.conversationId.value, f.senderId.value, f.body.value,
      f.messageType.GetOr(Text), f.attachments.GetOr([]), f.status.GetOr(Sent),
      map[], false, None, f.replyTo, now, now))
  }

  /** Position of a status along the lifecycle sending, sent, delivered, read. */
  function Rank(s: MessageStatus): (n: nat)
    ensures n <= 3
    ensures s == Sending <==> n == 0
    ensures s == Read <==> n == 3
  {
    match s
    case Sending => 0
    case Sent => 1
    case Delivered => 2
    case Read => 3
  }

  /** Each status has its own place in the lifecycle order. */
  lemma RankInjective(a: MessageStatus, b: MessageStatus)
    ensures Rank(a) == Rank(b) ==> a == b
  {
  }
}

=== FILE: recommended_features.dfy ===
/** The recommended-features catalogue: the fixed list of proposals, the lookups by priority
    and by category, the four-phase roadmap and the total of the estimated cost ranges. */
module RecommendedFeatures {
  import opened Wrappers
  import opened Seqs
  import opened Strings

  /** A proposal, with the fields the lookups and the cost total read. */
  datatype RecommendedFeature = RecommendedFeature(id: string, name: string, category: string, priority: string,
                                                   estimatedCost: string)

  const Catalogue: seq<RecommendedFeature> := [
    RecommendedFeature("real-time-chat", "Real-Time Chat System", "Communication", "Critical", "$15,000 - $25,000"),
    RecommendedFeature("mobile-app", "Native Mobile Application", "Mobile", "Critical", "$40,000 - $60,000"),
    RecommendedFeature("ai-recommendations", "AI-Powered Experience Recommendations", "AI/ML", "High", "$30,000 - $45,000"),
    RecommendedFeature("local-payments", "Ethiopian Payment Integration", "Payments", "Critical", "$20,000 - $35,000"),
    RecommendedFeature("group-booking", "Advanced Group Booking System", "Booking", "High", "$18,000 - $28,000"),
    RecommendedFeature("vr-previews", "Virtual Reality Experience Previews", "Innovation", "Medium", "$35,000 - $50,000"),
    RecommendedFeature("review-system", "Enhanced Review and Rating System", "Trust & Safety", "High", "$12,000 - $20,000"),
    RecommendedFeature("offline-maps", "Offline Maps and Navigation", "Navigation", "High", "$15,000 - $25,000"),
    RecommendedFeature("cultural-calendar", "Ethiopian Cultural Calendar Integration", "Localization", "Medium", "$8,000 - $15,000"),
    RecommendedFeature("sustainability-tracking", "Sustainability Impact Tracking", "Sustainability", "Medium", "$20,000 - $30,000")
  ]

  const FeatureCategories: seq<string> := [
    "Communication", "Mobile", "AI/ML", "Payments", "Booking",
    "Innovation", "Trust & Safety", "Navigation", "Localization", "Sustainability"
  ]

  const PriorityLevels: seq<string> := ["Critical", "High", "Medium", "Low"]

  /** Every proposal of the catalogue has one of the four priority levels and a listed category. */
  lemma CatalogueWellFormed()
    ensures forall k :: 0 <= k < |Catalogue| ==> Catalogue[k].priority in PriorityLevels
    ensures forall k :: 0 <= k < |Catalogue| ==> Catalogue[k].category in FeatureCategories
  {
    forall k | 0 <= k < |Catalogue|
      ensures Catalogue[k].priority in PriorityLevels && Catalogue[k].category in FeatureCategories
    {
      assert FeatureCategories[k] == Catalogue[k].category;
      if k < 2 || k == 3 {
        assert Catalogue[k].priority == PriorityLevels[0];
      } else if k == 2 || k == 4 || k == 6 || k == 7 {
        assert Catalogue[k].priority == PriorityLevels[1];
      } else {
        assert Catalogue[k].priority == PriorityLevels[2];
      }
    }
  }

  // ----- lookups and roadmap -----

  /** `getFeaturesByPriority`. */
  function ByPriority(fs: seq<RecommendedFeature>, priority: string): (r: seq<RecommendedFeature>)
    ensures forall f :: f in r <==> f in fs && f.priority == priority
    ensures IsSubsequence(r, fs)
    ensures forall f :: Occurrences(r, f) == if f.priority == priority then Occurrences(fs, f) else 0
  {
    var keep := (f: RecommendedFeature) => f.priority == priority;
    FilterCounts(fs, keep);
    Filter(fs, keep)
  }

  /** `getFeaturesByCategory`. */
  function ByCategory(fs: seq<RecommendedFeature>, category: string): (r: seq<RecommendedFeature>)
    ensures forall f :: f in r <==> f in fs && f.category == category
    ensures IsSubsequence(r, fs)
    ensures forall f :: Occurrences(r, f) == if f.category == category then Occurrences(fs, f) else 0
  {
    var keep := (f: RecommendedFeature) => f.category == category;
    FilterCounts(fs, keep);
    Filter(fs, keep)
  }

  datatype Roadmap = Roadmap(phase1: seq<RecommendedFeature>, phase2: seq<RecommendedFeature>,
                             phase3: seq<RecommendedFeature>, phase4: seq<RecommendedFeature>)

  /** `getImplementationRoadmap`: phase n holds the proposals of the n-th priority level. */
  function ImplementationRoadmap(fs: seq<RecommendedFeature>): (r: Roadmap)
    ensures forall f :: f in r.phase1 <==> f in fs && f.priority == PriorityLevels[0]
    ensures forall f :: f in r.phase2 <==> f in fs && f.priority == PriorityLevels[1]
    ensures forall f :: f in r.phase3 <==> f in fs && f.priority == PriorityLevels[2]
    ensures forall f :: f in r.phase4 <==> f in fs && f.priority == PriorityLevels[3]
    ensures IsSubsequence(r.phase1, fs) && IsSubsequence(r.phase2, fs)
    ensures IsSubsequence(r.phase3, fs) && IsSubsequence(r.phase4, fs)
    ensures forall f :: Occurrences(r.phase1, f) == if f.priority == PriorityLevels[0] then Occurrences(fs, f) else 0
    ensures forall f :: Occurrences(r.phase2, f) == if f.priority == PriorityLevels[1] then Occurrences(fs, f) else 0
    ensures forall f :: Occurrences(r.phase3, f) == if f.priority == PriorityLevels[2] then Occurrences(fs, f) else 0
    ensures forall f :: Occurrences(r.phase4, f) == if f.priority == PriorityLevels[3] then Occurrences(fs, f) else 0
  {
    Roadmap(ByPriority(fs, "Critical"), ByPriority(fs, "High"), ByPriority(fs, "Medium"), ByPriority(fs, "Low"))
  }

  function Phases(r: Roadmap): seq<RecommendedFeature>
  {
    r.phase1 + r.phase2 + r.phase3 + r.phase4
  }

  /** When every proposal has one of the four levels, the phases together are exactly as
      long as the list. */
  lemma {:induction false} RoadmapPartition(fs: seq<RecommendedFeature>)
    requires AllLeveled(fs)
    ensures |Phases(ImplementationRoadmap(fs))| == |fs|
  {
    if fs != [] {
      assert AllLeveled(fs[1..]) && IsLevel(fs[0].priority) by {
        assert forall k :: 0 <= k < |fs| - 1 ==> fs[1..][k] == fs[k + 1];
      }
      RoadmapPartition(fs[1..]);
      ByPriorityCons(fs, "Critical");
      ByPriorityCons(fs, "High");
      ByPriorityCons(fs, "Medium");
      ByPriorityCons(fs, "Low");
    }
  }

  /** Each proposal of such a list sits in exactly one phase: the one of its level. */
  lemma RoadmapDisjoint(fs: seq<RecommendedFeature>, f: RecommendedFeature)
    requires AllLeveled(fs) && f in fs
    ensures var r := ImplementationRoadmap(fs);
      (f in r.phase1 <==> f.priority == "Critical") && (f in r.phase2 <==> f.priority == "High")
      && (f in r.phase3 <==> f.priority == "Medium") && (f in r.phase4 <==> f.priority == "Low")
      && (f.priority == "Critical" || f.priority == "High" || f.priority == "Medium" || f.priority == "Low")
  {
    var k :| 0 <= k < |fs| && fs[k] == f;
    assert IsLevel(fs[k].priority);
  }

  predicate AllLeveled(fs: seq<RecommendedFeature>)
  {
    forall k :: 0 <= k < |fs| ==> IsLevel(fs[k].priority)
  }

  predicate IsLevel(p: string)
  {
    p == "Critical" || p == "High" || p == "Medium" || p == "Low"
  }

  /** The four levels are exactly the entries of `priorityLevels`. */
  lemma LevelsListed(p: string)
    ensures IsLevel(p) <==> p in PriorityLevels
  {
    if p in PriorityLevels {
      var i :| 0 <= i < 4 && PriorityLevels[i] == p;
      assert i == 0 || i == 1 || i == 2 || i == 3;
    }
    assert PriorityLevels[0] == "Critical" && PriorityLevels[1] == "High";
    assert PriorityLevels[2] == "Medium" && PriorityLevels[3] == "Low";
  }

  /** A lookup by priority over a list with a proposal in front. */
  lemma ByPriorityCons(fs: seq<RecommendedFeature>, level: string)
    requires fs != []
    ensures ByPriority(fs, level) == (if fs[0].priority == level then [fs[0]] else []) + ByPriority(fs[1..], level)
  {
  }

  /** The catalogue's four phases together hold as many entries as the catalogue. */
  lemma CatalogueRoadmap()
    ensures |Phases(ImplementationRoadmap(Catalogue))| == |Catalogue|
  {
    CatalogueWellFormed();
    forall k | 0 <= k < |Catalogue| ensures IsLevel(Catalogue[k].priority) {
      LevelsListed(Catalogue[k].priority);
    }
    RoadmapPartition(Catalogue);
  }

  // ----- cost ranges -----

  /** The characters `replace(/[$,]/g, "")` keeps. */
  predicate Kept(c: char) { c != '$' && c != ',' }

  /** `replace(/[$,]/g, "")`: every dollar sign and comma removed, the rest kept in order. */
  function Strip(s: string): (r: string)
    ensures |r| <= |s|
    ensures forall i :: 0 <= i < |r| ==> Kept(r[i])
  {
    if s == [] then [] else (if Kept(s[0]) then [s[0]] else []) + Strip(s[1..])
  }

  lemma {:induction false} StripAppend(a: string, b: string)
    ensures Strip(a + b) == Strip(a) + Strip(b)
  {
    if a == [] {
      assert a + b == b;
    } else {
      assert (a + b)[0] == a[0] && (a + b)[1..] == a[1..] + b;
      StripAppend(a[1..], b);
    }
  }

  /** The first position from `i` on where `sep` occurs in `s`. */
  function FindFrom(s: string, sep: string, i: nat): (r: Option<nat>)
    requires sep != [] && i <= |s|
    ensures r.Some? ==> i <= r.value && OccursAt(s, sep, r.value)
    ensures r.Some? ==> forall k :: i <= k < r.value ==> !OccursAt(s, sep, k)
    ensures r.None? ==> forall k :: i <= k <= |s| ==> !OccursAt(s, sep, k)
    decreases |s| - i
  {
    if OccursAt(s, sep, i) then Some(i)
    else if i == |s| then None
    else FindFrom(s, sep, i + 1)
  }

  /** `s.split(sep)` for a non-empty separator: the pieces between the occurrences, left to
      right. */
  function Split(s: string, sep: string): (parts: seq<string>)
    requires sep != []
    ensures parts != []
    decreases |s|
  {
    match FindFrom(s, sep, 0)
    case None => [s]
    case Some(i) => [s[..i]] + Split(s[i + |sep|..], sep)
  }

  /** `parts.join(sep)`. */
  function Join(parts: seq<string>, sep: string): string
    requires parts != []
  {
    if |parts| == 1 then parts[0] else parts[0] + sep + Join(parts[1..], sep)
  }

  /** Joining the pieces with the separator gives back the string that was split. */
  lemma {:induction false} SplitJoin(s: string, sep: string)
    requires sep != []
    ensures Join(Split(s, sep), sep) == s
    decreases |s|
  {
    match FindFrom(s, sep, 0)
    case None =>
    case Some(i) =>
      SplitJoin(s[i + |sep|..], sep);
      assert Split(s, sep)[1..] == Split(s[i + |sep|..], sep);
      assert s == s[..i] + s[i..i + |sep|] + s[i + |sep|..];
  }

  /** A string with no occurrence of the separator is one piece. */
  lemma SplitNone(s: string, sep: string)
    requires sep != []
    requires forall k :: !OccursAt(s, sep, k)
    ensures Split(s, sep) == [s]
  {
  }

  /** `(parseInt(range[0]) + parseInt(range[1])) / 2`, where `None` is `NaN`: a missing second
      part is `undefined`, which parses to `NaN`. */
  function AverageCost(cost: string): (r: Option<real>)
    ensures r.Some? ==> exists k :: OccursAt(Strip(cost), " - ", k)
  {
    SeparatorNeeded(Strip(cost));
    AverageOfParts(Strip(cost))
  }

  /** Without a ` - ` separator there is no second part to average. */
  lemma SeparatorNeeded(stripped: string)
    ensures (forall k :: !OccursAt(stripped, " - ", k)) ==> AverageOfParts(stripped).None?
  {
    if forall k :: !OccursAt(stripped, " - ", k) {
      SplitNone(stripped, " - ");
    }
  }

  /** The average of the first two ` - `-separated parts of a stripped amount. */
  function AverageOfParts(stripped: string): (r: Option<real>)
  {
    var range := Split(stripped, " - ");
    if |range| < 2 then None
    else
      match (ParseInt(range[0]), ParseInt(range[1]))
      case (Some(a), Some(b)) => Some(Mean(a, b))
      case _ => None
  }

  /** `(a + b) / 2` in exact arithmetic. */
  function Mean(a: int, b: int): real
  {
    (a + b) as real / 2.0
  }

  /** `NaN + x` is `NaN`. */
  function AddCost(a: Option<real>, b: Option<real>): (r: Option<real>)
    ensures r.Some? <==> a.Some? && b.Some?
  {
    if a.Some? && b.Some? then Some(a.value + b.value) else None
  }

  /** The running sum of a list of amounts, from the left. */
  function Sum(xs: seq<Option<real>>): Option<real>
  {
    if xs == [] then Some(0.0) else AddCost(Sum(xs[..|xs| - 1]), xs[|xs| - 1])
  }

  /** Each proposal's average. */
  function Averages(fs: seq<RecommendedFeature>): (xs: seq<Option<real>>)
    ensures |xs| == |fs|
  {
    seq(|fs|, k requires 0 <= k < |fs| => AverageCost(fs[k].estimatedCost))
  }

  /** `calculateTotalEstimatedCost`: the running sum of the averages. */
  function TotalCost(fs: seq<RecommendedFeature>): (r: Option<real>)
    ensures r.None? <==> exists k :: 0 <= k < |fs| && Averages(fs)[k].None?
  {
    SumNaN(Averages(fs));
    Sum(Averages(fs))
  }

  lemma AddCostAssociative(a: Option<real>, b: Option<real>, c: Option<real>)
    ensures AddCost(AddCost(a, b), c) == AddCost(a, AddCost(b, c))
  {
  }

  lemma {:induction false} SumAppend(xs: seq<Option<real>>, ys: seq<Option<real>>)
    ensures Sum(xs + ys) == AddCost(Sum(xs), Sum(ys))
    decreases |ys|
  {
    if ys == [] {
      assert xs + ys == xs;
    } else {
      var ys', y := ys[..|ys| - 1], ys[|ys| - 1];
      SumAppend(xs, ys');
      assert (xs + ys)[..|xs + ys| - 1] == xs + ys';
      assert (xs + ys)[|xs + ys| - 1] == y;
      AddCostAssociative(Sum(xs), Sum(ys'), y);
    }
  }

  lemma {:induction false} SumNaN(xs: seq<Option<real>>)
    ensures Sum(xs).None? <==> exists k :: 0 <= k < |xs| && xs[k].None?
  {
    if xs != [] {
      var init := xs[..|xs| - 1];
      SumNaN(init);
      if exists k :: 0 <= k < |init| && init[k].None? {
        var k :| 0 <= k < |init| && init[k].None?;
        assert xs[k] == init[k];
      }
      if exists k :: 0 <= k < |xs| && xs[k].None? {
        var k :| 0 <= k < |xs| && xs[k].None?;
        if k < |init| {
          assert init[k] == xs[k];
        }
      }
    }
  }

  /** The total of two lists run one after the other is the sum of their totals. */
  lemma TotalCostAppend(a: seq<RecommendedFeature>, b: seq<RecommendedFeature>)
    ensures TotalCost(a + b) == AddCost(TotalCost(a), TotalCost(b))
  {
    var ab := Averages(a) + Averages(b);
    forall k | 0 <= k < |a + b| ensures Averages(a + b)[k] == ab[k] {
      if k < |a| {
        assert (a + b)[k] == a[k];
      } else {
        assert (a + b)[k] == b[k - |a|];
      }
    }
    assert Averages(a + b) == ab;
    SumAppend(Averages(a), Averages(b));
  }

  /** The total is `NaN` exactly when some proposal's range does not parse. */
  lemma TotalCostNaN(fs: seq<RecommendedFeature>)
    ensures TotalCost(fs).None? <==> exists k :: 0 <= k < |fs| && AverageCost(fs[k].estimatedCost).None?
  {
    SumNaN(Averages(fs));
    if exists k :: 0 <= k < |fs| && AverageCost(fs[k].estimatedCost).None? {
      var k :| 0 <= k < |fs| && AverageCost(fs[k].estimatedCost).None?;
      assert Averages(fs)[k].None?;
    }
  }

  /** A cost written without the " - " separator has no second part, so its average is `NaN`. */
  lemma NoRangeIsNaN(cost: string)
    requires forall k :: !OccursAt(Strip(cost), " - ", k)
    ensures AverageCost(cost).None?
  {
    SplitNone(Strip(cost), " - ");
  }

  predicate AllDigits(d: string)
  {
    forall i :: 0 <= i < |d| ==> IsDigit(d[i])
  }

  /** Two runs of digits around the separator split into exactly those two runs. */
  lemma SplitRange(d1: string, d2: string)
    requires AllDigits(d1) && AllDigits(d2)
    ensures Split(d1 + " - " + d2, " - ") == [d1, d2]
  {
    var s := d1 + " - " + d2;
    forall k | 0 <= k < |d1| ensures !OccursAt(s, " - ", k) {
      assert IsDigit(s[k]);
    }
    assert s[|d1|..|d1| + 3] == " - ";
    var r := FindFrom(s, " - ", 0);
    assert r == Some(|d1|) by {
      assert OccursAt(s, " - ", |d1|);
    }
    assert s[|d1| + 3..] == d2;
    assert s[..|d1|] == d1;
    forall k | 0 <= k < |d2| ensures !OccursAt(d2, " - ", k) {
      assert IsDigit(d2[k]);
    }
    SplitNone(d2, " - ");
    assert Split(s, " - ") == [s[..|d1|]] + Split(s[|d1| + 3..], " - ");
  }

  /** Digits and thousands commas leave digits once stripped. */
  lemma {:induction false} StripDigits(a: string)
    requires forall i :: 0 <= i < |a| ==> IsDigit(a[i]) || a[i] == ','
    ensures AllDigits(Strip(a))
    decreases |a|
  {
    if a != [] {
      StripDigits(a[1..]);
    }
  }

  lemma StripRange(a: string, b: string)
    ensures Strip("$" + a + " - $" + b) == Strip(a) + " - " + Strip(b)
  {
    var x, y := "$" + a, "$" + a + " - $";
    StripAppend(y, b);
    StripAppend(x, " - $");
    StripAppend("$", a);
    StripLiterals();
  }

  lemma StripLiterals()
    ensures Strip("$") == "" && Strip(" - $") == " - "
  {
  }

  /** A stripped range of two digit runs averages the two amounts. */
  lemma DigitRangeAverage(a: string, b: string)
    requires a != [] && b != [] && AllDigits(a) && AllDigits(b)
    ensures AverageOfParts(a + " - " + b) == Some(Mean(DigitsValue(a), DigitsValue(b)))
  {
    SplitRange(a, b);
    DecimalParse(a);
    DecimalParse(b);
  }

  /** A range written `$a - $b`, with digits and thousands commas in `a` and `b`, averages the
      two amounts. */
  lemma RangeAverage(a: string, b: string)
    requires forall i :: 0 <= i < |a| ==> IsDigit(a[i]) || a[i] == ','
    requires forall i :: 0 <= i < |b| ==> IsDigit(b[i]) || b[i] == ','
    requires Strip(a) != [] && Strip(b) != []
    ensures AllDigits(Strip(a)) && AllDigits(Strip(b))
    ensures AverageCost("$" + a + " - $" + b)
      == Some(Mean(DigitsValue(Strip(a)), DigitsValue(Strip(b))))
  {
    StripDigits(a);
    StripDigits(b);
    var x := "$" + a + " - $" + b;
    assert AverageCost(x) == AverageOfParts(Strip(x));
    StripRange(a, b);
    DigitRangeAverage(Strip(a), Strip(b));
  }

  /** "15,000" and "25,000" read as 15000 and 25000. */
  lemma ThousandsLiterals()
    ensures Strip("15,000") == "15000" && Strip("25,000") == "25000"
  {
    assert "15,000" == "15," + "000" && "25,000" == "25," + "000";
    StripAppend("15,", "000");
    StripAppend("25,", "000");
  }

  lemma FifteenThousand()
    ensures DigitsValue("15000") == 15000
  {
    assert "15000"[..4] == "1500" && "1500"[..3] == "150" && "150"[..2] == "15" && "15"[..1] == "1";
  }

  lemma TwentyFiveThousand()
    ensures DigitsValue("25000") == 25000
  {
    assert "25000"[..4] == "2500" && "2500"[..3] == "250" && "250"[..2] == "25" && "25"[..1] == "2";
  }

  /** The first proposal's range averages to 20,000. */
  lemma FirstRange()
    ensures AverageCost(Catalogue[0].estimatedCost) == Some(20000.0)
  {
    assert Catalogue[0].estimatedCost == "$" + "15,000" + " - $" + "25,000";
    ThousandsLiterals();
    RangeAverage("15,000", "25,000");
    FifteenThousand();
    TwentyFiveThousand();
  }
}

=== FILE: seqs.dfy ===
/** Sequence helpers shared by the models: the `filter`, `find` and index-removal
    idioms that the client components and the REST layer are written with. */
module Seqs {

  /** `xs.filter(p)`: the elements that satisfy `p`, in their original order. */
  function Filter<T>(s: seq<T>, p: T -> bool): (r: seq<T>)
    ensures |r| <= |s|
    ensures forall x :: x in r ==> x in s && p(x)
    ensures forall i :: 0 <= i < |s| && p(s[i]) ==> s[i] in r
    ensures multiset(r) <= multiset(s)
  {
    if s == [] then []
    else
      assert s == [s[0]] + s[1..];
      if p(s[0]) then [s[0]] + Filter(s[1..], p) else Filter(s[1..], p)
  }

  /** `r` can be obtained from `s` by deleting elements, keeping the order of the rest. */
  predicate IsSubsequence<T(==)>(r: seq<T>, s: seq<T>)
  {
    if r == [] then true
    else if s == [] then false
    else if r[0] == s[0] then IsSubsequence(r[1..], s[1..])
    else IsSubsequence(r, s[1..])
  }

  /** A subsequence of the tail is a subsequence of the whole. */
  lemma {:induction false} SubsequenceOfTail<T>(r: seq<T>, s: seq<T>)
    requires s != [] && IsSubsequence(r, s[1..])
    ensures IsSubsequence(r, s)
    decreases |s|, 0
  {
    if r != [] && r[0] == s[0] {
      SubsequenceDropHead(r, s[1..]);
    }
  }

  /** Dropping the first element of a subsequence keeps it a subsequence. */
  lemma {:induction false} SubsequenceDropHead<T>(r: seq<T>, s: seq<T>)
    requires r != [] && IsSubsequence(r, s)
    ensures IsSubsequence(r[1..], s)
    decreases |s|, 1
  {
    if r[0] == s[0] {
      if r[1..] != [] {
        SubsequenceOfTail(r[1..], s);
      }
    } else {
      SubsequenceDropHead(r, s[1..]);
      if r[1..] != [] {
        SubsequenceOfTail(r[1..], s);
      }
    }
  }

  lemma {:induction false} FilterIsSubsequence<T>(s: seq<T>, p: T -> bool)
    ensures IsSubsequence(Filter(s, p), s)
  {
    if s != [] {
      FilterIsSubsequence(s[1..], p);
      if !p(s[0]) && Filter(s[1..], p) != [] {
        SubsequenceOfTail(Filter(s[1..], p), s);
      }
    }
  }

  /** Filtering with a predicate that holds of every element keeps the whole sequence. */
  lemma {:induction false} FilterAll<T>(s: seq<T>, p: T -> bool)
    requires forall i :: 0 <= i < |s| ==> p(s[i])
    ensures Filter(s, p) == s
  {
    if s != [] {
      FilterAll(s[1..], p);
    }
  }

  /** Filtering with a predicate that holds of no element yields nothing. */
  lemma {:induction false} FilterNone<T>(s: seq<T>, p: T -> bool)
    requires forall i :: 0 <= i < |s| ==> !p(s[i])
    ensures Filter(s, p) == []
  {
    if s != [] {
      FilterNone(s[1..], p);
    }
  }

  lemma {:induction false} FilterAppend<T>(a: seq<T>, b: seq<T>, p: T -> bool)
    ensures Filter(a + b, p) == Filter(a, p) + Filter(b, p)
  {
    if a == [] {
      assert a + b == b;
    } else {
      assert (a + b)[1..] == a[1..] + b;
      FilterAppend(a[1..], b, p);
    }
  }

  /** Two predicates that agree on every element filter alike. */
  lemma {:induction false} FilterCongruent<T>(s: seq<T>, p: T -> bool, q: T -> bool)
    requires forall i :: 0 <= i < |s| ==> p(s[i]) == q(s[i])
    ensures Filter(s, p) == Filter(s, q)
  {
    if s != [] {
      FilterCongruent(s[1..], p, q);
    }
  }

  /** Filtering with `p` then with `q` is filtering with both. */
  lemma {:induction false} FilterFilter<T>(s: seq<T>, p: T -> bool, q: T -> bool)
    ensures Filter(Filter(s, p), q) == Filter(s, x => p(x) && q(x))
  {
    if s != [] {
      FilterFilter(s[1..], p, q);
    }
  }

  /** Number of positions of `s` holding `x`. */
  function Occurrences<T(==)>(s: seq<T>, x: T): (n: nat)
    ensures n <= |s|
    ensures n == 0 <==> x !in s
  {
    if s == [] then 0 else (if s[0] == x then 1 else 0) + Occurrences(s[1..], x)
  }

  lemma {:induction false} OccurrencesAppend<T>(a: seq<T>, b: seq<T>, x: T)
    ensures Occurrences(a + b, x) == Occurrences(a, x) + Occurrences(b, x)
  {
    if a == [] {
      assert a + b == b;
    } else {
      assert (a + b)[1..] == a[1..] + b;
      OccurrencesAppend(a[1..], b, x);
    }
  }

  /** Filtering keeps every copy of a value that satisfies the predicate and no copy of one
      that does not. */
  lemma {:induction false} FilterOccurrences<T>(s: seq<T>, p: T -> bool, x: T)
    ensures Occurrences(Filter(s, p), x) == if p(x) then Occurrences(s, x) else 0
  {
    if s != [] {
      FilterOccurrences(s[1..], p, x);
      if p(s[0]) {
        OccurrencesAppend([s[0]], Filter(s[1..], p), x);
      }
    }
  }

  /** `Filter` is the order-keeping subsequence holding exactly the copies that satisfy `p`. */
  lemma FilterCounts<T>(s: seq<T>, p: T -> bool)
    ensures IsSubsequence(Filter(s, p), s)
    ensures forall x :: Occurrences(Filter(s, p), x) == if p(x) then Occurrences(s, x) else 0
  {
    FilterIsSubsequence(s, p);
    forall x ensures Occurrences(Filter(s, p), x) == if p(x) then Occurrences(s, x) else 0 {
      FilterOccurrences(s, p, x);
    }
  }

  /** No value occurs twice. */
  predicate NoDuplicates<T(==)>(s: seq<T>)
  {
    forall i, j :: 0 <= i < j < |s| ==> s[i] != s[j]
  }

  lemma {:induction false} OccurrencesOfDistinct<T>(s: seq<T>, x: T)
    requires NoDuplicates(s)
    ensures Occurrences(s, x) == if x in s then 1 else 0
  {
    if s != [] {
      assert NoDuplicates(s[1..]) by {
        forall i, j | 0 <= i < j < |s[1..]| ensures s[1..][i] != s[1..][j] {
          assert s[1..][i] == s[i + 1] && s[1..][j] == s[j + 1];
        }
      }
      OccurrencesOfDistinct(s[1..], x);
      if s[0] == x {
        assert x !in s[1..] by {
          forall k | 0 <= k < |s[1..]| ensures s[1..][k] != x {
            assert s[1..][k] == s[k + 1];
          }
        }
      }
    }
  }

  /** `xs.filter((_, i) => i !== index)`: drop position `index`; an index outside
      the sequence drops nothing. */
  function RemoveAt<T>(s: seq<T>, index: int): (r: seq<T>)
    ensures 0 <= index < |s| ==> |r| == |s| - 1
    ensures 0 <= index < |s| ==> forall i :: 0 <= i < index ==> r[i] == s[i]
    ensures 0 <= index < |s| ==> forall i :: index <= i < |r| ==> r[i] == s[i + 1]
    ensures !(0 <= index < |s|) ==> r == s
  {
    if 0 <= index < |s| then s[..index] + s[index + 1..] else s
  }

  /** The reversal of a sequence, as `Array.prototype.reverse` leaves it. */
  function Reverse<T>(s: seq<T>): (r: seq<T>)
    ensures |r| == |s|
  {
    if s == [] then [] else Reverse(s[1..]) + [s[0]]
  }

  lemma {:induction false} ReverseAt<T>(s: seq<T>, k: nat)
    requires k < |s|
    ensures Reverse(s)[k] == s[|s| - 1 - k]
  {
    if k < |s| - 1 {
      ReverseAt(s[1..], k);
    }
  }

  lemma ReverseReverse<T>(s: seq<T>)
    ensures Reverse(Reverse(s)) == s
  {
    forall k | 0 <= k < |s| ensures Reverse(Reverse(s))[k] == s[k] {
      ReverseAt(Reverse(s), k);
      ReverseAt(s, |s| - 1 - k);
    }
  }
}

=== FILE: signup_form.dfy ===
/** The sign-up form: the password strength meter, its four displayed requirements, the
    label and colour bands, and the order in which submission is refused. */
module SignupForm {
  import opened Wrappers
  import opened Strings

  predicate IsLowerLetter(c: char) { 'a' <= c <= 'z' }

  predicate IsUpperLetter(c: char) { 'A' <= c <= 'Z' }

  /** `[^a-zA-Z\d]`: anything but an ASCII letter or digit. */
  predicate IsSpecial(c: char) { !IsLowerLetter(c) && !IsUpperLetter(c) && !IsDigit(c) }

  predicate HasLower(p: string) { exists i :: 0 <= i < |p| && IsLowerLetter(p[i]) }

  predicate HasUpper(p: string) { exists i :: 0 <= i < |p| && IsUpperLetter(p[i]) }

  predicate HasDigit(p: string) { exists i :: 0 <= i < |p| && IsDigit(p[i]) }

  predicate HasSpecial(p: string) { exists i :: 0 <= i < |p| && IsSpecial(p[i]) }

  datatype Requirement = Requirement(met: bool, text: string)

  /** `passwordRequirements`: the checklist shown under the password field. */
  function Requirements(p: string): (rs: seq<Requirement>)
    ensures |rs| == 4
    ensures rs[0].met <==> |p| >= 8
    ensures rs[1].met <==> HasLower(p) && HasUpper(p)
    ensures rs[2].met <==> HasDigit(p)
    ensures rs[3].met <==> HasSpecial(p)
  {
    [ Requirement(|p| >= 8, "At least 8 characters"),
      Requirement(HasLower(p) && HasUpper(p), "Upper & lowercase letters"),
      Requirement(HasDigit(p), "Contains a number"),
      Requirement(HasSpecial(p), "Contains special character") ]
  }

  function MetCount(rs: seq<Requirement>): (n: nat)
    ensures n <= |rs|
    ensures n == |rs| <==> forall k :: 0 <= k < |rs| ==> rs[k].met
    ensures n == 0 <==> forall k :: 0 <= k < |rs| ==> !rs[k].met
  {
    if rs == [] then 0 else (if rs[0].met then 1 else 0) + MetCount(rs[1..])
  }

  function Count(b: bool): nat { if b then 1 else 0 }

  /** The met count of a four-item checklist, item by item. */
  lemma {:induction false} MetCountOfFour(rs: seq<Requirement>)
    requires |rs| == 4
    ensures MetCount(rs) == Count(rs[0].met) + Count(rs[1].met) + Count(rs[2].met) + Count(rs[3].met)
  {
    var r1, r2, r3 := rs[1..], rs[2..], rs[3..];
    assert r1[1..] == r2 && r2[1..] == r3 && r3[1..] == [];
    assert MetCount(r3) == Count(rs[3].met);
    assert MetCount(r2) == Count(rs[2].met) + MetCount(r3);
    assert MetCount(r1) == Count(rs[1].met) + MetCount(r2);
  }

  /** The strength the meter shows: 25 for each requirement of the checklist that is met. */
  function Strength(p: string): nat
  {
    25 * MetCount(Requirements(p))
  }

  /** `calculatePasswordStrength`: four independent tests, each adding 25. */
  method CalculatePasswordStrength(p: string) returns (strength: nat)
    ensures strength == Strength(p)
    ensures strength in {0, 25, 50, 75, 100}
    ensures strength == 100 <==> forall k :: 0 <= k < 4 ==> Requirements(p)[k].met
  {
    strength := 0;
    if |p| >= 8 {
      strength := strength + 25;
    }
    if HasLower(p) && HasUpper(p) {
      strength := strength + 25;
    }
    if HasDigit(p) {
      strength := strength + 25;
    }
    if HasSpecial(p) {
      strength := strength + 25;
    }
    MetCountOfFour(Requirements(p));
  }

  /** The band of a strength: up to 25, up to 50, up to 75, above. */
  function Band(strength: int): (b: nat)
    ensures b <= 3
    ensures b == 0 <==> strength <= 25
    ensures b == 3 <==> strength > 75
  {
    if strength <= 25 then 0 else if strength <= 50 then 1 else if strength <= 75 then 2 else 3
  }

  const Labels: seq<string> := ["Weak", "Fair", "Good", "Strong"]
  const Colors: seq<string> := ["bg-red-500", "bg-orange-500", "bg-yellow-500", "bg-green-500"]

  /** `getPasswordStrengthText`. */
  function StrengthText(strength: int): (t: string)
    ensures t == Labels[Band(strength)]
  {
    if strength <= 25 then "Weak" else if strength <= 50 then "Fair" else if strength <= 75 then "Good" else "Strong"
  }

  /** `getPasswordStrengthColor`. */
  function StrengthColor(strength: int): (c: string)
    ensures c == Colors[Band(strength)]
  {
    if strength <= 25 then "bg-red-500" else if strength <= 50 then "bg-orange-500"
    else if strength <= 75 then "bg-yellow-500" else "bg-green-500"
  }

  /** A stronger password never shows a lower band, and the label and the colour always
      name the same band. */
  lemma BandsMonotone(a: int, b: int)
    requires a <= b
    ensures Band(a) <= Band(b)
    ensures StrengthText(a) == "Weak" <==> StrengthColor(a) == "bg-red-500"
    ensures StrengthText(a) == "Strong" <==> StrengthColor(a) == "bg-green-500"
  {
  }

  /** A password meeting `n` requirements shows the label of band `n - 1`, or Weak. */
  lemma {:induction false} LabelByCount(p: string)
    ensures var n := MetCount(Requirements(p));
      StrengthText(Strength(p)) == Labels[if n == 0 then 0 else n - 1]
  {
    MetCountOfFour(Requirements(p));
  }

  datatype FormData = FormData(fullName: string, email: string, password: string, confirmPassword: string, role: string)

  /** The first failed check of `handleSubmit`, in the order the form runs them. */
  function SubmitError(d: FormData, agreeToTerms: bool): (r: Option<string>)
    ensures r.None? <==> d.password == d.confirmPassword && Strength(d.password) >= 50 && agreeToTerms
    ensures d.password != d.confirmPassword ==> r == Some("Passwords do not match")
    ensures d.password == d.confirmPassword && Strength(d.password) < 50 ==> r == Some("Please choose a stronger password")
    ensures d.password == d.confirmPassword && Strength(d.password) >= 50 && !agreeToTerms ==>
      r == Some("Please agree to the terms and conditions")
  {
    if d.password != d.confirmPassword then Some("Passwords do not match")
    else if Strength(d.password) < 50 then Some("Please choose a stronger password")
    else if !agreeToTerms then Some("Please agree to the terms and conditions")
    else None
  }

  /** `disabled={isLoading || !agreeToTerms}`. */
  predicate SubmitDisabled(isLoading: bool, agreeToTerms: bool)
  {
    isLoading || !agreeToTerms
  }

  /** A request the form lets through has matching passwords of at least two requirements,
      and could only come from an enabled button. */
  lemma SubmitGuards(d: FormData, agreeToTerms: bool)
    requires SubmitError(d, agreeToTerms).None?
    ensures d.password == d.confirmPassword && MetCount(Requirements(d.password)) >= 2
    ensures !SubmitDisabled(false, agreeToTerms)
  {
  }

  class Form {
    var data: FormData
    var agreeToTerms: bool
    var error: string
    var isLoading: bool

    constructor ()
      ensures data == FormData("", "", "", "", "tourist") && !agreeToTerms && error == "" && !isLoading
    {
      data := FormData("", "", "", "", "tourist");
      agreeToTerms := false;
      error := "";
      isLoading := false;
    }

    method Edit(d: FormData, agree: bool)
      modifies this`data, this`agreeToTerms
      ensures data == d && agreeToTerms == agree
    {
      data := d;
      agreeToTerms := agree;
    }

    /** `handleSubmit` up to the simulated request: the error is cleared, then set by the
        first failed check; when every check passes, loading starts. */
    method HandleSubmit() returns (proceed: bool)
      modifies this`error, this`isLoading
      ensures proceed <==> SubmitError(data, agreeToTerms).None?
      ensures error == SubmitError(data, agreeToTerms).GetOr("")
      ensures isLoading == (proceed || old(isLoading))
    {
      error := "";
      if data.password != data.confirmPassword {
        error := "Passwords do not match";
        return false;
      }
      var strength := CalculatePasswordStrength(data.password);
      if strength < 50 {
        error := "Please choose a stronger password";
        return false;
      }
      if !agreeToTerms {
        error := "Please agree to the terms and conditions";
        return false;
      }
      isLoading := true;
      return true;
    }

    /** The end of the simulated request. */
    method SubmitFinished()
      modifies this`isLoading
      ensures !isLoading
    {
      isLoading := false;
    }
  }

  /** "abc" meets none of the requirements. */
  lemma WeakExample()
    ensures Strength("abc") == 0
  {
    MetCountOfFour(Requirements("abc"));
    assert !HasUpper("abc") && !HasDigit("abc") && !HasSpecial("abc");
  }

  /** "Abcdefg1" meets every requirement but the special character. */
  lemma GoodExample()
    ensures Strength("Abcdefg1") == 75
  {
    var p := "Abcdefg1";
    MetCountOfFour(Requirements(p));
    assert IsUpperLetter(p[0]) && IsLowerLetter(p[1]) && IsDigit(p[7]);
    assert forall i :: 0 <= i < |p| ==> !IsSpecial(p[i]);
  }

  /** A mismatch is reported before a weak password, and a weak password before the terms. */
  method SubmitOrder() returns (first: string, second: string, third: string, accepted: bool)
    ensures first == "Passwords do not match"
    ensures second == "Please choose a stronger password"
    ensures third == "Please agree to the terms and conditions"
    ensures accepted
  {
    WeakExample();
    GoodExample();
    var f := new Form();
    f.Edit(FormData("Ana", "a@b.c", "abc", "abd", "tourist"), false);
    var _ := f.HandleSubmit();
    first := f.error;
    f.Edit(FormData("Ana", "a@b.c", "abc", "abc", "tourist"), false);
    var _ := f.HandleSubmit();
    second := f.error;
    f.Edit(FormData("Ana", "a@b.c", "Abcdefg1", "Abcdefg1", "tourist"), false);
    var _ := f.HandleSubmit();
    third := f.error;
    f.Edit(FormData("Ana", "a@b.c", "Abcdefg1", "Abcdefg1", "tourist"), true);
    accepted := f.HandleSubmit();
  }
}

=== FILE: strings.dfy ===
/** The JavaScript string operations the components rely on, restricted to ASCII:
    `toLowerCase`, `includes`, `startsWith`, `trim` and `Number.parseInt` without a radix. */
module Strings {
  import opened Wrappers

  function LowerChar(c: char): (r: char)
    ensures 'A' <= c <= 'Z' ==> 'a' <= r <= 'z'
    ensures !('A' <= c <= 'Z') ==> r == c
  {
    if 'A' <= c <= 'Z' then (c as int - 'A' as int + 'a' as int) as char else c
  }

  /** `s.toLowerCase()` on ASCII text. */
  function Lower(s: string): (r: string)
    ensures |r| == |s|
    ensures forall i :: 0 <= i < |s| ==> r[i] == LowerChar(s[i])
  {
    seq(|s|, i requires 0 <= i < |s| => LowerChar(s[i]))
  }

  lemma LowerIdempotent(s: string)
    ensures Lower(Lower(s)) == Lower(s)
  {
  }

  /** `s.startsWith(prefix)`. */
  predicate StartsWith(s: string, prefix: string)
  {
    |prefix| <= |s| && s[..|prefix|] == prefix
  }

  /** `s.includes(sub)`: `sub` occurs somewhere in `s` as a contiguous block. */
  predicate Includes(s: string, sub: string)
    decreases |s|
  {
    StartsWith(s, sub) || (s != [] && Includes(s[1..], sub))
  }

  /** Whatever `s` contains is no longer than `s`. */
  lemma {:induction false} IncludesLength(s: string, sub: string)
    requires Includes(s, sub)
    ensures |sub| <= |s|
    decreases |s|
  {
    if !StartsWith(s, sub) {
      IncludesLength(s[1..], sub);
    }
  }

  /** `sub` occurs in `s` starting at position `i`. */
  predicate OccursAt(s: string, sub: string, i: int)
  {
    0 <= i <= |s| - |sub| && s[i..i + |sub|] == sub
  }

  /** `Includes` agrees with the positional reading of a substring occurrence. */
  lemma {:induction false} IncludesAt(s: string, sub: string)
    ensures Includes(s, sub) <==> exists i :: OccursAt(s, sub, i)
    decreases |s|
  {
    if s != [] {
      IncludesAt(s[1..], sub);
      if exists i :: OccursAt(s, sub, i) {
        var i :| OccursAt(s, sub, i);
        if i > 0 {
          assert s[1..][i - 1..i - 1 + |sub|] == sub;
          assert OccursAt(s[1..], sub, i - 1);
        }
      }
      if Includes(s[1..], sub) && !StartsWith(s, sub) {
        var i :| OccursAt(s[1..], sub, i);
        assert s[i + 1..i + 1 + |sub|] == sub;
        assert OccursAt(s, sub, i + 1);
      }
      if StartsWith(s, sub) {
        assert OccursAt(s, sub, 0);
      }
    } else {
      if exists i :: OccursAt(s, sub, i) {
        var i :| OccursAt(s, sub, i);
        assert StartsWith(s, sub);
      }
      if Includes(s, sub) {
        assert OccursAt(s, sub, 0);
      }
    }
  }

  /** Every string includes the empty string, so an empty search query matches everything. */
  lemma IncludesEmpty(s: string)
    ensures Includes(s, "")
  {
  }

  /** The ASCII characters that `String.prototype.trim` removes. */
  predicate IsWhitespace(c: char)
  {
    c == ' ' || c == '\t' || c == '\n' || c == '\r' || c == '\U{000B}' || c == '\U{000C}'
  }

  function TrimStart(s: string): (r: string)
    ensures |r| <= |s|
    ensures r == s[|s| - |r|..]
    ensures r != [] ==> !IsWhitespace(r[0])
    ensures forall i :: 0 <= i < |s| - |r| ==> IsWhitespace(s[i])
  {
    if s != [] && IsWhitespace(s[0]) then TrimStart(s[1..]) else s
  }

  function TrimEnd(s: string): (r: string)
    ensures |r| <= |s|
    ensures r == s[..|r|]
    ensures r != [] ==> !IsWhitespace(r[|r| - 1])
    ensures forall i :: |r| <= i < |s| ==> IsWhitespace(s[i])
  {
    if s != [] && IsWhitespace(s[|s| - 1]) then TrimEnd(s[..|s| - 1]) else s
  }

  /** `s.trim()`. */
  function Trim(s: string): string
  {
    TrimEnd(TrimStart(s))
  }

  /** `s.trim()` is empty exactly when every character of `s` is whitespace. */
  lemma TrimEmptyIffBlank(s: string)
    ensures Trim(s) == "" <==> forall i :: 0 <= i < |s| ==> IsWhitespace(s[i])
  {
  }

  predicate IsDigit(c: char)
  {
    '0' <= c <= '9'
  }

  /** The longest prefix of `s` made of decimal digits. */
  function DigitPrefix(s: string): (r: string)
    ensures |r| <= |s| && r == s[..|r|]
    ensures forall i :: 0 <= i < |r| ==> IsDigit(r[i])
    ensures |r| < |s| ==> !IsDigit(s[|r|])
  {
    if s != [] && IsDigit(s[0]) then [s[0]] + DigitPrefix(s[1..]) else []
  }

  /** The value of a run of decimal digits, most significant first. */
  function DigitsValue(d: string): (n: nat)
    requires forall i :: 0 <= i < |d| ==> IsDigit(d[i])
  {
    if d == [] then 0
    else
      assert IsDigit(d[|d| - 1]);
      10 * DigitsValue(d[..|d| - 1]) + (d[|d| - 1] as int - '0' as int)
  }

  predicate IsHexDigit(c: char)
  {
    IsDigit(c) || 'a' <= c <= 'f' || 'A' <= c <= 'F'
  }

  function HexDigitValue(c: char): (n: nat)
    requires IsHexDigit(c)
    ensures n < 16
  {
    if IsDigit(c) then c as int - '0' as int
    else if 'a' <= c <= 'f' then c as int - 'a' as int + 10
    else c as int - 'A' as int + 10
  }

  /** The longest prefix of `s` made of hexadecimal digits. */
  function HexPrefix(s: string): (r: string)
    ensures |r| <= |s| && r == s[..|r|]
    ensures forall i :: 0 <= i < |r| ==> IsHexDigit(r[i])
    ensures |r| < |s| ==> !IsHexDigit(s[|r|])
  {
    if s != [] && IsHexDigit(s[0]) then [s[0]] + HexPrefix(s[1..]) else []
  }

  /** The value of a run of hexadecimal digits, most significant first. */
  function HexValue(d: string): (n: nat)
    requires forall i :: 0 <= i < |d| ==> IsHexDigit(d[i])
  {
    if d == [] then 0
    else
      assert IsHexDigit(d[|d| - 1]);
      16 * HexValue(d[..|d| - 1]) + HexDigitValue(d[|d| - 1])
  }

  /** Without a radix, `parseInt` reads a `0x` or `0X` prefix after the sign as base 16. */
  predicate HexPrefixed(u: string)
  {
    |u| >= 2 && u[0] == '0' && (u[1] == 'x' || u[1] == 'X')
  }

  /** The digits `parseInt` reads after the sign, and their value. */
  function Magnitude(u: string): Option<nat>
  {
    if HexPrefixed(u) then
      var h := HexPrefix(u[2..]);
      if h == [] then None else Some(HexValue(h))
    else
      var d := DigitPrefix(u);
      if d == [] then None else Some(DigitsValue(d))
  }

  /** `Number.parseInt(s)` with no radix: leading whitespace, an optional sign, then either
      `0x`/`0X` and the longest run of hexadecimal digits, or the longest run of decimal
      digits; `None` stands for `NaN`, which is what a string without such a run gives. */
  function ParseInt(s: string): (r: Option<int>)
    ensures var u := SkipSign(TrimStart(s));
      r.None? <==> if HexPrefixed(u) then HexPrefix(u[2..]) == [] else DigitPrefix(u) == []
    ensures var t := TrimStart(s);
      r.Some? ==> r.value == (if t[0] == '-' then -1 else 1) * Magnitude(SkipSign(t)).value
  {
    var t := TrimStart(s);
    match Magnitude(SkipSign(t))
    case None => None
    case Some(n) => if t[0] == '-' then Some(0 - n) else Some(n)
  }

  /** A decimal run is read in base 10. */
  lemma DecimalParse(d: string)
    requires d != [] && forall i :: 0 <= i < |d| ==> IsDigit(d[i])
    ensures ParseInt(d) == Some(DigitsValue(d) as int)
  {
    assert IsDigit(d[0]) && !IsWhitespace(d[0]) && d[0] != '-' && d[0] != '+';
    assert TrimStart(d) == d;
    assert SkipSign(d) == d;
    DecimalMagnitude(d);
  }

  lemma DecimalMagnitude(d: string)
    requires d != [] && forall i :: 0 <= i < |d| ==> IsDigit(d[i])
    ensures Magnitude(d) == Some(DigitsValue(d))
  {
    assert !HexPrefixed(d) by {
      if |d| >= 2 {
        assert IsDigit(d[1]);
      }
    }
    DigitPrefixAll(d);
  }

  lemma {:induction false} DigitPrefixAll(d: string)
    requires forall i :: 0 <= i < |d| ==> IsDigit(d[i])
    ensures DigitPrefix(d) == d
  {
    if d != [] {
      DigitPrefixAll(d[1..]);
    }
  }

  /** `parseInt("0x10")` is sixteen. */
  lemma HexParse()
    ensures ParseInt("0x10") == Some(16)
  {
    var s := "0x10";
    assert !IsWhitespace(s[0]) && s[0] != '-' && s[0] != '+';
    assert TrimStart(s) == s && SkipSign(s) == s && HexPrefixed(s);
    var h := s[2..];
    assert h == "10";
    assert HexPrefix(h[1..][1..]) == [];
    assert HexPrefix(h) == h;
    assert HexValue(h[..1]) == 1 by {
      assert h[..1][..0] == [];
    }
    assert HexValue(h) == 16;
  }

  function SkipSign(t: string): string
  {
    if t != [] && (t[0] == '-' || t[0] == '+') then t[1..] else t
  }
}

=== FILE: welcome_flow.dfy ===
/** The onboarding flow shown after sign-up: a per-role configuration of three steps, a step
    counter moved by the Previous and Next buttons, the progress dots and the badge. */
module WelcomeFlow {

  datatype WelcomeRole = Tourist | Host | Guide

  datatype Step = Step(title: string, description: string, features: seq<string>)

  datatype RoleConfig = RoleConfig(icon: string, color: string, title: string, subtitle: string, steps: seq<Step>)

  const TouristConfig: RoleConfig := RoleConfig(
    "Camera", "bg-blue-500", "Welcome, Explorer!", "Ready to discover authentic Ethiopian culture?",
    [ Step("Discover Authentic Experiences", "Browse unique cultural experiences hosted by local families",
           ["Traditional coffee ceremonies", "Home-cooked meals", "Cultural storytelling", "Local crafts workshops"]),
      Step("Connect with Local Families", "Meet warm Ethiopian families eager to share their culture",
           ["Verified host families", "Real reviews from travelers", "Direct messaging", "Cultural exchange"]),
      Step("Book Your Adventure", "Easy booking with flexible cancellation policies",
           ["Secure payments", "Instant confirmation", "Travel insurance options", "24/7 support"]) ])

  const HostConfig: RoleConfig := RoleConfig(
    "Heart", "bg-red-500", "Welcome, Host Family!", "Share your beautiful culture with the world",
    [ Step("Create Your Experience", "Showcase what makes your family and culture special",
           ["Photo galleries", "Experience descriptions", "Pricing tools", "Availability calendar"]),
      Step("Welcome Guests", "Connect with travelers seeking authentic experiences",
           ["Guest messaging", "Booking management", "Review system", "Payment processing"]),
      Step("Earn & Share", "Generate income while sharing your heritage",
           ["Competitive earnings", "Fast payouts", "Host community", "Cultural pride"]) ])

  const GuideConfig: RoleConfig := RoleConfig(
    "MapPin", "bg-green-500", "Welcome, Cultural Guide!", "Lead travelers on unforgettable journeys",
    [ Step("Share Your Expertise", "Create tours that showcase Ethiopian heritage",
           ["Tour builder tools", "Route planning", "Cultural insights", "Historical knowledge"]),
      Step("Guide Adventures", "Lead groups through authentic cultural experiences",
           ["Group management", "Safety protocols", "Communication tools", "Emergency support"]),
      Step("Build Your Reputation", "Grow your guiding business with great reviews",
           ["Professional profile", "Certification badges", "Repeat bookings", "Referral rewards"]) ])

  /** `getRoleConfig`: the configuration of each role. */
  function Config(role: WelcomeRole): (c: RoleConfig)
    ensures c.steps != []
  {
    match role
    case Tourist => TouristConfig
    case Host => HostConfig
    case Guide => GuideConfig
  }

  /** A configuration of three steps, each listing four features. */
  predicate ThreeByFour(c: RoleConfig)
  {
    |c.steps| == 3 && forall k :: 0 <= k < |c.steps| ==> |c.steps[k].features| == 4
  }

  /** Every role is walked through three steps of four features. */
  lemma EveryRoleThreeByFour(role: WelcomeRole)
    ensures ThreeByFour(Config(role))
    ensures |Config(role).steps| == 3
  {
    var c := Config(role);
    assert |c.steps[0].features| == 4 && |c.steps[1].features| == 4 && |c.steps[2].features| == 4;
  }

  /** The three roles wear three different colours and greet with three different titles. */
  lemma RolesDistinct(a: WelcomeRole, b: WelcomeRole)
    requires a != b
    ensures Config(a).color != Config(b).color
    ensures Config(a).title != Config(b).title
  {
    var ta, tb := Config(a).title, Config(b).title;
    assert ta[9] != tb[9];
    var ca, cb := Config(a).color, Config(b).color;
    assert ca[3] != cb[3];
  }

  // ----- progress display -----

  datatype DotState = Active | Done | Pending

  /** The progress dot of step `index` while `current` is shown. */
  function DotOf(index: int, current: int): (d: DotState)
    ensures d == Active <==> index == current
    ensures d == Done <==> index < current
    ensures d == Pending <==> index > current
  {
    if index == current then Active else if index < current then Done else Pending
  }

  /** The CSS class of a dot. */
  function DotClass(d: DotState): string
  {
    match d
    case Active => "bg-primary"
    case Done => "bg-primary/60"
    case Pending => "bg-gray-200"
  }

  /** The row of dots for `len` steps. */
  function Dots(current: int, len: nat): (ds: seq<DotState>)
    ensures |ds| == len
    ensures forall i :: 0 <= i < len ==> ds[i] == DotOf(i, current)
  {
    seq(len, i => DotOf(i, current))
  }

  /** With a valid current step the row reads: done dots up to it, one active dot, then
      pending dots. */
  lemma DotsShape(current: nat, len: nat)
    requires current < len
    ensures Dots(current, len) == seq(current, _ => Done) + [Active] + seq(len - current - 1, _ => Pending)
  {
    var lhs := Dots(current, len);
    var rhs := seq(current, _ => Done) + [Active] + seq(len - current - 1, _ => Pending);
    assert |lhs| == |rhs|;
    forall i | 0 <= i < len ensures lhs[i] == rhs[i] {
      if i < current {
        assert rhs[i] == Done;
      } else if i == current {
        assert rhs[i] == Active;
      } else {
        assert rhs[i] == seq(len - current - 1, _ => Pending)[i - current - 1];
      }
    }
  }

  /** The label of the right-hand button: Next while a later step exists, Get Started on the
      last one. */
  function ForwardLabel(current: int, len: int): (s: string)
    ensures s == "Next" <==> current < len - 1
    ensures s == "Get Started" <==> current >= len - 1
  {
    if current < len - 1 then "Next" else "Get Started"
  }

  /** The badge: one-based position and number of steps. */
  function Badge(current: int, len: int): (b: (int, int))
    ensures b.0 - 1 == current && b.1 == len
  {
    (current + 1, len)
  }

  /** `disabled={currentStep === 0}` on the Previous button. */
  predicate PreviousDisabled(current: int)
  {
    current == 0
  }

  class Flow {
    const role: WelcomeRole
    var currentStep: nat

    ghost predicate Valid()
      reads this
    {
      currentStep < |Config(role).steps|
    }

    function Len(): nat
    {
      |Config(role).steps|
    }

    /** The flow opens on the first step. */
    constructor (role: WelcomeRole)
      ensures Valid()
      ensures this.role == role && currentStep == 0
    {
      this.role := role;
      currentStep := 0;
    }

    /** The step on screen. */
    function Current(): (s: Step)
      requires Valid()
      reads this
      ensures s in Config(role).steps
    {
      Config(role).steps[currentStep]
    }

    /** `nextStep`: moves forward unless on the last step, which is exactly when the Next
        button is shown. */
    method NextStep()
      requires Valid()
      modifies this`currentStep
      ensures Valid()
      ensures ForwardLabel(old(currentStep), Len()) == "Next" ==> currentStep == old(currentStep) + 1
      ensures ForwardLabel(old(currentStep), Len()) == "Get Started" ==> currentStep == old(currentStep)
    {
      if currentStep < Len() - 1 {
        currentStep := currentStep + 1;
      }
    }

    /** `prevStep`: moves back unless on the first step, which is exactly when the Previous
        button is disabled. */
    method PrevStep()
      requires Valid()
      modifies this`currentStep
      ensures Valid()
      ensures !PreviousDisabled(old(currentStep)) ==> currentStep == old(currentStep) - 1
      ensures PreviousDisabled(old(currentStep)) ==> currentStep == old(currentStep)
    {
      if currentStep > 0 {
        currentStep := currentStep - 1;
      }
    }
  }

  /** A host pressing Next four times ends on the last step, with Get Started shown and the
      badge reading 3 of 3; one Previous goes back to the second step. */
  method WalkThrough() returns (last: nat, forward: string, badge: (int, int), back: nat)
    ensures last == 2 && forward == "Get Started" && badge == (3, 3) && back == 1
  {
    EveryRoleThreeByFour(Host);
    var f := new Flow(Host);
    f.NextStep();
    f.NextStep();
    f.NextStep();
    f.NextStep();
    last := f.currentStep;
    forward := ForwardLabel(f.currentStep, f.Len());
    badge := Badge(f.currentStep, f.Len());
    f.PrevStep();
    back := f.currentStep;
  }
}

=== FILE: wrappers.dfy ===
/** Option and Result, used for absent values and for error returns. */
module Wrappers {

  datatype Option<+T> = None | Some(value: T) {
    function GetOr(default: T): T {
      match this
      case Some(v) => v
      case None => default
    }
  }

  datatype Result<+T, +E> = Ok(value: T) | Err(error: E)
}
